=== FILE: README.md ===
# Nawalingo core, modelled in Dafny

Nawalingo is a language-tutoring platform. Students and tutors sign in through
an identity provider, complete an onboarding wizard (name, languages to learn
with a proficiency, weekly availability, timezone), apply to become tutors, and
search for tutors. This project models the platform's core as immutable data
and pure functions, and proves properties of that model.

What is modelled:

- **Store** (`store.dfy`): the relational data behind the platform. It holds
  users, student and tutor profiles, student languages, availability rows, the
  language catalogue, roles, permissions, role-permission links, role
  assignments (`userRoleAssignment`) and the older `userRole` table. Each
  write is a total function of the store.
- **Authentication** (`auth.dfy`): the bearer-token check that every API route
  runs. The identity provider is an oracle: a map from the tokens it accepts
  to their users.
- **API routes**:
  - `GET /api/user/roles` (`roles_route.dfy`);
  - `GET /api/admin/tutor-applications` (`admin_route.dfy`);
  - `POST /api/tutor/apply` (`apply_route.dfy`);
  - `GET`/`POST /api/user/onboarding` (`onboarding_route.dfy`);
  - `GET`/`PUT /api/user/profile` (`profile_route.dfy`);
  - `GET /api/tutors`, the tutor search with its next-slot projection
    (`tutor_search.dfy`, `next_slot.dfy`).

  Each route returns a reply, a body or an error with its status, together
  with the store after the request. A store failure is a boolean input
  `fault`. The tutor search is modelled twice: as written, and with its page
  size kept between 1 and 50 (see "Findings").
- **Permissions** (`permissions.dfy`): `hasAdminPermission` and
  `listAdminPermissions`.
- **Seeding** (`seed.dfy`): the database seed script, as upserts on the store.
- **Helpers**:
  - the time helpers for day names and "HH:MM" clock strings (`time.dfy`);
  - the JavaScript string and number semantics they rely on (`common.dfy`,
    `numbers.dfy`), such as `trim`, `split`, `parseInt`, `Number`, `%` and
    `toUpperCase`;
  - the availability conversion between submitted slots and stored rows
    (`availability.dfy`);
  - the JSON values of request bodies, with JavaScript truthiness
    (`common.dfy`).
- **Client logic**:
  - the checkbox pickers (`selection.dfy`, `pickers.dfy`);
  - the availability grid (`slots.dfy`);
  - the shared language and proficiency step of the wizards (`wizard.dfy`);
  - the six multi-step forms, each modelled as a state machine with an
    invariant every event preserves:
    - three onboarding forms (`onboarding_form.dfy`, `user_onboarding.dfy`,
      `onboarding_page.dfy`);
    - three tutor application forms (`dashboard_apply_form.dfy`,
      `user_apply_form.dfy`, `tutor_application_form.dfy`);
  - the active-role hook (`active_role.dfy`);
  - the two dashboards (`dashboards.dfy`);
  - the protected route and the sign-in callback (`access.dfy`);
  - the role menu (`role_menu.dfy`);
  - the sign-in/sign-up form (`auth_form.dfy`);
  - the validators (`validators.dfy`).
- **Cross-component consequences** (`cross_checks.dfy`): facts that hold only
  when two parts of the system are put together.

Each wizard module states the same kinds of fact:

- a `Consistent` invariant that every event preserves;
- for every step, the exact condition under which Next passes;
- what a sent request does when it reaches its route.

## Model

| member | source | states |
|---|---|---|
| Common.BlankIffAllSpace | src/app/dashboard/apply/form/page.tsx:38-41 | `!text.trim()` holds exactly when the text is made only of JavaScript whitespace |
| Common.Utf16Length | src/features/auth/AuthForm.tsx:15-20 | `.length` counts UTF-16 code units: at least one per character and at most two, a character above U+FFFF counting two |
| Common.ToUpperOfUpper | src/app/api/user/onboarding/route.ts:150-151 | upper-casing is idempotent, so a value that is already upper case is stored unchanged |
| Common.SplitNoSep | src/app/api/tutors/route.ts:47-50 | a string without the separator splits into the one-element list holding itself |
| Common.SplitAfter | src/lib/auth.ts:35 | splitting `a + sep + b`, where `a` holds no separator, yields `a` followed by the pieces of `b` |
| Common.IndexOfFacts | src/app/dashboard/apply/form/page.tsx:127-133 | `indexOf` is -1 exactly when the element is absent, and otherwise the position of its first occurrence |
| Common.IndexOfDistinct | src/app/dashboard/apply/form/page.tsx:115-120 | in a list without duplicates, `indexOf` finds every element at its own position |
| Numbers.JsRem | src/lib/time.ts:30-36 | JavaScript's `%` with a positive divisor: it agrees with the mathematical remainder for a non-negative dividend, is never positive for a negative one, and is always smaller than the divisor in absolute value |
| Numbers.NatToStringFacts | src/lib/time.ts:31-34 | `toString` of a natural number is a digit string that reads back as that number, has no leading zero, and has one digit exactly below 10 |
| Numbers.PaddedNatValue | src/lib/time.ts:31-34 | `padStart(2, "0")` of a natural number gives at least two digits, exactly two below 100, with the same value |
| Numbers.JsNumberOfDigits | src/lib/time.ts:25 | `Number` reads a digit string as its decimal value, and the empty string as 0 |
| Numbers.ParseIntOfDigits | src/app/api/tutors/route.ts:22-26 | `parseInt(s, 10)` reads a non-empty digit string as its decimal value |
| Numbers.ParseIntOfToString | src/app/api/tutors/route.ts:22-26 | `parseInt` inverts `toString` on every integer, negative numbers included |
| Numbers.OrDefault | src/app/api/tutors/route.ts:22-26 | the `\|\| d` fallback replaces exactly `NaN` and 0 by the default, and keeps every other number |
| Time.DayNameToNumber | src/lib/time.ts:14-16 | the number is -1 or a day index 0-6 |
| Time.DayNameToNumberFacts | src/lib/time.ts:14-16 | -1 exactly for strings that are not one of the seven day names, matched case-sensitively and without trimming |
| Time.NumberToDayName | src/lib/time.ts:19-21 | a number in 0-6 names a day, and any other number gives `undefined` |
| Time.DayNamesDistinct | src/lib/time.ts:1-9 | the seven day names are pairwise distinct |
| Time.DayRoundTrip | src/lib/time.ts:14-21 | both round trips: name to number to name, and number (0-6) to name to number |
| Time.NoColonIsNaN | src/lib/time.ts:24-27 | a string without ':' does not read as a time: the result is `NaN` |
| Time.TimeStringShape | src/lib/time.ts:30-36 | for a non-negative count, the formatted minute field is two digits reading 00-59 and the hour field is the padded count of whole hours |
| Time.TimeOfFields | src/lib/time.ts:24-27 | a time whose two fields read as numbers is hours * 60 + minutes |
| Time.MinutesRoundTrip | src/lib/time.ts:24-36 | formatting then parsing gives back every non-negative minute count |
| Time.ClockRoundTrip | src/lib/time.ts:24-36 | a two-digit "HH:MM" with minutes 00-59 parses to h * 60 + m and formats back to itself; "00:00"–"23:59" fall within 0-1439 |
| Selection.RemoveFacts | src/components/forms/LanguageSelection.tsx:22-28 | `filter(y => y !== x)` keeps exactly the elements other than `x`, in order, and leaves a list without `x` unchanged |
| Selection.RemoveAppend | src/components/onboarding/AvailabilitySelection.tsx:50-58 | filtering distributes over concatenation |
| Selection.Toggle | src/components/forms/LanguageSelection.tsx:22-28 | after a click the item is selected exactly when it was not, and every other item keeps its membership |
| Selection.ToggleTwice | src/components/forms/LanguageSelection.tsx:22-28 | clicking an unselected item twice restores the exact list; clicking a selected item twice keeps the same items, moving that item to the end |
| Selection.ToggleKeepsDistinct | src/components/forms/LanguageSelection.tsx:22-28 | a click never introduces a duplicate |
| Selection.ToggleStaysWithin | src/components/auth/RoleSelection.tsx:14-20 | clicking only offered items keeps the selection within the offered items |
| Selection.ToggleKeepsOthersInOrder | src/components/forms/LanguageSelection.tsx:22-28 | a click moves no other item: the other items stay in the same order |
| Pickers.TogglePick | src/components/onboarding/LanguageSelection.tsx:36-42 | clicking an option selects it exactly when it was not selected |
| Pickers.AvailableLanguagesDistinct | src/components/onboarding/LanguageSelection.tsx:12-23 | the picker offers ten distinct language names |
| Pickers.TogglePickFacts | src/components/onboarding/LanguageSelection.tsx:36-42 | an unchecked option is appended; a checked one is removed with the rest kept in order; a double click restores the list, or at least the same set |
| Pickers.TogglePickDistinct | src/components/forms/LanguageSelection.tsx:22-28 | a duplicate-free selection stays duplicate-free |
| Pickers.RolesStayPickable | src/components/auth/RoleSelection.tsx:3-20 | a role selection drawn from "student" and "tutor" stays so under clicks on the two checkboxes |
| Slots.IsSlotSelectedIsMembership | src/components/onboarding/AvailabilitySelection.tsx:37-41 | `isSlotSelected` holds exactly when the (day, start, end) triple is in the selection |
| Slots.DropSlotIsRemove | src/components/onboarding/AvailabilitySelection.tsx:50-58 | the three-field filter removes exactly the copies of that triple |
| Slots.ToggleTimeSlotIsToggle | src/components/onboarding/AvailabilitySelection.tsx:43-61 | the slot toggle flips exactly the clicked slot of the selected day, keeps every other slot, and a double click on an absent slot restores the list |
| Slots.HourMinutes | src/components/onboarding/AvailabilitySelection.tsx:15-18 | the label "HH:00" of hour i reads as 60 * i minutes |
| Slots.SlotMinutes | src/components/onboarding/AvailabilitySelection.tsx:15-18 | every grid slot is one hour long; the last slot ends at "24:00", which is minute 1440 |
| Slots.SlotsDistinct | src/components/onboarding/AvailabilitySelection.tsx:15-18 | different grid slots start at different times |
| Store.ParseProficiency | src/app/api/user/onboarding/route.ts:153-168 | a string is accepted as a proficiency only when it is exactly the name of the value it reads as |
| Store.ProficiencyRoundTrip | src/app/api/user/onboarding/route.ts:153-168 | every proficiency enum value reads back from its name |
| Store.UpdateStatusFacts | src/app/api/user/onboarding/route.ts:200-220 | the (user, role) rows carry the new status, every other row is as before, and the keys are unchanged |
| Store.SetStatusFacts | src/app/api/user/onboarding/route.ts:200-220 | after the upsert, (user, role) holds exactly the written status and every other (user, role, status) fact is unchanged |
| Store.RolesWithFacts | src/app/api/user/roles/route.ts:38-41 | a role is listed exactly when the user holds it with that status |
| Store.RowsWithFacts | src/app/api/admin/tutor-applications/route.ts:26-30 | the selected rows are exactly those with that role and status |
| Store.ReplaceRowsFacts | src/app/api/user/profile/route.ts:100-121 | replace-all: the user's rows of that type become exactly the new rows, in order, and every other (user, type) keeps its rows |
| Auth.GetAuthenticatedUser | src/lib/auth.ts:30-46 | every failure is 401 "Unauthorized" |
| Auth.BearerTokenField | src/lib/auth.ts:30-35 | a header starting with "Bearer " always yields the field between the first and second space as its token |
| Auth.BearerRoundTrip | src/lib/auth.ts:30-46 | "Bearer " + a token without spaces authenticates as exactly that token's user |
| Auth.BearerTokenIffPrefix | src/lib/auth.ts:30-35 | a header carries a token exactly when it starts with "Bearer " |
| Auth.NoBearerIsUnauthorized | src/lib/auth.ts:30-33 | a missing header, or any other prefix, gets 401 whatever the provider would answer |
| Auth.LowerCaseSchemeRefused | src/lib/auth.ts:30-33 | the scheme is case-sensitive: "bearer " is refused even with a valid token |
| Auth.AuthenticatedIff | src/lib/auth.ts:35-46 | authenticated exactly when the token is one the provider knows, and then as that token's user |
| Permissions.HasAdminPermission | src/lib/permissions.ts:23-60 | an approved ADMIN assignment grants every permission |
| Permissions.GrantedIffExists | src/lib/permissions.ts:43-59 | the scan of links finds a grant exactly when some approved role is linked to the permission |
| Permissions.GrantedNamesIffGranted | src/lib/permissions.ts:81-95 | a name is listed exactly when the scan finds a grant for it |
| Permissions.HasAdminPermissionIff | src/lib/permissions.ts:23-60 | the check holds exactly for an approved admin, or for a user holding an approved role linked to a permission of that name |
| Permissions.ListAdminPermissionsFacts | src/lib/permissions.ts:66-96 | an approved admin gets exactly the four `ALL_PERMISSIONS`; anyone else gets the names linked to their approved roles |
| Permissions.CheckAgreesWithList | src/lib/permissions.ts:12-96 | for each of the four admin permissions, the check and the list agree |
| Permissions.PendingGrantsNothing | src/lib/permissions.ts:30-59 | a user without an APPROVED assignment passes no check and lists nothing |
| Permissions.NoApprovedNoNames | src/lib/permissions.ts:81-95 | without approved roles the list is empty |
| Permissions.SubmittedRowGrantsNothing | src/lib/permissions.ts:30-59 | adding a SUBMITTED assignment changes no permission |
| Seed.UpsertLanguagesFacts | prisma/seed.ts:57-64 | existing language rows are kept unchanged in place, and every seeded code ends up with a row |
| Seed.UpsertLanguagesNoop | prisma/seed.ts:57-64 | when every code already has a row, the language upserts change nothing |
| Seed.UpsertPermissionsFacts | prisma/seed.ts:68-75 | existing permissions keep their descriptions, and the names afterwards are the old ones plus the seeded ones |
| Seed.UpsertPermissionsNoop | prisma/seed.ts:68-75 | when every name is present, the permission upserts change nothing |
| Seed.UpsertLinksFacts | prisma/seed.ts:88-111 | the link upserts keep every existing link in place and leave each found permission linked |
| Seed.UpsertLinksNoop | prisma/seed.ts:88-111 | with every found permission linked already, the link upserts change nothing |
| Seed.UpsertLinksFresh | prisma/seed.ts:88-111 | on links holding none of them, distinct found names add one link each, in order, and a missing name adds nothing |
| Seed.UnknownPermissionSkipped | prisma/seed.ts:91-95 | a permission name that cannot be found is skipped rather than failing |
| Seed.SeedRolesKeeps | prisma/seed.ts:79-115 | the role loop adds exactly the seeded role names and keeps the existing links as a prefix |
| Seed.SeedRolesCovers | prisma/seed.ts:79-115 | after the role loop, every seeded role is linked to each of its permissions that exists |
| Seed.SeedRolesNoop | prisma/seed.ts:79-115 | with every role present and every found permission linked, the role loop changes nothing |
| Seed.SeedRolesWithoutLinks | prisma/seed.ts:88-114 | a role without permissions adds no links |
| Seed.SeedKeepsExisting | prisma/seed.ts:51-115 | seeding never changes an existing row, and leaves the tables it does not seed untouched |
| Seed.SeedCovers | prisma/seed.ts:51-115 | after seeding, every listed language, permission and role is present, and every role is linked to its existing permissions |
| Seed.SeedIdempotent | prisma/seed.ts:51-115 | a second run on the seeded store changes nothing |
| Seed.AdminNamesDistinct | prisma/seed.ts:36-49 | the six ADMIN permission names are distinct |
| Seed.EmptyPermissionsSeeded | prisma/seed.ts:36-75 | seeding an empty permission table creates all six ADMIN permissions |
| Seed.EmptyRoleLoop | prisma/seed.ts:20-34 | the role loop, starting from no roles and no links, links exactly the six permissions to ADMIN |
| Seed.SeedEmptyLinks | prisma/seed.ts:20-115 | on an empty store, ADMIN ends linked to exactly its six permissions in order, and TUTOR and STUDENT to none |
| AvailabilityRows.ConvertSlot | src/app/api/user/onboarding/route.ts:184-191 | a stored row belongs to the caller and is a student availability row |
| AvailabilityRows.ConvertSlots | src/app/api/user/profile/route.ts:104-117 | a successful conversion yields one row per slot, every row the caller's student availability |
| AvailabilityRows.ClockTimeRoundTrip | src/lib/time.ts:24-36 | a two-digit clock time reads as a minute count that formats back to it |
| AvailabilityRows.SlotStored | src/app/api/user/profile/route.ts:104-117 | a slot whose times are numbers is stored with its day number and those minutes |
| AvailabilityRows.RowViewed | src/app/api/user/profile/route.ts:35-43 | a row reads back with its day name and its formatted times |
| AvailabilityRows.SlotRoundTrip | src/app/api/user/profile/route.ts:35-43 | a well-formed slot is stored, and reads back as itself |
| AvailabilityRows.SlotsRoundTrip | src/app/api/user/profile/route.ts:35-43 | a list of well-formed slots is all stored and reads back as the same list |
| AvailabilityRows.NoColonStartFails | src/app/api/user/onboarding/route.ts:184-191 | a slot whose start has no ':' cannot be stored |
| AvailabilityRows.ConvertSlotsCons | src/app/api/user/profile/route.ts:104-117 | the stored list starts with the first slot's row, followed by the rows of the rest |
| AvailabilityRows.ConvertSlotsRows | src/app/api/user/profile/route.ts:104-117 | row i keeps slot i's day number and minutes, one row per slot |
| RolesRoute.LowerAll | src/app/api/user/roles/route.ts:44-46 | one name per role, in order |
| RolesRoute.LowerAllMembers | src/app/api/user/roles/route.ts:44-46 | a name is listed exactly when it is the lower-cased form of some role |
| RolesRoute.LowerAllLower | src/app/api/user/roles/route.ts:44-46 | every listed name has no upper-case letter |
| RolesRoute.GetRoles | src/app/api/user/roles/route.ts:9-52 | every failure is 401 "Unauthorized" or 500 "Internal server error" |
| RolesRoute.RolesUnauthorizedIff | src/app/api/user/roles/route.ts:9-35 | 401 exactly when authentication fails, whatever the store holds |
| RolesRoute.RolesListed | src/app/api/user/roles/route.ts:38-52 | an authenticated caller gets exactly the lower-cased names of the roles they hold APPROVED in `userRole`, or 500 on a store failure |
| RolesRoute.SubmittedNotListed | src/app/api/user/roles/route.ts:38-41 | a SUBMITTED role is not listed |
| AdminRoute.ListTutorApplications | src/app/api/admin/tutor-applications/route.ts:8-65 | every failure is 401, 403 or 500; the 500 with no JSON body comes exactly from an authenticated request whose permission lookup fails |
| AdminRoute.AdminAuthFailure | src/app/api/admin/tutor-applications/route.ts:8-14 | an authentication failure is passed through unchanged, whatever the store holds |
| AdminRoute.AdminForbiddenIff | src/app/api/admin/tutor-applications/route.ts:17-23 | an authenticated caller gets 403 exactly when they hold neither an approved ADMIN assignment nor an approved role linked to MANAGE_TUTOR_APPLICATIONS |
| AdminRoute.AdminListing | src/app/api/admin/tutor-applications/route.ts:26-65 | a permitted caller gets exactly the TUTOR assignments with status SUBMITTED, or 500 on a store failure |
| AdminRoute.AdminReadsAssignmentsAndLinks | src/app/api/admin/tutor-applications/route.ts:8-30 | the rows listed, and every failure, depend on the store only through the assignments and the role-permission links |
| AdminRoute.AdminGateFailure | src/app/api/admin/tutor-applications/route.ts:17-25 | a failed permission lookup escapes the route's `try`: every authenticated caller gets the framework's 500, not the route's own 500 reply |
| ApplyRoute.Apply | src/app/api/tutor/apply/route.ts:8-79 | every failure, including the 500 for a body that is not JSON or is `null`, leaves the store unchanged, and success answers `{ success: true }` |
| ApplyRoute.ApplyAuthFirst | src/app/api/tutor/apply/route.ts:8-15 | authentication comes before the body is read: every body gets the same 401 |
| ApplyRoute.UnreadableBodyFails | src/app/api/tutor/apply/route.ts:17-18 | an authenticated request whose body is not JSON, or is JSON `null`, gets the route's 500, never 400, and keeps the store |
| ApplyRoute.ApplyRejectsIff | src/app/api/tutor/apply/route.ts:17-32 | an authenticated request gets 400 exactly when its body is read and a required field is missing, falsy or an empty array |
| ApplyRoute.ApplySucceeds | src/app/api/tutor/apply/route.ts:34-72 | success stores exactly the submitted texts and the submitted `languagesTaught` array, element for element, as the profile, leaves the caller's TUTOR `userRole` SUBMITTED, and changes nothing else |
| ApplyRoute.ApplyAtomic | src/app/api/tutor/apply/route.ts:34-79 | both writes happen or neither: a failed transaction answers 500 and keeps the store |
| ApplyRoute.NonTextFieldsFailLate | src/app/api/tutor/apply/route.ts:17-79 | truthy values that are not texts (`intro: 5`, `country: {}`) pass the required-field check, so the reply is the 500 of the failed write, not 400, and the store is kept |
| ApplyRoute.TextBodyAccepted | src/app/api/tutor/apply/route.ts:17-51 | non-empty texts and any non-empty array pass the check, and the profile written holds exactly those texts and that array |
| OnboardingRoute.GetOnboarding | src/app/api/user/onboarding/route.ts:22-47 | every failure is 401 "Unauthorized" or 500 "Internal server error" |
| OnboardingRoute.GetOnboardingIff | src/app/api/user/onboarding/route.ts:33-39 | true exactly when the caller's profile exists and is marked completed; a missing profile reads as false |
| OnboardingRoute.CodeToIdIsLastMatch | src/app/api/user/onboarding/route.ts:138-142 | the map holds a key exactly when some found row answers to it, and then holds the last such row's id |
| OnboardingRoute.FoundKeepsMatches | src/app/api/user/onboarding/route.ts:129-142 | restricting the catalogue to the rows answering some key changes no lookup of a requested key |
| OnboardingRoute.UpsertStudentLanguagesSome | src/app/api/user/onboarding/route.ts:143-171 | the upserts succeed exactly when every entry that resolves carries a proficiency naming an enum value once upper-cased |
| OnboardingRoute.UpsertStudentLanguagesEntry | src/app/api/user/onboarding/route.ts:143-171 | other users' entries and unresolved languages are untouched; the caller's entry for a resolved language holds the last matching entry's proficiency |
| OnboardingRoute.PostOnboarding | src/app/api/user/onboarding/route.ts:62-230 | every failure is 401 or 500 and leaves the store unchanged; success answers `{ success: true }` |
| OnboardingRoute.PostAuthFailure | src/app/api/user/onboarding/route.ts:62-68 | an authentication failure writes nothing |
| OnboardingRoute.PostOutcome | src/app/api/user/onboarding/route.ts:94-230 | POST succeeds exactly when the store works and every step of the transaction succeeds, and then the store is the transaction's result |
| OnboardingRoute.PostThenGet | src/app/api/user/onboarding/route.ts:112-121 | after a successful POST, GET reports onboarding completed |
| OnboardingRoute.TransactionSomeIff | src/app/api/user/onboarding/route.ts:94-220 | the transaction fails exactly when the user row is missing, a slot time is `NaN`, or a resolved entry has an invalid proficiency |
| OnboardingRoute.UnknownKeySkipped | src/app/api/user/onboarding/route.ts:147-148 | an entry whose key no catalogue row answers to is skipped, whatever its proficiency |
| OnboardingRoute.KeyResolves | src/app/api/user/onboarding/route.ts:138-148 | a key resolves to the id of the last catalogue row whose code or name it is |
| OnboardingRoute.TransactionCompletes | src/app/api/user/onboarding/route.ts:112-121 | the profile ends completed, and an existing profile keeps its target languages |
| OnboardingRoute.TransactionUserFields | src/app/api/user/onboarding/route.ts:98-107 | each of the five user fields written (user name, first and last name, country, time zone) replaces its column when sent, and an absent one keeps it |
| OnboardingRoute.TransactionReplacesSlots | src/app/api/user/onboarding/route.ts:177-195 | the caller's student rows become exactly one row per slot, and every other (user, type) keeps its rows, the caller's tutor rows included |
| OnboardingRoute.TransactionApproves | src/app/api/user/onboarding/route.ts:200-220 | with a STUDENT role, the caller's STUDENT assignment ends APPROVED and every other assignment is unchanged; without one, nothing changes |
| OnboardingRoute.TransactionLanguages | src/app/api/user/onboarding/route.ts:126-171 | key by key, the caller's entry for a named language holds the last matching entry's proficiency, upper-cased, and nothing else changes |
| ProfileRoute.OrEmpty | src/app/api/user/profile/route.ts:45-50 | an absent column shows as "", and a present one as its value |
| ProfileRoute.GetProfile | src/app/api/user/profile/route.ts:13-60 | every failure is 401, 404 "User not found" or 500 |
| ProfileRoute.PutProfile | src/app/api/user/profile/route.ts:63-132 | every failure is 401 or 500 and leaves the store unchanged |
| ProfileRoute.GetProfileFacts | src/app/api/user/profile/route.ts:15-50 | 404 exactly for an authenticated caller without a user row; unset names and time zone show as "", and a missing profile shows no languages |
| ProfileRoute.ViewRowsShape | src/app/api/user/profile/route.ts:35-43 | each stored student row is shown with its day name and formatted times; a day outside 0-6 shows as undefined |
| ProfileRoute.PutReplacesSlots | src/app/api/user/profile/route.ts:100-121 | the caller's student rows become one row per slot, and every other (user, type) keeps its rows |
| ProfileRoute.PutKeepsOnboardingFlag | src/app/api/user/profile/route.ts:87-97 | PUT sets `onboarding_completed` only when it creates the profile |
| ProfileRoute.PutThenGet | src/app/api/user/profile/route.ts:63-132 | after a PUT with a name (the empty name included), a time zone, languages and well-formed slots, GET returns exactly what was sent, slots in order |
| ProfileRoute.PutThenGetSlots | src/app/api/user/profile/route.ts:100-121 | the same round trip, for any sent name, counted as multisets: each sent slot comes back as often as it was sent |
| ProfileRoute.PutWithoutSlotsFails | src/app/api/user/profile/route.ts:104-131 | a PUT without a slot list fails and changes nothing |
| NextSlot.WeekStart | src/app/api/tutors/route.ts:189-196 | the week start lies on a week boundary (a Monday 00:00), at most now and less than a week before it |
| NextSlot.ProjectShift | src/app/api/tutors/route.ts:193-196 | a start earlier than now moves exactly one week ahead, and any other start stays |
| NextSlot.ProjectWithinWeek | src/app/api/tutors/route.ts:189-196 | for a day 0-6 and a start within the day, the projected start lies in the week beginning now |
| NextSlot.NextSlotIsMinimum | src/app/api/tutors/route.ts:179-199 | no slot exactly when no row is eligible; otherwise the earliest projection of an eligible row |
| NextSlot.NextSlotWithinWeek | src/app/api/tutors/route.ts:179-199 | with well-formed windows, the next slot lies in the week beginning now |
| NextSlot.IsoWeekdayIndex | src/app/api/tutors/route.ts:189 | the weekday index is Monday-first, 0-6 |
| NextSlot.SundayProjectsOntoMonday | src/app/api/tutors/route.ts:189-196 | a window stored for "Sunday" (day 0 of the time helpers) is projected onto a Monday |
| NextSlot.EveryDayShifted | src/app/api/tutors/route.ts:189-196 | every stored day is shifted: a window on day d (0 = Sunday in the time helpers) lands on ISO weekday index d, the day after the one it names |
| NextSlot.NamedIsoIndex | src/lib/time.ts:1-12 | the ISO weekday index (0 = Monday) of the day the time helpers number d, one step back modulo 7 |
| TutorSearch.PageOf | src/app/api/tutors/route.ts:22 | the page is never 0; it is 1 when missing, zero or not a number |
| TutorSearch.PageSizeOf | src/app/api/tutors/route.ts:23-26 | the page size is at most 50, and 10 when missing, zero or not a number |
| TutorSearch.BoundedPageSize | src/app/api/tutors/route.ts:23-26 | the corrected page size is 1 to 50: the parsed size when it is positive, and 1 when it is negative |
| TutorSearch.Slice | src/app/api/tutors/route.ts:109-110 | the page holds the `take` rows from `skip` on, in order, or every row after `skip` when fewer remain |
| TutorSearch.TakeWindow | src/app/api/tutors/route.ts:105-110 | a non-negative `take` reads forward as `Slice` does; a negative one returns, in list order, up to `-take` rows ending `skip` rows before the end, or all of them when fewer remain |
| TutorSearch.NonEmptyTrimmed | src/app/api/tutors/route.ts:47-50 | no more fields than given; a text is kept exactly when it is non-empty and some field trims to it |
| TutorSearch.Matching | src/app/api/tutors/route.ts:39-110 | no more tutors match than were given |
| TutorSearch.RatingFiltered | src/app/api/tutors/route.ts:171-174 | no more tutors survive than were on the page |
| TutorSearch.TeachingOnly | src/app/api/tutors/route.ts:130-131 | no more entries than given; an entry is kept exactly when it is one of the tutor's teaching entries |
| TutorSearch.Results | src/app/api/tutors/route.ts:201-215 | one result per tutor, in order |
| TutorSearch.PageReply | src/app/api/tutors/route.ts:105-229 | a successful page reports its number, its size and the count of all matching tutors, with no more results than rows were read |
| TutorSearch.SearchAsWritten | src/app/api/tutors/route.ts:18-229 | the route as written: every failure is 500; a successful page has a non-zero size of at most 50 and at most as many results as the size's magnitude, so a negative size is not capped; the total is at most the number of tutors |
| TutorSearch.Search | src/app/api/tutors/route.ts:18-229 | the corrected route: every failure is 500; a successful page has a size of 1 to 50, at most that many results, and a total of at most the number of tutors |
| TutorSearch.DefaultQuery | src/app/api/tutors/route.ts:22-100 | a query without parameters reads page 1 of size 10 and filters only on the active flags |
| TutorSearch.WindowOnlyForValidDay | src/app/api/tutors/route.ts:81-86 | the availability filter applies only when `dayOfWeek` parses to 0-6 |
| TutorSearch.WindowDefaults | src/app/api/tutors/route.ts:85-86 | for a valid day, the minute bounds default to 0 and 1439 |
| TutorSearch.OverlapSymmetric | src/app/api/tutors/route.ts:88-97 | window overlap is symmetric, and every non-empty window overlaps itself |
| TutorSearch.OverlapExample | src/app/api/tutors/route.ts:88-97 | the query 550-590 matches a 540-600 window and misses a 601-700 one; inactive and student rows never match |
| TutorSearch.NativeOnSameEntry | src/app/api/tutors/route.ts:45-78 | the NATIVE proficiency must sit on the same entry as the searched language |
| TutorSearch.MatchingFacts | src/app/api/tutors/route.ts:39-110 | a tutor is counted exactly when it is in the input and passes every filter |
| TutorSearch.RatingFilteredFacts | src/app/api/tutors/route.ts:150-174 | a tutor on the page survives exactly when its rating, 0 when unrated, lies in the window |
| TutorSearch.ResultsFacts | src/app/api/tutors/route.ts:201-215 | each result has its tutor's id, the rating or `null`, and the next slot |
| TutorSearch.TotalBeforeRatings | src/app/api/tutors/route.ts:105-110 | `total` counts every filtered tutor before pagination and the rating window, independent of ratings and the clock |
| TutorSearch.RatingAfterPagination | src/app/api/tutors/route.ts:105-174 | a tutor is listed exactly when it is on the requested page and its rating lies in the window |
| TutorSearch.UnratedTutor | src/app/api/tutors/route.ts:150-174 | an unrated tutor counts as 0: it passes the default window and reports `rating: null` |
| TutorSearch.NaNRatingBoundKeepsNone | src/app/api/tutors/route.ts:171-174 | a minimum rating that is not a number lets no tutor through |
| TutorSearch.NonEmptyTrimmedAppend | src/app/api/tutors/route.ts:47-50 | the language filter keeps the order of the fields: it distributes over concatenation, and one field is kept, trimmed, exactly when it trims to a non-empty text |
| TutorSearch.TeachingOnlyAppend | src/app/api/tutors/route.ts:130-131 | the teaching filter keeps the order of the entries: it distributes over concatenation, and one entry is kept exactly when it is a teaching entry |
| TutorSearch.UnfilteredMatchesAll | src/app/api/tutors/route.ts:39-110 | with no filter asked for, every tutor matches, in order, when all are active |
| TutorSearch.DefaultWindowKeepsUnrated | src/app/api/tutors/route.ts:152-174 | the default rating window [0, 5] keeps every unrated tutor on the page, in order |
| TutorSearch.SearchAgreesForPositiveSize | src/app/api/tutors/route.ts:18-229 | the corrected route answers exactly as the route as written whenever the parsed page size is positive |
| TutorSearch.NegativePageSizeBypassesCap | src/app/api/tutors/route.ts:23-26 | `?pageSize=-1000` over more than 50 active, unrated tutors: the route as written returns more than 50 results, up to 1000 |
| TutorSearch.NegativePageSizeBounded | src/app/api/tutors/route.ts:23-26 | the same query on the corrected route returns a page of size 1 with one result |
| TutorSearch.MinusThousandPageSize | src/app/api/tutors/route.ts:23-26 | the page size "-1000" parses to -1000 and passes the `Math.min` cap |
| TutorSearch.DefaultRatingBounds | src/app/api/tutors/route.ts:152-153 | the rating bounds default to 0 and 5 |
| Wizard.PreviousFacts | src/components/forms/OnboardingForm.tsx:330-343 | with distinct steps, the counter lies in 1..n and names the position; Back is missing exactly on the first step and otherwise goes one step back |
| Wizard.FindDetail | src/components/forms/OnboardingForm.tsx:104-109 | the found row is for the searched language |
| Wizard.Lookup | src/components/forms/OnboardingForm.tsx:104-109 | the row kept for a language is for that language |
| Wizard.Resync | src/components/forms/OnboardingForm.tsx:243-253 | the resync yields one row per selected language |
| Wizard.CheckLanguages | src/components/forms/OnboardingForm.tsx:98-117 | the check keeps the selection and fails only with the form's own messages |
| Wizard.FindDetailFirst | src/components/forms/OnboardingForm.tsx:104-109 | the search finds the first row for a language |
| Wizard.FindDetailNone | src/components/forms/OnboardingForm.tsx:104-109 | with no row for a language, the search finds nothing |
| Wizard.ResyncFacts | src/components/forms/OnboardingForm.tsx:243-253 | row i is for the i-th selected language; it keeps the first existing row, or is new and without proficiency |
| Wizard.ResyncInSync | src/components/forms/OnboardingForm.tsx:104-109 | rows already in sync are left exactly as they are |
| Wizard.ResyncMakesInSync | src/components/forms/OnboardingForm.tsx:243-253 | the resync of a duplicate-free selection is in sync with it |
| Wizard.ResyncKeepsLevels | src/components/forms/OnboardingForm.tsx:243-253 | the resync invents no proficiency |
| Wizard.LookupIsExisting | src/components/forms/OnboardingForm.tsx:104-109 | a lookup yields an existing row or a row without proficiency |
| Wizard.PickFacts | src/components/forms/OnboardingForm.tsx:243-253 | a language click keeps the picks in sync and the levels among the options, and toggles that language |
| Wizard.SetProficiencyFacts | src/components/forms/OnboardingForm.tsx:273-280 | choosing a proficiency changes only that row's level, and keeps the picks in sync |
| Wizard.CheckLanguagesFacts | src/components/forms/OnboardingForm.tsx:98-117 | Next passes exactly when something is picked and every picked language has a row with a proficiency |
| Wizard.UsernameIsOneWord | src/components/forms/OnboardingForm.tsx:90-95 | a valid username is non-blank and a single space-free word |
| Wizard.ClickSlotKeepsGrid | src/components/onboarding/AvailabilitySelection.tsx:43-61 | clicks keep the selection on the grid |
| Wizard.GridSlotConverts | src/app/api/user/onboarding/route.ts:184-191 | one grid slot always converts to a row |
| Wizard.GridSlotsConvert | src/app/api/user/onboarding/route.ts:177-195 | grid slots always convert, so no submitted grid slot makes the write fail |
| Wizard.OptionsParse | src/app/user/onboarding/page.tsx:239-258 | every option of either proficiency control is accepted by the onboarding route once upper-cased |
| Wizard.AsApplyBody | src/app/dashboard/apply/form/page.tsx:89-99 | the forms send `languagesTaught` as an array of `{ language, proficiency }` objects, one per picked row in order; with a country the body can be written, and the profile keeps the intro, experience and country texts |
| Wizard.ApplicationStored | src/app/api/tutor/apply/route.ts:34-51 | an application that passes the route's check is stored with its texts, and `languages_taught` holds the sent `{ language, proficiency }` objects, one per row in order |
| Wizard.ApplicationRequiredFields | src/app/api/tutor/apply/route.ts:21-32 | an application passes the required-field check exactly when intro and experience are non-empty, a language row exists and the country is non-empty |
| OnboardingFormWizard.NextStep | src/components/forms/OnboardingForm.tsx:82-156 | an error keeps the step; a body is sent only from the timezone step with a session; otherwise the step advances by exactly one |
| OnboardingFormWizard.Handle | src/components/forms/OnboardingForm.tsx:203-347 | only Next on the timezone step sends anything |
| OnboardingFormWizard.StepsFacts | src/components/forms/OnboardingForm.tsx:20-21 | four distinct steps, each at its index; the counter shows index + 1 of 4 |
| OnboardingFormWizard.InitialFacts | src/components/forms/OnboardingForm.tsx:196-197 | the form starts consistent, on step 1 |
| OnboardingFormWizard.BackFacts | src/components/forms/OnboardingForm.tsx:330-343 | Back is absent on the first step; elsewhere it goes one step back, clears the error and keeps every field |
| OnboardingFormWizard.NameStepIff | src/components/forms/OnboardingForm.tsx:85-97 | the name step passes exactly with non-blank names and a one-word username; names are checked first |
| OnboardingFormWizard.LanguagesStepIff | src/components/forms/OnboardingForm.tsx:98-117 | the languages step passes exactly when something is picked and each pick has a proficiency |
| OnboardingFormWizard.LaterStepsIff | src/components/forms/OnboardingForm.tsx:118-138 | availability passes exactly with a slot; the last step sends exactly with a session |
| OnboardingFormWizard.HandleKeepsConsistent | src/components/forms/OnboardingForm.tsx:82-129 | every event preserves the invariant that every earlier step's check holds |
| OnboardingFormWizard.SentBodyFacts | src/components/forms/OnboardingForm.tsx:147-155 | a sent body has valid names, a username, a language with dropdown levels and grid slots |
| OnboardingFormWizard.SentBodyCommits | src/components/forms/OnboardingForm.tsx:131-156 | a sent body commits for any caller with a user row, storing the username as typed |
| UserOnboardingWizard.NextStep | src/app/user/onboarding/page.tsx:76-140 | an error keeps the step; a body is sent only from the timezone step with a session; otherwise the step advances by exactly one |
| UserOnboardingWizard.Handle | src/app/user/onboarding/page.tsx:184-314 | only Next on the timezone step sends anything |
| UserOnboardingWizard.StepsFacts | src/app/user/onboarding/page.tsx:17-18 | four distinct steps, each at its index; the counter shows index + 1 of 4 |
| UserOnboardingWizard.InitialFacts | src/app/user/onboarding/page.tsx:177-178 | the form starts consistent, on step 1 |
| UserOnboardingWizard.BackFacts | src/app/user/onboarding/page.tsx:297-311 | Back is absent on the first step; elsewhere it goes one step back, clears the error and keeps every field |
| UserOnboardingWizard.NameStepIff | src/app/user/onboarding/page.tsx:79-85 | the name step passes exactly with a non-blank username |
| UserOnboardingWizard.LanguagesStepIff | src/app/user/onboarding/page.tsx:86-105 | the languages step passes exactly when something is picked and each pick has a proficiency |
| UserOnboardingWizard.LaterStepsIff | src/app/user/onboarding/page.tsx:106-126 | availability passes exactly with a slot; the last step sends exactly with a session |
| UserOnboardingWizard.HandleKeepsConsistent | src/app/user/onboarding/page.tsx:76-117 | every event preserves the invariant that every earlier step's check holds |
| UserOnboardingWizard.SentBodyCommits | src/app/user/onboarding/page.tsx:119-140 | a sent body commits for any caller with a user row; the username is stored as typed, and names and country are kept |
| OnboardingPageWizard.NextStep | src/app/onboarding/page.tsx:75-139 | an error keeps the step; a body is sent only from the timezone step with a session; otherwise the step advances by exactly one |
| OnboardingPageWizard.Handle | src/app/onboarding/page.tsx:187-311 | only Next on the timezone step sends anything |
| OnboardingPageWizard.StepsFacts | src/app/onboarding/page.tsx:325-333 | four distinct steps, each at its index |
| OnboardingPageWizard.InitialFacts | src/app/onboarding/page.tsx:172-183 | the form starts consistent, with only the first progress segment highlighted |
| OnboardingPageWizard.BackFacts | src/app/onboarding/page.tsx:291-308 | Back is absent on the first step; elsewhere it goes one step back, clears the error and keeps every field |
| OnboardingPageWizard.NameStepIff | src/app/onboarding/page.tsx:78-84 | the name step passes exactly with a non-blank full name |
| OnboardingPageWizard.LanguagesStepIff | src/app/onboarding/page.tsx:85-104 | the languages step passes exactly when something is picked and each pick has a proficiency |
| OnboardingPageWizard.LaterStepsIff | src/app/onboarding/page.tsx:105-125 | availability passes exactly with a slot; the last step sends exactly with a session |
| OnboardingPageWizard.HandleKeepsConsistent | src/app/onboarding/page.tsx:75-116 | every event preserves the invariant that every earlier step's check holds |
| OnboardingPageWizard.ProgressFacts | src/app/onboarding/page.tsx:172-183 | `getStepIndex` maps the four steps to 0-3; exactly the segments up to the current step are highlighted |
| OnboardingPageWizard.SentBodyCommits | src/app/onboarding/page.tsx:118-139 | a sent body commits for any caller with a user row; the typed name is not stored |
| DashboardApplyWizard.NextStep | src/app/dashboard/apply/form/page.tsx:33-96 | an error keeps the step; an application is sent only from the country step with a session; otherwise the step advances by exactly one |
| DashboardApplyWizard.Handle | src/app/dashboard/apply/form/page.tsx:143-263 | only Next on the country step sends anything |
| DashboardApplyWizard.StepsFacts | src/app/dashboard/apply/form/page.tsx:115-133 | four distinct steps, each at its index; segment i is highlighted exactly from step i on |
| DashboardApplyWizard.InitialFacts | src/app/dashboard/apply/form/page.tsx:19-28 | the form starts consistent, on the intro step |
| DashboardApplyWizard.BackFacts | src/app/dashboard/apply/form/page.tsx:249-259 | Back is absent on the first step; elsewhere it goes one step back, clears the error and keeps every field |
| DashboardApplyWizard.TextStepsIff | src/app/dashboard/apply/form/page.tsx:37-79 | intro and experience pass exactly when non-blank; the country step sends exactly with a session, whatever the country |
| DashboardApplyWizard.LanguagesStepIff | src/app/dashboard/apply/form/page.tsx:44-61 | the languages step passes exactly when something is picked and each pick has a proficiency |
| DashboardApplyWizard.HandleKeepsConsistent | src/app/dashboard/apply/form/page.tsx:33-73 | every event preserves the invariant that every earlier step's check holds |
| DashboardApplyWizard.SentRejectedIffNoCountry | src/app/dashboard/apply/form/page.tsx:91-96 | a sent application is refused with 400 exactly when no country was chosen |
| UserApplyWizard.NextStep | src/app/user/apply/form/page.tsx:29-88 | an error keeps the step; an application is sent only from the experience step with a session; otherwise the step advances by exactly one |
| UserApplyWizard.Handle | src/app/user/apply/form/page.tsx:122-237 | only Next on the experience step sends anything |
| UserApplyWizard.StepsFacts | src/app/user/apply/form/page.tsx:107-117 | three distinct steps, each at its index; the counter shows index + 1 of 3 |
| UserApplyWizard.InitialFacts | src/app/user/apply/form/page.tsx:107-117 | the form starts consistent, on step 1 |
| UserApplyWizard.BackFacts | src/app/user/apply/form/page.tsx:216-227 | Back is absent on the first step; elsewhere it goes one step back, clears the error and keeps every field |
| UserApplyWizard.TextStepsIff | src/app/user/apply/form/page.tsx:33-72 | intro passes exactly when non-blank; experience sends exactly when non-blank and with a session, text checked first |
| UserApplyWizard.LanguagesStepIff | src/app/user/apply/form/page.tsx:40-57 | the languages step passes exactly when something is picked and each pick has a proficiency |
| UserApplyWizard.HandleKeepsConsistent | src/app/user/apply/form/page.tsx:29-66 | every event preserves the invariant that every earlier step's check holds |
| UserApplyWizard.SentAlwaysRejected | src/app/user/apply/form/page.tsx:84-88 | every application sent is refused with 400 and leaves the store as it was: no country is ever sent |
| TutorApplicationWizard.NextStep | src/features/tutor/TutorApplicationForm.tsx:28-89 | an error keeps the step; an application is sent only from the experience step with a session; otherwise the step advances by exactly one |
| TutorApplicationWizard.Handle | src/features/tutor/TutorApplicationForm.tsx:122-232 | only Next on the experience step sends anything |
| TutorApplicationWizard.StepsFacts | src/features/tutor/TutorApplicationForm.tsx:108-117 | three distinct steps, each at its index; the counter shows index + 1 of 3 |
| TutorApplicationWizard.InitialFacts | src/features/tutor/TutorApplicationForm.tsx:108-117 | the form starts consistent, on step 1 |
| TutorApplicationWizard.BackFacts | src/features/tutor/TutorApplicationForm.tsx:217-229 | Back is absent on the first step; elsewhere it goes one step back, clears the error and keeps every field |
| TutorApplicationWizard.TextStepsIff | src/features/tutor/TutorApplicationForm.tsx:32-73 | intro passes exactly with at least 180 trimmed code units; experience sends exactly with at least 240 and a session, length checked first |
| TutorApplicationWizard.LongEnoughNotBlank | src/features/tutor/TutorApplicationForm.tsx:32-65 | a text long enough for either check is not blank |
| TutorApplicationWizard.LanguagesStepIff | src/features/tutor/TutorApplicationForm.tsx:39-56 | the languages step passes exactly when something is picked and each pick has a proficiency |
| TutorApplicationWizard.HandleKeepsConsistent | src/features/tutor/TutorApplicationForm.tsx:28-67 | every event preserves the invariant that every earlier step's check holds |
| TutorApplicationWizard.SentAlwaysRejected | src/features/tutor/TutorApplicationForm.tsx:85-89 | every application sent is refused with 400 and leaves the store as it was: no country is ever sent |
| ActiveRole.Select | src/hooks/useActiveRole.ts:21-32 | the active role afterwards is a fetched role or unchanged, and the stored entry follows it |
| ActiveRole.Refresh | src/hooks/useActiveRole.ts:15-38 | a fetch that throws changes nothing; otherwise the roles are replaced by the fetched list |
| ActiveRole.SelectCases | src/hooks/useActiveRole.ts:26-32 | a valid stored role is kept; otherwise the first role becomes active and stored; with no roles nothing changes |
| ActiveRole.SelectFromFresh | src/hooks/useActiveRole.ts:12-32 | from a fresh state, no role is active exactly when none was fetched; otherwise a fetched role is active |
| ActiveRole.SelectIdempotent | src/hooks/useActiveRole.ts:15-38 | fetching the same roles again changes nothing |
| ActiveRole.SwitchSurvivesRefresh | src/hooks/useActiveRole.ts:15-43 | a switched-to role survives the next fetch exactly when it is non-empty and still fetched, is the first fetched role, or nothing was fetched |
| ActiveRole.Capitalize | src/app/user/dashboard/page.tsx:150 | the first character is upper-cased and the rest kept |
| ActiveRole.ActiveLabel | src/app/user/dashboard/page.tsx:156-162 | the label is never empty, and a non-empty active role keeps its length |
| ActiveRole.Buttons | src/app/user/dashboard/page.tsx:137-155 | one button per role, shown only for more than one role |
| ActiveRole.ButtonsFacts | src/app/user/dashboard/page.tsx:137-155 | the disabled buttons are exactly those of the active role, and pressing a button makes its role active |
| ActiveRole.ActiveButtonShown | src/app/user/dashboard/page.tsx:148 | with several roles and an active role among them, some button is disabled |
| UserDashboard.Load | src/app/user/dashboard/page.tsx:24-88 | roles are fetched only after the onboarding check answered "completed", and the page redirects exactly without a session |
| UserDashboard.DashboardIff | src/app/user/dashboard/page.tsx:24-132 | the dashboard shows exactly with a session, a completed onboarding and a roles request that did not throw |
| UserDashboard.DashboardActiveRole | src/app/user/dashboard/page.tsx:60-75 | the active role is the stored one when valid, else the first role, which is then stored, else none |
| UserDashboard.DashboardAfterOnboarding | src/app/user/dashboard/page.tsx:41-58 | after a successful onboarding POST, the next visit passes the onboarding check |
| RoleDashboard.ApprovedRoles | src/app/dashboard/page.tsx:28-37 | no more roles than rows |
| RoleDashboard.ApprovedRolesMembers | src/app/dashboard/page.tsx:28-37 | a role is listed exactly when some row grants it with status "approved" |
| RoleDashboard.Load | src/app/dashboard/page.tsx:11-55 | no user clears the roles; a query error keeps them; otherwise the approved roles go through the active-role rule |
| RoleDashboard.FirstLoad | src/app/dashboard/page.tsx:11-55 | on first load, a role is active exactly when some row is approved, and it is one of the approved roles |
| ProtectedRoute.RolesFrom | src/lib/roles.ts:13-36 | roles are known only from a successful request with a token, and then are the listed roles or none |
| ProtectedRoute.Guard | src/providers/auth/protected-route.tsx:16-50 | "forbidden" comes exactly with the redirect to the user dashboard, and the check stays pending only while loading or without a user |
| ProtectedRoute.GuardCases | src/providers/auth/protected-route.tsx:20-62 | the decision branch by branch: sign-in redirect, "ok" without required roles, "ok" exactly on a role match, "forbidden" renders nothing |
| ProtectedRoute.ChildrenIff | src/providers/auth/protected-route.tsx:52-62 | children render exactly with a user and either no required roles or a matching role |
| ProtectedRoute.UpperCaseRequirementForbidden | src/providers/auth/protected-route.tsx:16-18 | required roles that each hold an upper-case letter never match the lower-cased roles, whatever the store holds |
| AuthCallback.Redirect | src/app/auth/callback/page.tsx:10-44 | the callback lands on sign-in, onboarding or the student dashboard |
| AuthCallback.RedirectIff | src/app/auth/callback/page.tsx:10-44 | sign-in exactly without a session; onboarding exactly on a successful "not completed"; every failure lands on the dashboard |
| AuthCallback.RedirectFollowsStore | src/app/auth/callback/page.tsx:16-35 | a user without a student profile goes to onboarding; after a successful onboarding POST, to the dashboard |
| RoleMenu.NavLabels | src/features/user/RoleMenuItems.tsx:75-78 | "dashboard" comes first, then the role's items, in order |
| RoleMenu.Slug | src/features/user/RoleMenuItems.tsx:85-88 | the slug has the label's length and no space |
| RoleMenu.Links | src/features/user/RoleMenuItems.tsx:75-95 | one link per label, in order, exactly the current path highlighted |
| RoleMenu.SlugRoundTrip | src/features/user/RoleMenuItems.tsx:45-88 | on the menu's labels the slug is undone by turning "-" back into spaces, so different labels have different slugs |
| RoleMenu.ItemPathIsSlug | src/features/user/RoleMenuItems.tsx:85-88 | the "dashboard" special case agrees with the general rule: every path is the prefix plus the slug |
| RoleMenu.LabelFacts | src/features/user/RoleMenuItems.tsx:45-68 | student and tutor have six links and admin seven; labels start lower case and differ within a role |
| RoleMenu.SlugStart | src/features/user/RoleMenuItems.tsx:85-88 | the slug keeps the length and a leading lower-case letter |
| RoleMenu.PathsDistinct | src/features/user/RoleMenuItems.tsx:45-88 | within a role, no two links share a path |
| AuthForm.FriendlyMessage | src/features/auth/AuthForm.tsx:57-72 | the message shown is never empty |
| AuthForm.FriendlyMessageCases | src/features/auth/AuthForm.tsx:57-72 | statuses 400, 401 and 429 fix the message; any other error shows its own message when it has one; everything else gets the generic text |
| AuthForm.Validate | src/features/auth/AuthForm.tsx:15-20 | each field reports its own error: an email the validator refuses, a password under six code units |
| AuthForm.Submit | src/features/auth/AuthForm.tsx:74-113 | navigation goes to onboarding after a sign-up and to the home page after a sign-in |
| AuthForm.SubmitIff | src/features/auth/AuthForm.tsx:74-113 | navigation happens exactly with valid fields, no provider error and, for sign-up, a user; a short password never reaches the provider |
| Validators.IsEmailSound | src/lib/utils.ts:19-21 | every string the direct test accepts matches `^[^\s@]+@[^\s@]+\.[^\s@]+$` |
| Validators.IsEmailComplete | src/lib/utils.ts:19-21 | every string matching the pattern passes the direct test |
| Validators.IsEmailIffPattern | src/lib/utils.ts:19-21 | the direct test decides the pattern exactly |
| Validators.EmailExamples | src/lib/utils.ts:19-21 | "a@b.c" passes and "a@b" does not |
| Validators.IsRequiredCases | src/lib/utils.ts:23-25 | exactly `undefined`, `null` and "" are missing; zero, false and any non-empty string count as present |
| CrossChecks.SeedNames | prisma/seed.ts:6-17 | the seeded languages' English names, in seeding order |
| CrossChecks.PickerMatchesSeed | src/components/onboarding/LanguageSelection.tsx:12-23 | the onboarding picker offers exactly the seeded languages, by name and in order |
| CrossChecks.ApplicationInvisibleToAdmin | src/app/api/tutor/apply/route.ts:54-69 | an application leaves the assignment rows the admin listing returns unchanged, and grants or revokes no admin permission: it writes `userRole`, while the listing selects assignments |
| CrossChecks.ApplicantNotListed | src/app/api/admin/tutor-applications/route.ts:26-30 | after a successful application, the applicant is not listed unless a pending TUTOR assignment already existed |

## Left out

- I/O is not modelled. The identity provider, `fetch`, `localStorage`, the router and the database client become inputs or oracles: a token map, a `signedIn` flag, reply values and a `fault` flag. Rendering, loading flags and `typeof window` checks are left out, since they affect presentation only.
- Time zones and luxon are left out: the next-slot projection works on whole minutes from a Monday 00:00 UTC origin. Ratings are averaged as reals, with no floating-point rounding.
- `Promise.all` and `$transaction` are treated as sequential and all-or-nothing. Concurrency between requests is not modelled.
- `Number()` is modelled for integers: surrounding white space is trimmed, a blank string reads as 0, and an optional sign followed by decimal digits reads as its value. Decimals (`"1.5"`, `"1."`), exponents (`"1e3"`), hex, octal and binary literals (`"0x10"`) and `"Infinity"` are numbers in JavaScript but read as `NaN` here.
- JSON numbers in request bodies are integers; fractions are not modelled.
- Integers are unbounded, so `parseInt` and `Number()` are exact. JavaScript numbers are doubles, which round integers above 2^53; that rounding is not modelled.
- Case mapping is ASCII-only: `toUpperCase`/`toLowerCase` of non-ASCII letters is not modelled.
- Some database behaviour is an assumption of this model, since the database schema is not part of it:
  - an `update` of a missing user row fails;
  - a tutor profile for a caller without a `User` row fails its foreign key;
  - a proficiency that is not an enum name fails;
  - writing a `NaN` minute fails;
  - a negative `skip` fails, while a negative `take` reads backwards from the end of the list, in the same row order as a positive one;
  - a value of the wrong type for a text column fails;
  - `languages_taught` is a JSON column, so any array is stored as given;
  - in the tutor search, a valid `dayOfWeek` with a `startMinute` or `endMinute` that does not parse puts `NaN` into the filter, which fails.

  Each of these becomes a 500 with the store unchanged.
- Row order returned by `findMany` without `orderBy` is taken as storage order.
- The onboarding forms' check on mount is not modelled (src/components/forms/OnboardingForm.tsx:46-80, src/app/onboarding/page.tsx:39-73, src/app/user/onboarding/page.tsx:40-74). It sends `GET /api/user/onboarding`, redirects a user whose onboarding is complete, and shows "Failed to check onboarding status" when the request throws. It is a redirect before the form is used; the route it calls is modelled.
- The forms' handling of the reply to the request they send is not modelled. That covers error display from the response, redirects after success and the `finally` loading flags. The sent request itself is modelled, and for each form a lemma follows it into its route.
- src/features/user/LanguageSelection.tsx is not part of this model.
- The user/apply form keeps an unused `country` state. It is not modelled because no input sets it and the body never sends it.
- Email validation in the sign-in form comes from a schema library and is an input flag. `isEmail` in src/lib/utils.ts is modelled fully.
- `getUserRoles`: a response body whose JSON parsing throws is treated like a thrown request.
- The role dashboard's query filters on the lower-case string "approved" while the API routes use the upper-case enum. Rows are modelled as the client sees them.
- Left out because they do not change behaviour: `formatTimeForDisplay`, every UI component with no logic, the Google OAuth button, and the seed script's logging and error exit.
- AdminRoute.ListTutorApplications: the joined user and tutor-profile columns are not modelled. Each listed row also carries the user's first name, last name and email and the tutor profile's intro, teaching experience, country and teaching languages (src/app/api/admin/tutor-applications/route.ts:31-54); the reply here is the assignment rows alone.
- AdminRoute.AdminReadsAssignmentsAndLinks and CrossChecks.ApplicationInvisibleToAdmin: they speak of the listed assignment rows only. The joined columns read the user and tutor-profile tables, and an application does rewrite the tutor profile, so the program's full reply can change.
- ProtectedRoute.RolesFrom: the loading interval between the two effects is collapsed into one decision.

## Findings

| source | as written | input that shows it | evidently intended | confidence | as-written member | corrected member |
|---|---|---|---|---|---|---|
| src/app/api/tutors/route.ts:23-26 | `Math.min(parseInt(pageSize) \|\| 10, 50)` caps the page size from above only; a negative size reaches `findMany` as a negative `take`, which the ORM reads backwards from the end of the list | `GET /api/tutors?pageSize=-1000` with more than 50 active tutors: up to 1000 results in one page (`TutorSearch.NegativePageSizeBypassesCap`) | at most 50 tutors per page, as the comment "max 50 per page" says; the model raises a negative size to 1 | not executed; medium, since it rests on the ORM's documented reading of a negative `take` | TutorSearch.SearchAsWritten | TutorSearch.Search |

=== FILE: access.dfy ===
/** The access decision of `ProtectedRoute`
    (src/providers/auth/protected-route.tsx), taken from its initial
    "checking" state once the auth provider has answered. The roles come
    from `getUserRoles` (src/lib/roles.ts), which calls `GET /api/user/roles`
    and turns every failure into an empty list; the promise is taken as
    resolved at once. */
module ProtectedRoute {
  import opened Common
  import opened Http
  import opened Auth
  import RolesRoute
  import Store

  /** `roleCheck`. */
  datatype Check = Checking | Ok | Forbidden

  /** The effects' result: where they redirected and the new `roleCheck`. */
  datatype Effect = Effect(redirect: Option<string>, check: Check)

  /** What is rendered: the loading text, nothing, or the children. */
  datatype Screen = Spinner | Blank | Children

  const SignIn: string := "/auth/signin"
  const UserDashboard: string := "/user/dashboard"

  /** `getUserRoles`: the listed roles, or none without a token (`None`),
      on a refused request, or when the request throws (also `None`). */
  function RolesFrom(reply: Option<Reply<seq<string>>>): (r: seq<string>)
    ensures reply.None? || reply.value.Failure? ==> r == []
  {
    if reply.Some? && reply.value.Success? then reply.value.body else []
  }

  /** `roles.some(r => requiredRoles.includes(r))`. */
  predicate Matches(roles: seq<string>, required: seq<string>) {
    exists i :: 0 <= i < |roles| && roles[i] in required
  }

  /** Both effects, starting from "checking": without a user redirect to
      sign-in; with required roles, "ok" exactly on a match, else
      "forbidden"; with none, "ok"; while loading, nothing. A "forbidden"
      result then redirects to the user dashboard. */
  function Guard(loading: bool, signedIn: bool, required: Option<seq<string>>, roles: seq<string>): (r: Effect)
    ensures r.check == Forbidden <==> r.redirect == Some(UserDashboard)
    ensures r.check == Checking ==> loading || !signedIn
  {
    if !loading && !signedIn then Effect(Some(SignIn), Checking)
    else if !loading && required.Some? && |required.value| > 0 then
      if Matches(roles, required.value) then Effect(None, Ok) else Effect(Some(UserDashboard), Forbidden)
    else if !loading then Effect(None, Ok)
    else Effect(None, Checking)
  }

  /** The render. */
  function Render(loading: bool, signedIn: bool, check: Check): Screen {
    if loading || !signedIn || check == Checking then Spinner
    else if check == Forbidden then Blank
    else Children
  }

  /** The decision, branch by branch: no user means the sign-in redirect and
      the loading text; no required roles means "ok"; required roles mean
      "ok" exactly on a match; "forbidden" renders nothing. */
  lemma {:induction false} GuardCases(loading: bool, signedIn: bool, required: Option<seq<string>>, roles: seq<string>)
    ensures var e := Guard(loading, signedIn, required, roles);
      && (!loading && !signedIn ==> e.redirect == Some(SignIn) && Render(loading, signedIn, e.check) == Spinner)
      && (!loading && signedIn && (required.None? || required.value == []) ==> e == Effect(None, Ok))
      && (!loading && signedIn && required.Some? && required.value != [] ==>
            (e.check == Ok <==> Matches(roles, required.value))
            && (e.check == Forbidden <==> !Matches(roles, required.value)))
      && (e.check == Forbidden ==> Render(loading, signedIn, e.check) == Blank)
  {
  }

  /** The children render exactly when the provider has answered with a
      user and either no roles are required or one of the user's roles is
      required. */
  lemma {:induction false} ChildrenIff(loading: bool, signedIn: bool, required: Option<seq<string>>, roles: seq<string>)
    ensures Render(loading, signedIn, Guard(loading, signedIn, required, roles).check) == Children <==>
              !loading && signedIn && (required.None? || required.value == [] || Matches(roles, required.value))
  {
  }

  /** The roles route lower-cases every role, so a non-empty list of
      required roles each containing an upper-case letter is never met:
      whatever the store holds, the user is sent back to the dashboard. */
  lemma {:induction false} UpperCaseRequirementForbidden(header: Option<string>, provider: map<string, Store.UserId>, s: Store.Store,
                                      fault: bool, required: seq<string>)
    requires required != [] && forall i :: 0 <= i < |required| ==> !HasNoUpper(required[i])
    ensures Guard(false, true, Some(required), RolesFrom(Some(RolesRoute.GetRoles(header, provider, s, fault)))).check
            == Forbidden
  {
    var roles := RolesFrom(Some(RolesRoute.GetRoles(header, provider, s, fault)));
    var a := GetAuthenticatedUser(header, provider);
    if a.Authenticated? && !fault {
      RolesRoute.RolesListed(header, provider, s, a.user, "");
    }
    assert forall i :: 0 <= i < |roles| ==> HasNoUpper(roles[i]);
    assert forall i :: 0 <= i < |roles| ==> roles[i] !in required;
  }
}

/** The page the sign-in provider returns to (src/app/auth/callback/page.tsx):
    without a session go to sign-in; otherwise ask `GET /api/user/onboarding`
    and go to the onboarding page only on a successful "not completed"
    answer. The answer is given as the route's reply, `None` standing for a
    request that threw. */
module AuthCallback {
  import opened Common
  import opened Http
  import opened Auth
  import OnboardingRoute
  import Store

  const SignIn: string := "/auth/signin"
  const StudentDashboard: string := "/user/student/dashboard"
  const Onboarding: string := "/user/onboarding"

  /** `processRedirect`. */
  function Redirect(hasSession: bool, status: Option<Reply<bool>>): (path: string)
    ensures path == SignIn || path == StudentDashboard || path == Onboarding
  {
    if !hasSession then SignIn
    else match status
      case Some(Success(completed)) => if completed then StudentDashboard else Onboarding
      case _ => StudentDashboard
  }

  /** Sign-in exactly without a session; onboarding exactly on a successful
      "not completed" answer; every failure, refused or thrown, lands on the
      student dashboard like a completed onboarding. */
  lemma {:induction false} RedirectIff(hasSession: bool, status: Option<Reply<bool>>)
    ensures Redirect(hasSession, status) == SignIn <==> !hasSession
    ensures Redirect(hasSession, status) == Onboarding <==> hasSession && status == Some(Success(false))
    ensures hasSession && (status.None? || status.value.Failure?) ==> Redirect(hasSession, status) == StudentDashboard
  {
  }

  /** A signed-in user without a student profile is sent to onboarding, and
      one whose onboarding POST succeeded is sent to the dashboard. */
  lemma {:induction false} RedirectFollowsStore(header: Option<string>, provider: map<string, Store.UserId>, s: Store.Store,
                             user: Store.UserId, body: OnboardingRoute.OnboardingBody, fault: bool)
    requires GetAuthenticatedUser(header, provider) == Authenticated(user)
    ensures user !in s.studentProfiles ==>
              Redirect(true, Some(OnboardingRoute.GetOnboarding(header, provider, s, false))) == Onboarding
    ensures OnboardingRoute.PostOnboarding(header, provider, s, body, fault).reply.Success? ==>
              var t := OnboardingRoute.PostOnboarding(header, provider, s, body, fault).store;
              Redirect(true, Some(OnboardingRoute.GetOnboarding(header, provider, t, false))) == StudentDashboard
  {
    OnboardingRoute.GetOnboardingIff(header, provider, s, user);
    if OnboardingRoute.PostOnboarding(header, provider, s, body, fault).reply.Success? {
      OnboardingRoute.PostThenGet(header, provider, s, body, fault);
    }
  }
}

=== FILE: active_role.dfy ===
/** Choosing the active role (src/hooks/useActiveRole.ts). Both dashboard
    pages repeat the same rule inline, so they use this module too. The
    browser's local-storage entry "activeRole" is part of the state: `None`
    is a missing entry. */
module ActiveRole {
  import opened Common

  /** The fetched roles, the active role and the stored entry. */
  datatype RoleView = RoleView(roles: seq<string>, active: Option<string>, stored: Option<string>)

  /** The state before any fetch: no roles and no active role. */
  function Fresh(stored: Option<string>): RoleView {
    RoleView([], None, stored)
  }

  /** `stored && roles.includes(stored)`: the entry exists, is non-empty and
      names a fetched role. */
  predicate StoredValid(stored: Option<string>, roles: seq<string>) {
    stored.Some? && stored.value != "" && stored.value in roles
  }

  /** The rule run once roles arrive: keep a valid stored role, else make
      the first role active and store it, else leave the active role and
      the entry alone. */
  function Select(v: RoleView, fetched: seq<string>): (r: RoleView)
    ensures r.roles == fetched
    ensures r.active != v.active ==> r.active.Some? && r.active.value in fetched
    ensures r.stored != v.stored ==> r.stored == r.active
  {
    if StoredValid(v.stored, fetched) then v.(roles := fetched, active := v.stored)
    else if |fetched| > 0 then RoleView(fetched, Some(fetched[0]), Some(fetched[0]))
    else v.(roles := fetched)
  }

  /** `fetchRoles`: `None` is a fetch that threw, which is logged and
      changes nothing. */
  function Refresh(v: RoleView, fetched: Option<seq<string>>): (r: RoleView)
    ensures fetched.None? ==> r == v
    ensures fetched.Some? ==> r.roles == fetched.value
  {
    if fetched.None? then v else Select(v, fetched.value)
  }

  /** `switchRole` and `handleSwitch`: any role becomes active and is
      stored, without a membership check. */
  function Switch(v: RoleView, role: string): RoleView {
    v.(active := Some(role), stored := Some(role))
  }

  /** The three outcomes of the rule, one for each branch. */
  lemma {:induction false} SelectCases(v: RoleView, fetched: seq<string>)
    ensures StoredValid(v.stored, fetched) ==> Select(v, fetched).active == v.stored == Select(v, fetched).stored
    ensures !StoredValid(v.stored, fetched) && |fetched| > 0 ==>
              Select(v, fetched).active == Some(fetched[0]) == Select(v, fetched).stored
    ensures !StoredValid(v.stored, fetched) && fetched == [] ==>
              Select(v, fetched).active == v.active && Select(v, fetched).stored == v.stored
  {
  }

  /** Starting with no active role, the rule leaves it empty exactly when
      no role was fetched, and otherwise picks a fetched role. */
  lemma {:induction false} SelectFromFresh(stored: Option<string>, fetched: seq<string>)
    ensures var r := Select(Fresh(stored), fetched);
      && (r.active.None? <==> fetched == [])
      && (r.active.Some? ==> r.active.value in fetched)
      && (fetched == [] ==> r.stored == stored)
  {
  }

  /** Fetching the same roles again changes nothing: the first run left a
      stored entry the second run accepts or re-derives. */
  lemma {:induction false} SelectIdempotent(v: RoleView, fetched: seq<string>)
    ensures Select(Select(v, fetched), fetched) == Select(v, fetched)
  {
  }

  /** A role chosen with the switch survives the next fetch exactly when it
      is non-empty and still among the fetched roles, when it happens to be
      the first fetched role, or when no role was fetched at all. */
  lemma {:induction false} SwitchSurvivesRefresh(v: RoleView, role: string, fetched: seq<string>)
    ensures Select(Switch(v, role), fetched).active == Some(role) <==>
              (role != "" && role in fetched) || (|fetched| > 0 && fetched[0] == role) || fetched == []
  {
  }

  // ---------------------------------------------------------------------------
  // What the dashboards show
  // ---------------------------------------------------------------------------

  /** `role.charAt(0).toUpperCase() + role.slice(1)`. */
  function Capitalize(s: string): (r: string)
    ensures |r| == |s| && (s != [] ==> r[1..] == s[1..] && r[0] == UpperChar(s[0]))
  {
    if s == [] then [] else [UpperChar(s[0])] + s[1..]
  }

  /** The "Active Role:" line: the capitalised role, or "None" when there is
      no active role or it is the empty string. */
  function ActiveLabel(active: Option<string>): (r: string)
    ensures r != ""
    ensures active.Some? && active.value != "" ==> |r| == |active.value|
  {
    if active.Some? && active.value != "" then Capitalize(active.value) else "None"
  }

  /** A switch button: the role it selects, its caption and whether it is
      disabled. */
  datatype SwitchButton = SwitchButton(role: string, caption: string, disabled: bool)

  /** The switch buttons, one per role, shown only for more than one role. */
  function Buttons(v: RoleView): (r: seq<SwitchButton>)
    ensures |v.roles| <= 1 ==> r == []
    ensures |v.roles| > 1 ==> |r| == |v.roles|
    ensures forall i :: 0 <= i < |r| ==> r[i].role == v.roles[i] && r[i].caption == Capitalize(v.roles[i])
  {
    if |v.roles| <= 1 then []
    else seq(|v.roles|, i requires 0 <= i < |v.roles| =>
               SwitchButton(v.roles[i], Capitalize(v.roles[i]), v.active == Some(v.roles[i])))
  }

  /** The disabled buttons are exactly those of the active role, so with
      distinct roles at most one is disabled, and one is whenever the active
      role is among several roles. Pressing a button makes its role active. */
  lemma {:induction false} ButtonsFacts(v: RoleView, i: int, j: int)
    requires 0 <= i < |Buttons(v)| && 0 <= j < |Buttons(v)|
    ensures Buttons(v)[i].disabled <==> v.active == Some(v.roles[i])
    ensures NoDuplicates(v.roles) && Buttons(v)[i].disabled && Buttons(v)[j].disabled ==> i == j
    ensures Switch(v, Buttons(v)[i].role).active == Some(v.roles[i])
  {
  }

  /** With several roles and an active role among them, some button is
      disabled. */
  lemma {:induction false} ActiveButtonShown(v: RoleView)
    requires |v.roles| > 1 && v.active.Some? && v.active.value in v.roles
    ensures exists i :: 0 <= i < |Buttons(v)| && Buttons(v)[i].disabled
  {
    var i :| 0 <= i < |v.roles| && v.roles[i] == v.active.value;
    assert Buttons(v)[i].disabled;
  }
}

=== FILE: admin_route.dfy ===
/** `GET /api/admin/tutor-applications`
    (src/app/api/admin/tutor-applications/route.ts): authentication, then
    the MANAGE_TUTOR_APPLICATIONS gate, then the `userRoleAssignment` rows
    for role TUTOR with status SUBMITTED. The joined user columns (first and
    last name, email) and tutor-profile columns (intro, experience, country,
    teaching languages) of each row are not modelled: a listing here is the
    assignment rows themselves, so the properties below speak of which rows
    are listed, not of the joined values the program also returns.
    Only the listing sits inside the route's `try`: its failure (the oracle
    `fault`) answers the route's 500 reply, while a failure of the
    permission lookup before it (the oracle `gateFault`) escapes the route
    and the framework answers 500 without a JSON body. */
module AdminRoute {
  import opened Common
  import opened Store
  import opened Auth
  import opened Permissions
  import opened Http

  /** The permission the route requires. */
  const ManageTutorApplications: string := "MANAGE_TUTOR_APPLICATIONS"

  /** The role whose pending applications are listed. */
  const TutorRole: string := "TUTOR"

  /** The route. */
  function ListTutorApplications(header: Option<string>, provider: map<string, UserId>, s: Store, gateFault: bool,
                                 fault: bool)
    : (r: Reply<seq<Assignment>>)
    ensures r.Failure? ==> r.status == 401 || r.status == 403 || r.status == 500
    ensures r == Failure(500, Uncaught) <==> GetAuthenticatedUser(header, provider).Authenticated? && gateFault
  {
    var a := GetAuthenticatedUser(header, provider);
    if a.AuthError? then AuthFailure(a)
    else if gateFault then Failure(500, Uncaught)
    else if !HasAdminPermission(s, a.user, ManageTutorApplications) then Failure(403, "Forbidden")
    else if fault then Failure(500, InternalError)
    else Success(RowsWith(s.assignments, TutorRole, Submitted))
  }

  /** An authentication failure is passed through unchanged. */
  lemma {:induction false} AdminAuthFailure(header: Option<string>, provider: map<string, UserId>, s: Store, gateFault: bool, fault: bool)
    requires GetAuthenticatedUser(header, provider).AuthError?
    ensures ListTutorApplications(header, provider, s, gateFault, fault) == Failure(401, "Unauthorized")
  {
  }

  /** An authenticated caller is refused with 403 exactly when they lack the
      permission: neither an approved ADMIN assignment nor an approved role
      linked to MANAGE_TUTOR_APPLICATIONS. */
  lemma {:induction false} AdminForbiddenIff(header: Option<string>, provider: map<string, UserId>, s: Store, fault: bool, user: UserId)
    requires GetAuthenticatedUser(header, provider) == Authenticated(user)
    ensures ListTutorApplications(header, provider, s, false, fault) == Failure(403, "Forbidden") <==>
              !IsAdmin(s, user) && !GrantsSpec(s, user, ManageTutorApplications)
  {
    HasAdminPermissionIff(s, user, ManageTutorApplications);
  }

  /** A permitted caller gets exactly the TUTOR rows with status SUBMITTED,
      or 500 when the listing fails. */
  lemma {:induction false} AdminListing(header: Option<string>, provider: map<string, UserId>, s: Store, user: UserId, a: Assignment)
    requires GetAuthenticatedUser(header, provider) == Authenticated(user)
    requires HasAdminPermission(s, user, ManageTutorApplications)
    ensures ListTutorApplications(header, provider, s, false, true) == Failure(500, InternalError)
    ensures ListTutorApplications(header, provider, s, false, false).Success?
    ensures a in ListTutorApplications(header, provider, s, false, false).body <==>
              a in s.assignments && a.role == TutorRole && a.status == Submitted
  {
    RowsWithFacts(s.assignments, TutorRole, Submitted, a);
  }

  /** The rows listed, and every failure, depend on the store only through
      the assignment rows and the role-permission links. The joined user and
      tutor-profile columns, which are not modelled, read other tables. */
  lemma {:induction false} AdminReadsAssignmentsAndLinks(header: Option<string>, provider: map<string, UserId>, s: Store, t: Store,
                                      gateFault: bool, fault: bool)
    requires s.assignments == t.assignments && s.links == t.links
    ensures ListTutorApplications(header, provider, s, gateFault, fault)
            == ListTutorApplications(header, provider, t, gateFault, fault)
  {
  }

  /** A failing permission lookup is not caught by the route: every
      authenticated caller, permitted or not, gets the framework's 500,
      which differs from the route's own 500 reply. */
  lemma {:induction false} AdminGateFailure(header: Option<string>, provider: map<string, UserId>, s: Store, fault: bool)
    requires GetAuthenticatedUser(header, provider).Authenticated?
    ensures ListTutorApplications(header, provider, s, true, fault) == Failure(500, Uncaught)
    ensures ListTutorApplications(header, provider, s, true, fault) != Failure(500, InternalError)
  {
  }
}

=== FILE: apply_route.dfy ===
/** `POST /api/tutor/apply` (src/app/api/tutor/apply/route.ts): after
    authentication the body must carry a truthy `intro`, a non-empty
    `languagesTaught` array, a truthy `teachingExperience` and a truthy
    `country`; then, in one transaction, the tutor profile is upserted with
    exactly those values and the caller's TUTOR row in the older `userRole`
    store is upserted with status SUBMITTED on both paths. A body field that
    is absent is `None`; the required-field check uses JavaScript
    truthiness, so a field of another JSON type can pass it. */
module ApplyRoute {
  import opened Common
  import opened Store
  import opened Auth
  import opened Http

  /** The fields the route reads from the JSON body. */
  datatype ApplyBody = ApplyBody(intro: Option<Json>, languagesTaught: Option<Json>,
                                 teachingExperience: Option<Json>, country: Option<Json>)

  /** `Array.isArray(v) && v.length !== 0`. */
  predicate IsNonEmptyArray(v: Option<Json>) {
    v.Some? && v.value.JArray? && |v.value.items| > 0
  }

  /** The route's required-field check. */
  predicate HasRequiredFields(body: ApplyBody) {
    Truthy(body.intro) && IsNonEmptyArray(body.languagesTaught)
    && Truthy(body.teachingExperience) && Truthy(body.country)
  }

  /** The body's values have the types of the profile's columns: texts for
      the intro, the experience and the country, and a JSON array, of any
      elements, for the languages. A value of another type is refused by the
      database client when the profile is written. */
  predicate Storable(body: ApplyBody) {
    && body.intro.Some? && body.intro.value.JString?
    && body.languagesTaught.Some? && body.languagesTaught.value.JArray?
    && body.teachingExperience.Some? && body.teachingExperience.value.JString?
    && body.country.Some? && body.country.value.JString?
  }

  /** The reply to a body that fails the check. */
  const MissingFields: Reply<bool> := Failure(400, "Missing required fields")

  /** The profile written for a valid body. */
  function ProfileOf(body: ApplyBody): TutorProfile
    requires Storable(body)
  {
    TutorProfile(body.intro.value.s, body.languagesTaught.value.items, body.teachingExperience.value.s,
                 body.country.value.s)
  }

  /** The role written by the route. */
  const TutorRole: string := "TUTOR"

  /** The route. `bodyThrows` stands for a request body that is not JSON,
      or is JSON `null`: reading or destructuring it throws inside the
      route's `try`, which answers 500 before any field is checked; `body`
      is then ignored. A caller without a `User` row cannot own a tutor
      profile (the foreign key fails), and a body value of the wrong type
      cannot be written; either, like the oracle `fault`, aborts the
      transaction with 500. Every failure leaves the store unchanged. */
  function Apply(header: Option<string>, provider: map<string, UserId>, s: Store, body: ApplyBody,
                 bodyThrows: bool, fault: bool)
    : (r: Answer<bool>)
    ensures r.reply.Failure? ==> r.store == s
    ensures r.reply.Success? ==> r.reply.body
  {
    var a := GetAuthenticatedUser(header, provider);
    if a.AuthError? then Answer(AuthFailure(a), s)
    else if bodyThrows then Answer(Failure(500, InternalError), s)
    else if !HasRequiredFields(body) then Answer(MissingFields, s)
    else if fault || a.user !in s.users || !Storable(body) then Answer(Failure(500, InternalError), s)
    else
      Answer(Success(true),
             s.(tutorProfiles := s.tutorProfiles[a.user := ProfileOf(body)],
                userRoles := SetStatus(s.userRoles, a.user, TutorRole, Submitted)))
  }

  /** Authentication is checked before the body is read: any body gets the
      same 401. */
  lemma {:induction false} ApplyAuthFirst(header: Option<string>, provider: map<string, UserId>, s: Store, body: ApplyBody,
                                          bodyThrows: bool, fault: bool)
    requires GetAuthenticatedUser(header, provider).AuthError?
    ensures Apply(header, provider, s, body, bodyThrows, fault) == Answer(Failure(401, "Unauthorized"), s)
  {
  }

  /** A body that cannot be read or destructured is never a 400: an
      authenticated request with one gets the route's 500, whatever the
      database would have done, and the store is kept. */
  lemma {:induction false} UnreadableBodyFails(header: Option<string>, provider: map<string, UserId>, s: Store, body: ApplyBody,
                                               fault: bool)
    requires GetAuthenticatedUser(header, provider).Authenticated?
    ensures Apply(header, provider, s, body, true, fault) == Answer(Failure(500, InternalError), s)
  {
  }

  /** An authenticated request gets 400 exactly when its body is read and a
      required field is missing, falsy or an empty array. */
  lemma {:induction false} ApplyRejectsIff(header: Option<string>, provider: map<string, UserId>, s: Store, body: ApplyBody,
                                           bodyThrows: bool, fault: bool)
    requires GetAuthenticatedUser(header, provider).Authenticated?
    ensures Apply(header, provider, s, body, bodyThrows, fault).reply == MissingFields
            <==> !bodyThrows && !HasRequiredFields(body)
  {
  }

  /** A successful application stores exactly the submitted profile, leaves
      the caller's TUTOR `userRole` SUBMITTED (an APPROVED tutor who
      re-applies is reset), and changes nothing else. */
  lemma {:induction false} ApplySucceeds(header: Option<string>, provider: map<string, UserId>, s: Store, body: ApplyBody,
                      user: UserId, other: UserId, role: string, status: RoleStatus)
    requires GetAuthenticatedUser(header, provider) == Authenticated(user)
    requires HasRequiredFields(body) && Storable(body) && user in s.users
    ensures var r := Apply(header, provider, s, body, false, false);
      && r.reply == Success(true)
      && r.store.tutorProfiles[user] == TutorProfile(body.intro.value.s, body.languagesTaught.value.items,
                                                     body.teachingExperience.value.s, body.country.value.s)
      && (other != user ==> (other in r.store.tutorProfiles <==> other in s.tutorProfiles))
      && (other != user && other in s.tutorProfiles ==> r.store.tutorProfiles[other] == s.tutorProfiles[other])
      && (HasStatus(r.store.userRoles, user, TutorRole, status) <==> status == Submitted)
      && ((other, role) != (user, TutorRole) ==>
            (HasStatus(r.store.userRoles, other, role, status) <==> HasStatus(s.userRoles, other, role, status)))
      && r.store.(tutorProfiles := s.tutorProfiles, userRoles := s.userRoles) == s
  {
    SetStatusFacts(s.userRoles, user, TutorRole, Submitted, user, TutorRole, status);
    SetStatusFacts(s.userRoles, user, TutorRole, Submitted, other, role, status);
  }

  /** Both writes happen or neither does: a failing transaction answers 500
      and leaves the store as it was. */
  lemma {:induction false} ApplyAtomic(header: Option<string>, provider: map<string, UserId>, s: Store, body: ApplyBody,
                                       bodyThrows: bool)
    requires GetAuthenticatedUser(header, provider).Authenticated? && HasRequiredFields(body)
    ensures Apply(header, provider, s, body, bodyThrows, true) == Answer(Failure(500, InternalError), s)
  {
  }

  /** A truthy value that is not a text, in a text column, passes the
      required-field check and is refused only when the profile is written:
      `{ "intro": 5, "languagesTaught": [1], "teachingExperience": true,
      "country": {} }` answers 500, not 400, and changes nothing. */
  lemma {:induction false} NonTextFieldsFailLate(header: Option<string>, provider: map<string, UserId>, s: Store, fault: bool)
    requires GetAuthenticatedUser(header, provider).Authenticated?
    ensures var body := ApplyBody(Some(JNumber(5)), Some(JArray([JNumber(1)])), Some(JBool(true)), Some(JObject([])));
      && HasRequiredFields(body) && !Storable(body)
      && Apply(header, provider, s, body, false, fault) == Answer(Failure(500, InternalError), s)
  {
  }

  /** A body of non-empty texts and a non-empty array, whatever its
      elements, passes the check, and the profile written holds exactly
      those values. */
  lemma {:induction false} TextBodyAccepted(intro: string, languages: seq<Json>, experience: string, country: string)
    requires intro != "" && |languages| > 0 && experience != "" && country != ""
    ensures var body := ApplyBody(Some(JString(intro)), Some(JArray(languages)), Some(JString(experience)),
                                  Some(JString(country)));
      && HasRequiredFields(body) && Storable(body) && ProfileOf(body) == TutorProfile(intro, languages, experience, country)
  {
  }
}

=== FILE: auth.dfy ===
/** Bearer-token authentication of API requests (src/lib/auth.ts, and the
    same inline check in src/app/api/user/roles/route.ts). The
    `Authorization` header must start with "Bearer " (section 2.1 of RFC
    6750, matched case-sensitively here); the token is the second
    space-separated field. The identity provider is an oracle: a map from
    the tokens it accepts to their users. A provider error and an unknown
    token are the same absent entry. */
module Auth {
  import opened Common
  import opened Store

  /** The header prefix, with its single trailing space. */
  const BearerPrefix: string := "Bearer "

  /** `s.startsWith(p)`. */
  predicate StartsWith(s: string, p: string) {
    |p| <= |s| && s[..|p|] == p
  }

  /** The outcome of authenticating a request: the user or an error with its
      HTTP status, never both. */
  datatype AuthResult = Authenticated(user: UserId) | AuthError(error: string, status: int)

  /** The one failure every check produces. */
  const Unauthorized: AuthResult := AuthError("Unauthorized", 401)

  /** The token a header carries: `header.split(" ")[1]` once the header is
      known to start with "Bearer "; `None` when the header is missing or
      has another prefix. */
  function BearerToken(header: Option<string>): Option<string> {
    if header.None? || !StartsWith(header.value, BearerPrefix) then None
    else
      var parts := Split(header.value, ' ');
      if |parts| < 2 then None else Some(parts[1])
  }

  /** `getAuthenticatedUser`: 401 unless the header carries a token the
      provider accepts. */
  function GetAuthenticatedUser(header: Option<string>, provider: map<string, UserId>): (r: AuthResult)
    ensures r.AuthError? ==> r == Unauthorized
  {
    var token := BearerToken(header);
    if token.None? || token.value !in provider then Unauthorized
    else Authenticated(provider[token.value])
  }

  /** A header that starts with "Bearer " always yields a token: the field
      between the first and the second space (or the end). */
  lemma {:induction false} BearerTokenField(rest: string)
    ensures BearerToken(Some(BearerPrefix + rest)) == Some(Split(rest, ' ')[0])
  {
    var h := BearerPrefix + rest;
    assert h[..|BearerPrefix|] == BearerPrefix;
    assert h == "Bearer" + [' '] + rest;
    SplitAfter("Bearer", ' ', rest);
  }

  /** A token without spaces is carried through unchanged, so a request
      built as "Bearer " + token authenticates as the provider's user for
      that token. */
  lemma {:induction false} BearerRoundTrip(token: string, provider: map<string, UserId>)
    requires ' ' !in token
    ensures BearerToken(Some(BearerPrefix + token)) == Some(token)
    ensures token in provider ==>
              GetAuthenticatedUser(Some(BearerPrefix + token), provider) == Authenticated(provider[token])
    ensures token !in provider ==>
              GetAuthenticatedUser(Some(BearerPrefix + token), provider) == Unauthorized
  {
    BearerTokenField(token);
    SplitNoSep(token, ' ');
  }

  /** A header has a token exactly when it starts with "Bearer ". */
  lemma {:induction false} BearerTokenIffPrefix(header: Option<string>)
    ensures BearerToken(header).Some? <==> header.Some? && StartsWith(header.value, BearerPrefix)
  {
    if header.Some? && StartsWith(header.value, BearerPrefix) {
      var h := header.value;
      var rest := h[|BearerPrefix|..];
      assert h == BearerPrefix + rest;
      BearerTokenField(rest);
    }
  }

  /** A missing header or any other prefix is rejected with 401 whatever
      the provider would say. */
  lemma {:induction false} NoBearerIsUnauthorized(header: Option<string>, provider: map<string, UserId>)
    requires header.None? || !StartsWith(header.value, BearerPrefix)
    ensures GetAuthenticatedUser(header, provider) == Unauthorized
  {
  }

  /** The scheme is matched case-sensitively: "bearer " is refused even
      for a token the provider accepts. */
  lemma {:induction false} LowerCaseSchemeRefused(token: string, provider: map<string, UserId>)
    ensures GetAuthenticatedUser(Some("bearer " + token), provider) == Unauthorized
  {
    var h := "bearer " + token;
    assert h[0] != BearerPrefix[0];
    assert !StartsWith(h, BearerPrefix);
  }

  /** A user is authenticated exactly when the header's token is one the
      provider knows, and then it is that token's user. */
  lemma {:induction false} AuthenticatedIff(header: Option<string>, provider: map<string, UserId>)
    ensures GetAuthenticatedUser(header, provider).Authenticated? <==>
              header.Some? && StartsWith(header.value, BearerPrefix)
              && BearerToken(header).Some? && BearerToken(header).value in provider
    ensures GetAuthenticatedUser(header, provider).Authenticated? ==>
              GetAuthenticatedUser(header, provider).user == provider[BearerToken(header).value]
  {
    BearerTokenIffPrefix(header);
  }
}

=== FILE: auth_form.dfy ===
/** The sign-in and sign-up form (src/features/auth/AuthForm.tsx): field
    validation, the provider call, the mapping from provider errors to
    messages, and where a successful submission goes. The provider's answer
    and the email check of the schema library are inputs. */
module AuthForm {
  import opened Common

  /** `AuthMode`. */
  datatype Mode = SignUp | SignIn

  /** A thrown or returned error: an object with optional `message` and
      `status`, or anything else (a falsy value, a string, a number). */
  datatype ErrorValue = NotAnObject | Object(message: Option<string>, status: Option<int>)

  /** The provider's answer: an error it threw, or the error and whether a
      user came back. */
  datatype ProviderAnswer = Threw(thrown: ErrorValue) | Returned(error: Option<ErrorValue>, hasUser: bool)

  /** The form after submitting: field errors (no request made), a form
      error, or a navigation. */
  datatype Outcome = FieldErrors(email: Option<string>, password: Option<string>)
                   | FormError(message: string)
                   | Navigate(path: string)

  const Unexpected: string := "An unexpected error occurred."
  const NoUserData: string := "No user data returned."
  const InvalidEmail: string := "Invalid email address"
  const ShortPassword: string := "Password must be at least 6 characters"
  const MinPassword: nat := 6

  /** `getFriendlyErrorMessage`. */
  function FriendlyMessage(e: ErrorValue): (m: string)
    ensures m != ""
  {
    match e
    case NotAnObject => Unexpected
    case Object(message, status) =>
      if status == Some(400) then "Invalid login credentials."
      else if status == Some(401) then "Unauthorized access."
      else if status == Some(429) then "Too many requests. Please try again later."
      else if message.Some? && message.value != "" then message.value
      else Unexpected
  }

  /** The three known statuses decide the message whatever the error says;
      any other object shows its own non-empty message; everything else
      gets the generic message. */
  lemma {:induction false} FriendlyMessageCases(e: ErrorValue)
    ensures e.Object? && e.status == Some(400) ==> FriendlyMessage(e) == "Invalid login credentials."
    ensures e.Object? && e.status == Some(401) ==> FriendlyMessage(e) == "Unauthorized access."
    ensures e.Object? && e.status == Some(429) ==> FriendlyMessage(e) == "Too many requests. Please try again later."
    ensures e.Object? && e.status !in {Some(400), Some(401), Some(429)} ==>
              FriendlyMessage(e) == (if e.message.Some? && e.message.value != "" then e.message.value else Unexpected)
    ensures e.NotAnObject? ==> FriendlyMessage(e) == Unexpected
  {
  }

  /** The schema: an email the library accepts and a password of at least
      six UTF-16 code units; each field reports its own error. */
  function Validate(emailValid: bool, password: string): (r: Outcome)
    ensures r.FieldErrors?
    ensures r.password.None? <==> Utf16Length(password) >= MinPassword
    ensures r.email.None? <==> emailValid
  {
    FieldErrors(if emailValid then None else Some(InvalidEmail),
                if Utf16Length(password) < MinPassword then Some(ShortPassword) else None)
  }

  /** `handleSubmit(onSubmit)`: the request is made only when both fields
      pass; sign-up needs a returned user and goes to onboarding, sign-in
      goes home, and every error is shown through `FriendlyMessage`. */
  function Submit(mode: Mode, emailValid: bool, password: string, answer: ProviderAnswer): (r: Outcome)
    ensures r.Navigate? ==> r.path == (if mode == SignUp then "/user/onboarding" else "/")
  {
    var v := Validate(emailValid, password);
    if v.email.Some? || v.password.Some? then v
    else match answer
      case Threw(e) => FormError(FriendlyMessage(e))
      case Returned(err, hasUser) =>
        if err.Some? then FormError(FriendlyMessage(err.value))
        else if mode == SignUp && !hasUser then FormError(NoUserData)
        else Navigate(if mode == SignUp then "/user/onboarding" else "/")
  }

  /** A submission navigates exactly when both fields pass, the provider
      returned no error and, for a sign-up, a user. A password shorter than
      six code units never reaches the provider: the outcome is the same
      whatever it would have answered. */
  lemma {:induction false} SubmitIff(mode: Mode, emailValid: bool, password: string, answer: ProviderAnswer, other: ProviderAnswer)
    ensures Submit(mode, emailValid, password, answer).Navigate? <==>
              emailValid && Utf16Length(password) >= MinPassword
              && answer.Returned? && answer.error.None? && (mode == SignIn || answer.hasUser)
    ensures Utf16Length(password) < MinPassword ==>
              Submit(mode, emailValid, password, answer) == Submit(mode, emailValid, password, other)
    ensures emailValid && Utf16Length(password) >= MinPassword && mode == SignUp && answer == Returned(None, false) ==>
              Submit(mode, emailValid, password, answer) == FormError(NoUserData)
  {
  }
}

=== FILE: availability.dfy ===
/** Conversion between the submitted time slots and the stored availability
    rows, shared by the onboarding and profile routes: a slot's day name
    becomes `dayNameToNumber(day)` and its times become
    `timeStringToMinutes`; reading back uses `numberToDayName` and
    `minutesToTimeString`. A time that reads as `NaN` cannot be stored in an
    integer column, so the write fails. */
module AvailabilityRows {
  import opened Common
  import opened Numbers
  import opened Time
  import opened Store
  import opened Slots

  /** A slot as a profile read shows it; `day` is `undefined` (None) when the
      stored day number is outside 0-6. */
  datatype SlotView = SlotView(day: Option<string>, start: string, end: string)

  /** The row stored for one submitted slot, or `None` when a time is `NaN`. */
  function ConvertSlot(user: UserId, slot: TimeSlot, timezone: Option<string>): (r: Option<Availability>)
    ensures r.Some? ==> r.value.user == user && r.value.kind == StudentAvailability
  {
    var start := TimeStringToMinutes(slot.start);
    var end := TimeStringToMinutes(slot.end);
    if start.None? || end.None? then None
    else Some(Availability(user, StudentAvailability, DayNameToNumber(slot.day), start.value, end.value, timezone, true))
  }

  /** The rows for a list of slots, one per slot in order; `None` when any
      slot's time is `NaN`. */
  function ConvertSlots(user: UserId, slots: seq<TimeSlot>, timezone: Option<string>): (r: Option<seq<Availability>>)
    ensures r.Some? ==> |r.value| == |slots| && AllOf(r.value, user, StudentAvailability)
  {
    if slots == [] then Some([])
    else
      var head := ConvertSlot(user, slots[0], timezone);
      var rest := ConvertSlots(user, slots[1..], timezone);
      if head.None? || rest.None? then None else Some([head.value] + rest.value)
  }

  /** A stored row as the profile read shows it. */
  function ViewRow(row: Availability): SlotView {
    SlotView(NumberToDayName(row.day), MinutesToTimeString(row.start), MinutesToTimeString(row.end))
  }

  /** The profile read of a list of rows. */
  function ViewRows(rows: seq<Availability>): (r: seq<SlotView>)
    ensures |r| == |rows|
  {
    if rows == [] then [] else [ViewRow(rows[0])] + ViewRows(rows[1..])
  }

  /** How a submitted slot is expected to read back. */
  function Expected(slot: TimeSlot): SlotView {
    SlotView(Some(slot.day), slot.start, slot.end)
  }

  /** The expected read of a list of slots. */
  function ExpectedAll(slots: seq<TimeSlot>): (r: seq<SlotView>)
    ensures |r| == |slots|
  {
    if slots == [] then [] else [Expected(slots[0])] + ExpectedAll(slots[1..])
  }

  /** A two-digit "HH:MM" time with minutes 00-59. */
  predicate IsClock(t: string) {
    |t| == 5 && t[2] == ':' && AllDigits(t[..2]) && AllDigits(t[3..]) && ParseDigits(t[3..]) < 60
  }

  /** A slot whose day is a `DAY_NAMES` entry and whose times are two-digit
      "HH:MM" values. */
  predicate WellFormed(slot: TimeSlot) {
    slot.day in DayNames && IsClock(slot.start) && IsClock(slot.end)
  }

  /** Every slot of a list is well formed. */
  predicate AllWellFormed(slots: seq<TimeSlot>) {
    forall i :: 0 <= i < |slots| ==> WellFormed(slots[i])
  }

  /** A two-digit time reads as a number of minutes that formats back to it. */
  lemma {:induction false} ClockTimeRoundTrip(t: string)
    requires IsClock(t)
    ensures TimeStringToMinutes(t).Some?
    ensures MinutesToTimeString(TimeStringToMinutes(t).value) == t
  {
    assert t == JoinClock(t[..2], t[3..]);
    ClockRoundTrip(t[..2], t[3..]);
  }

  /** A slot whose two times read as numbers is stored as one row holding
      its day number and those minutes. */
  lemma {:induction false} SlotStored(user: UserId, slot: TimeSlot, timezone: Option<string>, start: int, end: int)
    requires TimeStringToMinutes(slot.start) == Some(start)
    requires TimeStringToMinutes(slot.end) == Some(end)
    ensures ConvertSlot(user, slot, timezone) ==
              Some(Availability(user, StudentAvailability, DayNameToNumber(slot.day), start, end, timezone, true))
  {
  }

  /** A row read back shows the day name and the formatted times. */
  lemma {:induction false} RowViewed(row: Availability, slot: TimeSlot)
    requires slot.day in DayNames && row.day == DayNameToNumber(slot.day)
    requires MinutesToTimeString(row.start) == slot.start && MinutesToTimeString(row.end) == slot.end
    ensures ViewRow(row) == Expected(slot)
  {
    DayRoundTrip(slot.day, 0);
  }

  /** A well-formed slot is stored and reads back as itself. */
  lemma {:induction false} SlotRoundTrip(user: UserId, slot: TimeSlot, timezone: Option<string>)
    requires WellFormed(slot)
    ensures ConvertSlot(user, slot, timezone).Some?
    ensures ViewRow(ConvertSlot(user, slot, timezone).value) == Expected(slot)
  {
    ClockTimeRoundTrip(slot.start);
    ClockTimeRoundTrip(slot.end);
    var start := TimeStringToMinutes(slot.start).value;
    var end := TimeStringToMinutes(slot.end).value;
    SlotStored(user, slot, timezone, start, end);
    var row := Availability(user, StudentAvailability, DayNameToNumber(slot.day), start, end, timezone, true);
    RowViewed(row, slot);
  }

  /** Well-formed slots are all stored, and read back as the submitted list. */
  lemma {:induction false} SlotsRoundTrip(user: UserId, slots: seq<TimeSlot>, timezone: Option<string>)
    requires AllWellFormed(slots)
    ensures ConvertSlots(user, slots, timezone).Some?
    ensures ViewRows(ConvertSlots(user, slots, timezone).value) == ExpectedAll(slots)
  {
    if slots != [] {
      assert WellFormed(slots[0]);
      assert AllWellFormed(slots[1..]) by {
        forall i | 0 <= i < |slots[1..]| ensures WellFormed(slots[1..][i]) {
          assert slots[1..][i] == slots[i + 1];
        }
      }
      SlotRoundTrip(user, slots[0], timezone);
      SlotsRoundTrip(user, slots[1..], timezone);
    }
  }

  /** A slot whose start has no ':' reads as `NaN`, so it cannot be stored. */
  lemma {:induction false} NoColonStartFails(user: UserId, slot: TimeSlot, timezone: Option<string>)
    requires ':' !in slot.start
    ensures ConvertSlot(user, slot, timezone).None?
  {
    NoColonIsNaN(slot.start);
  }

  /** A stored list starts with the first slot's row, followed by the rows
      of the rest. */
  lemma {:induction false} ConvertSlotsCons(user: UserId, slots: seq<TimeSlot>, timezone: Option<string>)
    requires ConvertSlots(user, slots, timezone).Some? && slots != []
    ensures ConvertSlot(user, slots[0], timezone).Some? && ConvertSlots(user, slots[1..], timezone).Some?
    ensures ConvertSlots(user, slots, timezone).value ==
              [ConvertSlot(user, slots[0], timezone).value] + ConvertSlots(user, slots[1..], timezone).value
  {
  }

  /** The rows keep each slot's day number and minutes, one per slot. */
  lemma {:induction false} ConvertSlotsRows(user: UserId, slots: seq<TimeSlot>, timezone: Option<string>, i: int)
    requires ConvertSlots(user, slots, timezone).Some? && 0 <= i < |slots|
    ensures ConvertSlot(user, slots[i], timezone).Some?
    ensures ConvertSlots(user, slots, timezone).value[i] == ConvertSlot(user, slots[i], timezone).value
  {
    ConvertSlotsCons(user, slots, timezone);
    if i > 0 {
      var rows := ConvertSlots(user, slots, timezone).value;
      var rest := ConvertSlots(user, slots[1..], timezone).value;
      assert rows[i] == rest[i - 1];
      assert slots[i] == slots[1..][i - 1];
      ConvertSlotsRows(user, slots[1..], timezone, i - 1);
    }
  }
}

=== FILE: common.dfy ===
/** Small, language-level building blocks shared by the whole model: an Option
    type for the source's `undefined`/`null`, and the JavaScript string
    operations the application relies on (`trim`, `split`, `indexOf`,
    `toUpperCase`/`toLowerCase`, `length` in UTF-16 code units). */
module Common {

  /** `undefined`/`null` versus a present value. */
  datatype Option<T> = None | Some(value: T) {
    /** The source's `x ?? d`. */
    function GetOr(d: T): T {
      match this
      case Some(v) => v
      case None => d
    }
  }

  /** A JSON value as `request.json()` yields it. Numbers are integers; an
      object is its list of fields. */
  datatype Json = JNull | JBool(b: bool) | JNumber(n: int) | JString(s: string) | JArray(items: seq<Json>)
                | JObject(fields: seq<(string, Json)>)

  /** JavaScript truthiness of a body field; an absent field (`undefined`)
      is `None`. `null`, `false`, 0 and the empty string are falsy; every
      array and object is truthy, even an empty one. */
  predicate Truthy(v: Option<Json>) {
    match v
    case None => false
    case Some(JNull) => false
    case Some(JBool(b)) => b
    case Some(JNumber(n)) => n != 0
    case Some(JString(t)) => t != ""
    case Some(JArray(_)) => true
    case Some(JObject(_)) => true
  }

  // ---------------------------------------------------------------------------
  // Whitespace and trimming
  // ---------------------------------------------------------------------------

  /** The JavaScript WhiteSpace and LineTerminator code points: the characters
      removed by `String.prototype.trim`, skipped by `parseInt` and matched by
      the regular-expression class `\s`. */
  predicate IsJsSpace(c: char) {
    var n := c as int;
    || n == 0x09 || n == 0x0A || n == 0x0B || n == 0x0C || n == 0x0D
    || n == 0x20 || n == 0xA0 || n == 0x1680
    || (0x2000 <= n <= 0x200A)
    || n == 0x2028 || n == 0x2029 || n == 0x202F || n == 0x205F
    || n == 0x3000 || n == 0xFEFF
  }

  /** Every character of `s` is whitespace. */
  predicate AllSpace(s: string) {
    forall i :: 0 <= i < |s| ==> IsJsSpace(s[i])
  }

  /** `s` with its leading whitespace removed. */
  function TrimStart(s: string): (r: string)
    ensures |r| <= |s|
  {
    if s != [] && IsJsSpace(s[0]) then TrimStart(s[1..]) else s
  }

  /** `s` with its trailing whitespace removed. */
  function TrimEnd(s: string): (r: string)
    ensures |r| <= |s|
  {
    if s != [] && IsJsSpace(s[|s| - 1]) then TrimEnd(s[..|s| - 1]) else s
  }

  /** `TrimStart` removes exactly the leading run of whitespace: what it
      keeps is a suffix that does not start with whitespace, and what it drops
      is all whitespace. */
  lemma {:induction false} TrimStartShape(s: string)
    ensures var r := TrimStart(s);
      && r == s[|s| - |r|..]
      && AllSpace(s[..|s| - |r|])
      && (r != [] ==> !IsJsSpace(r[0]))
    decreases |s|
  {
    if s != [] && IsJsSpace(s[0]) {
      TrimStartShape(s[1..]);
      var r := TrimStart(s[1..]);
      assert s[1..][..|s[1..]| - |r|] == s[1..|s| - |r|];
    }
  }

  /** `TrimEnd` removes exactly the trailing run of whitespace. */
  lemma {:induction false} TrimEndShape(s: string)
    ensures var r := TrimEnd(s);
      && r == s[..|r|]
      && AllSpace(s[|r|..])
      && (r != [] ==> !IsJsSpace(r[|r| - 1]))
    decreases |s|
  {
    if s != [] && IsJsSpace(s[|s| - 1]) {
      TrimEndShape(s[..|s| - 1]);
      var r := TrimEnd(s[..|s| - 1]);
      assert s[..|s| - 1][|r|..] + [s[|s| - 1]] == s[|r|..];
    }
  }

  /** JavaScript's `s.trim()`. */
  function Trim(s: string): string {
    TrimEnd(TrimStart(s))
  }

  /** JavaScript's `!s.trim()`: the string is empty after trimming. */
  predicate IsBlank(s: string) {
    Trim(s) == []
  }

  /** A string is blank exactly when it consists of whitespace only. */
  lemma {:induction false} BlankIffAllSpace(s: string)
    ensures IsBlank(s) <==> AllSpace(s)
  {
    var t := TrimStart(s);
    TrimStartShape(s);
    if t == [] {
      assert s[..|s|] == s;
    } else {
      assert !IsJsSpace(t[0]);
      var e := TrimEnd(t);
      TrimEndShape(t);
      assert t == e + t[|e|..];
      assert s[|s| - |t|] == t[0];
    }
  }

  // ---------------------------------------------------------------------------
  // Lengths and case mapping
  // ---------------------------------------------------------------------------

  /** JavaScript's `s.length`: the number of UTF-16 code units, so a code
      point above U+FFFF counts twice. */
  function Utf16Length(s: string): (n: nat)
    ensures |s| <= n <= 2 * |s|
  {
    if s == [] then 0
    else (if s[0] as int >= 0x10000 then 2 else 1) + Utf16Length(s[1..])
  }

  /** Upper-cases one ASCII letter; every other character is unchanged. */
  function UpperChar(c: char): char {
    if 'a' <= c <= 'z' then (c as int - 32) as char else c
  }

  /** Lower-cases one ASCII letter; every other character is unchanged. */
  function LowerChar(c: char): char {
    if 'A' <= c <= 'Z' then (c as int + 32) as char else c
  }

  /** No ASCII lower-case letter occurs in `s`. */
  predicate HasNoLower(s: string) {
    forall i :: 0 <= i < |s| ==> !('a' <= s[i] <= 'z')
  }

  /** No ASCII upper-case letter occurs in `s`. */
  predicate HasNoUpper(s: string) {
    forall i :: 0 <= i < |s| ==> !('A' <= s[i] <= 'Z')
  }

  /** `s.toUpperCase()` on the ASCII letters. */
  function ToUpper(s: string): (r: string)
    ensures |r| == |s| && HasNoLower(r)
    ensures forall i :: 0 <= i < |s| && !('a' <= s[i] <= 'z') ==> r[i] == s[i]
  {
    seq(|s|, i requires 0 <= i < |s| => UpperChar(s[i]))
  }

  /** `s.toLowerCase()` on the ASCII letters. */
  function ToLower(s: string): (r: string)
    ensures |r| == |s| && HasNoUpper(r)
    ensures forall i :: 0 <= i < |s| && !('A' <= s[i] <= 'Z') ==> r[i] == s[i]
  {
    seq(|s|, i requires 0 <= i < |s| => LowerChar(s[i]))
  }

  /** Upper-casing is idempotent, so the stored proficiency of an already
      upper-case string is the string itself. */
  lemma {:induction false} ToUpperOfUpper(s: string)
    requires HasNoLower(s)
    ensures ToUpper(s) == s
  {
  }

  // ---------------------------------------------------------------------------
  // Splitting and searching
  // ---------------------------------------------------------------------------

  /** JavaScript's `s.split(sep)` for a one-character separator: the pieces
      between separators, always at least one (possibly empty) piece. */
  function Split(s: string, sep: char): (r: seq<string>)
    ensures |r| >= 1
    decreases |s|
  {
    if s == [] then [""]
    else
      var rest := Split(s[1..], sep);
      if s[0] == sep then [""] + rest
      else [[s[0]] + rest[0]] + rest[1..]
  }

  /** A string without the separator splits into itself. */
  lemma {:induction false} SplitNoSep(s: string, sep: char)
    requires sep !in s
    ensures Split(s, sep) == [s]
    decreases |s|
  {
    if s != [] {
      assert sep !in s[1..];
      SplitNoSep(s[1..], sep);
      assert [s[0]] + s[1..] == s;
    }
  }

  /** Splitting `a ++ sep ++ b`, where `a` holds no separator, yields `a`
      followed by the pieces of `b`. */
  lemma {:induction false} SplitAfter(a: string, sep: char, b: string)
    requires sep !in a
    ensures Split(a + [sep] + b, sep) == [a] + Split(b, sep)
    decreases |a|
  {
    var s := a + [sep] + b;
    if a == [] {
      assert s == [sep] + b;
      assert s[1..] == b;
    } else {
      assert s[1..] == a[1..] + [sep] + b;
      assert sep !in a[1..];
      SplitAfter(a[1..], sep, b);
      assert [a[0]] + a[1..] == a;
    }
  }

  /** JavaScript's `xs.indexOf(x)`: the first position holding `x`, or -1. */
  function IndexOf<T(==)>(xs: seq<T>, x: T): (r: int)
    ensures -1 <= r < |xs|
  {
    if xs == [] then -1
    else if xs[0] == x then 0
    else
      var k := IndexOf(xs[1..], x);
      if k == -1 then -1 else k + 1
  }

  /** `indexOf` is -1 exactly for a missing element, and otherwise the
      position of its first occurrence. */
  lemma {:induction false} IndexOfFacts<T>(xs: seq<T>, x: T)
    ensures var r := IndexOf(xs, x);
      && (r == -1 <==> x !in xs)
      && (0 <= r ==> xs[r] == x && x !in xs[..r])
  {
    if xs != [] && xs[0] != x {
      IndexOfFacts(xs[1..], x);
      var k := IndexOf(xs[1..], x);
      assert xs == [xs[0]] + xs[1..];
      if k != -1 {
        assert xs[..k + 1] == [xs[0]] + xs[1..][..k];
      }
    }
  }

  /** No element occurs twice. */
  predicate NoDuplicates<T(==)>(xs: seq<T>) {
    forall i, j :: 0 <= i < j < |xs| ==> xs[i] != xs[j]
  }

  /** In a list without duplicates, `indexOf` finds every element at its own
      position. */
  lemma {:induction false} IndexOfDistinct<T>(xs: seq<T>, i: int)
    requires NoDuplicates(xs) && 0 <= i < |xs|
    ensures IndexOf(xs, xs[i]) == i
  {
    IndexOfFacts(xs, xs[i]);
    var k := IndexOf(xs, xs[i]);
    assert xs[k] == xs[i];
  }

  /** JavaScript's `xs.find(p)` for `p(y) == (Key(y) == k)`, expressed as an
      Option over the first element satisfying it. */
  function FindFirst<T(==)>(xs: seq<T>, p: T -> bool): (r: Option<T>)
    ensures r.None? <==> forall i :: 0 <= i < |xs| ==> !p(xs[i])
    ensures r.Some? ==> exists i :: 0 <= i < |xs| && xs[i] == r.value && p(xs[i])
                                   && forall j :: 0 <= j < i ==> !p(xs[j])
  {
    if xs == [] then None
    else if p(xs[0]) then
      Some(xs[0])
    else
      var r := FindFirst(xs[1..], p);
      if r.Some? then
        var i :| 0 <= i < |xs[1..]| && xs[1..][i] == r.value && p(xs[1..][i])
                 && forall j :: 0 <= j < i ==> !p(xs[1..][j]);
        assert xs[i + 1] == r.value;
        assert forall j :: 0 <= j < i + 1 ==> !p(xs[j]) by {
          forall j | 0 <= j < i + 1 ensures !p(xs[j]) {
            if j > 0 { assert xs[j] == xs[1..][j - 1]; }
          }
        }
        r
      else
        r
  }
}

=== FILE: cross_checks.dfy ===
/** Facts that relate files to each other: the seeded language catalogue
    and the onboarding picker, and the two role stores written by the apply
    route and read by the admin listing. */
module CrossChecks {
  import opened Common
  import opened Store
  import opened Auth
  import opened Http
  import opened Permissions
  import Seed
  import Pickers
  import ApplyRoute
  import AdminRoute

  /** The English names of the seeded languages, in seeding order. */
  function SeedNames(seeds: seq<Seed.LanguageSeed>): (r: seq<string>)
    ensures |r| == |seeds| && forall i :: 0 <= i < |seeds| ==> r[i] == seeds[i].name
  {
    seq(|seeds|, i requires 0 <= i < |seeds| => seeds[i].name)
  }

  /** The onboarding picker offers exactly the seeded languages, by English
      name and in the same order (prisma/seed.ts against
      `AVAILABLE_LANGUAGES`). */
  lemma {:induction false} PickerMatchesSeed()
    ensures SeedNames(Seed.SeedLanguages) == Pickers.AvailableLanguages
  {
  }

  /** A tutor application, successful or not, leaves the assignment rows
      the admin listing of pending tutor applications returns exactly as
      they were, for every admin and every store: the route writes the
      older `userRole` store, while the listing selects `userRoleAssignment`
      rows. The joined tutor-profile columns, which the application does
      rewrite, are not part of the modelled listing. The application also
      grants and revokes no admin permission. */
  lemma {:induction false} ApplicationInvisibleToAdmin(header: Option<string>, provider: map<string, UserId>, s: Store,
                                    body: ApplyRoute.ApplyBody, bodyThrows: bool, fault: bool, adminHeader: Option<string>,
                                    adminGateFault: bool, adminFault: bool, user: UserId, p: string)
    ensures var t := ApplyRoute.Apply(header, provider, s, body, bodyThrows, fault).store;
      && AdminRoute.ListTutorApplications(adminHeader, provider, t, adminGateFault, adminFault)
         == AdminRoute.ListTutorApplications(adminHeader, provider, s, adminGateFault, adminFault)
      && HasAdminPermission(t, user, p) == HasAdminPermission(s, user, p)
  {
    var t := ApplyRoute.Apply(header, provider, s, body, bodyThrows, fault).store;
    assert t.assignments == s.assignments && t.links == s.links && t.roles == s.roles;
    AdminRoute.AdminReadsAssignmentsAndLinks(adminHeader, provider, t, s, adminGateFault, adminFault);
  }

  /** After a successful application the applicant is not listed, unless a
      pending TUTOR assignment was already there. */
  lemma {:induction false} ApplicantNotListed(header: Option<string>, provider: map<string, UserId>, s: Store, body: ApplyRoute.ApplyBody,
                           adminHeader: Option<string>, user: UserId, a: Assignment)
    requires GetAuthenticatedUser(header, provider) == Authenticated(user)
    requires ApplyRoute.Apply(header, provider, s, body, false, false).reply.Success?
    requires a.user == user && a !in s.assignments
    requires AdminRoute.ListTutorApplications(adminHeader, provider, s, false, false).Success?
    ensures var t := ApplyRoute.Apply(header, provider, s, body, false, false).store;
      a !in AdminRoute.ListTutorApplications(adminHeader, provider, t, false, false).body
  {
    var t := ApplyRoute.Apply(header, provider, s, body, false, false).store;
    ApplicationInvisibleToAdmin(header, provider, s, body, false, false, adminHeader, false, false, user, "");
    RowsWithFacts(s.assignments, AdminRoute.TutorRole, Submitted, a);
  }
}

=== FILE: dashboard_apply_form.dfy ===
/** The four-step tutor application under /dashboard
    (src/app/dashboard/apply/form/page.tsx): intro, languages, experience
    and country. Intro and experience must be non-blank; Next on the country
    step submits without checking that a country was chosen. Without a
    session nothing is sent. The route's answer to the request is not part
    of this model. */
module DashboardApplyWizard {
  import opened Common
  import opened Auth
  import opened Http
  import opened OnboardingRoute
  import opened ApplyRoute
  import opened Wizard
  import Store

  /** `ApplicationStep`. */
  datatype Step = Intro | Languages | Experience | Country

  /** `steps`, in order. */
  const Steps: seq<Step> := [Intro, Languages, Experience, Country]

  /** The position of a step in `Steps`. */
  function Index(s: Step): nat {
    match s
    case Intro => 0
    case Languages => 1
    case Experience => 2
    case Country => 3
  }

  /** The form's state. */
  datatype Form = Form(step: Step, intro: string, picks: LanguagePicks, experience: string, country: string,
                       error: Option<string>)

  /** The form as it first appears. */
  const Initial: Form := Form(Intro, "", NoPicks, "", "", None)

  /** What the user can do. */
  datatype Event =
    | EditIntro(text: string)
    | ClickLanguage(language: string)
    | ChooseProficiency(index: int, value: string)
    | EditExperience(text: string)
    | ChooseCountry(name: string)
    | Next
    | Back

  /** The form after an event, and the application it sent, if any. */
  datatype Outcome = Outcome(form: Form, sent: Option<Application>)

  const IntroMissing: string := "Please provide a short introduction."
  const NoLanguage: string := "Select at least one language you teach."
  const ExperienceMissing: string := "Describe your teaching experience."
  const NoSession: string := "You must be signed in to apply."

  /** The submitted JSON: intro, language rows, experience and country. */
  function Sent(f: Form): Application {
    Application(f.intro, f.picks.details, f.experience, Some(f.country))
  }

  /** `handleNext`, and `handleSubmit` on the last step. */
  function NextStep(f: Form, signedIn: bool): (r: Outcome)
    ensures r.form.error.Some? ==> r.form.step == f.step && r.sent.None?
    ensures r.sent.Some? ==> f.step == Country && signedIn && r.form.error.None?
    ensures r.form.step != f.step ==> Index(r.form.step) == Index(f.step) + 1 && r.form.error.None?
  {
    var g := f.(error := None);
    match f.step
    case Intro =>
      if IsBlank(f.intro) then Outcome(g.(error := Some(IntroMissing)), None)
      else Outcome(g.(step := Languages), None)
    case Languages =>
      var c := CheckLanguages(f.picks, NoLanguage);
      if c.error.Some? then Outcome(g.(picks := c.picks, error := c.error), None)
      else Outcome(g.(picks := c.picks, step := Experience), None)
    case Experience =>
      if IsBlank(f.experience) then Outcome(g.(error := Some(ExperienceMissing)), None)
      else Outcome(g.(step := Country), None)
    case Country =>
      if !signedIn then Outcome(g.(error := Some(NoSession)), None)
      else Outcome(g, Some(Sent(f)))
  }

  /** The Back button: clear the error and return to the previous step. It
      is not rendered on the first step. */
  function BackStep(f: Form): Form {
    StepsFacts(f.step);
    var p := Previous(Steps, f.step);
    if p.None? then f else f.(step := p.value, error := None)
  }

  /** One event. Each input belongs to one step; the proficiency `<select>`
      offers "native", "fluent", "intermediate" and "beginner", and the
      country `<select>` offers country names, its empty placeholder being
      disabled. */
  function Handle(f: Form, e: Event, signedIn: bool): (r: Outcome)
    ensures r.sent.Some? ==> e.Next? && f.step == Country
    ensures !e.Next? ==> r.sent.None?
  {
    match e
    case EditIntro(t) => Outcome(if f.step == Intro then f.(intro := t) else f, None)
    case ClickLanguage(l) => Outcome(if f.step == Languages then f.(picks := Pick(f.picks, l)) else f, None)
    case ChooseProficiency(i, v) =>
      Outcome(if f.step == Languages && v in SelectLevels then f.(picks := SetProficiency(f.picks, i, v)) else f, None)
    case EditExperience(t) => Outcome(if f.step == Experience then f.(experience := t) else f, None)
    case ChooseCountry(c) => Outcome(if f.step == Country && c != "" then f.(country := c) else f, None)
    case Next => NextStep(f, signedIn)
    case Back => Outcome(BackStep(f), None)
  }

  /** What every form reached from `Initial` satisfies: the rows are in sync
      with the picks, proficiencies are option values, and every step before
      the current one passed its check. */
  predicate Consistent(f: Form) {
    && InSync(f.picks) && LevelsFrom(f.picks.details, SelectLevels)
    && (Index(f.step) >= 1 ==> !IsBlank(f.intro))
    && (Index(f.step) >= 2 ==> |f.picks.selected| > 0 && AllHaveProficiency(f.picks.details))
    && (Index(f.step) >= 3 ==> !IsBlank(f.experience))
  }

  /** The steps are four distinct values, each at its index, and the
      progress bar highlights segment i exactly when `steps.indexOf(step)`
      is at least i. */
  lemma {:induction false} StepsFacts(s: Step)
    ensures NoDuplicates(Steps) && |Steps| == 4
    ensures s in Steps && Steps[Index(s)] == s
    ensures IndexOf(Steps, s) == Index(s)
  {
    IndexOfDistinct(Steps, Index(s));
  }

  /** The form starts on the intro step in a consistent state. */
  lemma {:induction false} InitialFacts()
    ensures Consistent(Initial) && IndexOf(Steps, Initial.step) == 0
  {
    StepsFacts(Initial.step);
  }

  /** Back is not offered on "intro"; elsewhere it clears the error, goes
      exactly one step back and keeps every field. */
  lemma {:induction false} BackFacts(f: Form)
    ensures f.step == Intro ==> BackStep(f) == f
    ensures f.step != Intro ==>
              Index(BackStep(f).step) == Index(f.step) - 1 && BackStep(f) == f.(step := BackStep(f).step, error := None)
  {
    StepsFacts(f.step);
    PreviousFacts(Steps, f.step);
    if f.step != Intro {
      StepsFacts(Previous(Steps, f.step).value);
    }
  }

  /** Next on "intro" and on "experience" passes exactly when the trimmed
      text is non-empty; Next on "country" sends the application exactly
      when there is a session, whatever the country. */
  lemma {:induction false} TextStepsIff(f: Form, signedIn: bool)
    ensures f.step == Intro ==> (NextStep(f, signedIn).form.step == Languages <==> !IsBlank(f.intro))
    ensures f.step == Experience ==> (NextStep(f, signedIn).form.step == Country <==> !IsBlank(f.experience))
    ensures f.step == Country ==>
              (NextStep(f, signedIn).sent == Some(Sent(f)) <==> signedIn)
              && (!signedIn ==> NextStep(f, signedIn).form.error == Some(NoSession))
  {
  }

  /** Next on "languages" passes exactly when a language is picked and each
      picked language has a row with a proficiency. */
  lemma {:induction false} LanguagesStepIff(f: Form, signedIn: bool)
    requires f.step == Languages && Consistent(f)
    ensures NextStep(f, signedIn).form.step == Experience <==>
              |f.picks.selected| > 0
              && forall i :: 0 <= i < |f.picks.selected| ==> Lookup(f.picks.details, f.picks.selected[i]).proficiency != ""
  {
    CheckLanguagesFacts(f.picks, NoLanguage, SelectLevels);
  }

  /** Every event keeps the form consistent. */
  lemma {:induction false} HandleKeepsConsistent(f: Form, e: Event, signedIn: bool)
    requires Consistent(f)
    ensures Consistent(Handle(f, e, signedIn).form)
  {
    match e
    case ClickLanguage(l) =>
      if f.step == Languages { PickFacts(f.picks, l, SelectLevels); }
    case ChooseProficiency(i, v) =>
      if f.step == Languages && v in SelectLevels { SetProficiencyFacts(f.picks, i, v, SelectLevels); }
    case Next =>
      if f.step == Languages { CheckLanguagesFacts(f.picks, NoLanguage, SelectLevels); }
    case Back =>
      BackFacts(f);
    case _ =>
  }

  /** An application sent from a consistent form, by an authenticated
      caller, is refused with 400 exactly when no country was chosen: every
      other required field was checked on the way. */
  lemma {:induction false} SentRejectedIffNoCountry(f: Form, signedIn: bool, header: Option<string>, provider: map<string, Store.UserId>,
                                 s: Store.Store, fault: bool)
    requires Consistent(f) && NextStep(f, signedIn).sent.Some?
    requires GetAuthenticatedUser(header, provider).Authenticated?
    ensures Apply(header, provider, s, AsApplyBody(Sent(f)), false, fault).reply == MissingFields <==> f.country == ""
  {
    ApplicationRequiredFields(Sent(f));
    ApplyRejectsIff(header, provider, s, AsApplyBody(Sent(f)), false, fault);
  }
}

=== FILE: dashboards.dfy ===
/** The dashboard under /user (src/app/user/dashboard/page.tsx). Without a
    session it redirects to the sign-in page; otherwise it asks
    `GET /api/user/onboarding` and only fetches roles once onboarding is
    complete. The onboarding answer is given as the route's reply, `None`
    standing for a request that threw; the fetched roles likewise. */
module UserDashboard {
  import opened Common
  import opened Http
  import opened ActiveRole
  import OnboardingRoute
  import Store

  /** `onboardingData`. */
  datatype OnboardingData = OnboardingData(completed: bool, error: Option<string>)

  /** The page after its effect: whether it is still loading, where it
      redirected, the onboarding data, the roles and whether they were
      fetched. */
  datatype Page = Page(loading: bool, redirect: Option<string>, onboarding: Option<OnboardingData>, view: RoleView,
                       rolesFetched: bool)

  /** What is on screen. */
  datatype Screen = LoadingScreen | OnboardingPrompt | Dashboard(buttons: seq<SwitchButton>, activeLabel: string)

  const SignIn: string := "/auth/signin"
  const Unexpected: string := "An unexpected error occurred"

  /** `checkOnboardingAndFetchRoles`. Without a session the page returns
      before clearing the loading flag. */
  function Load(signedIn: bool, status: Option<Reply<bool>>, fetched: Option<seq<string>>, stored: Option<string>)
    : (r: Page)
    ensures r.rolesFetched ==> r.onboarding == Some(OnboardingData(true, None))
    ensures r.redirect.Some? <==> !signedIn
  {
    var none := Fresh(stored);
    if !signedIn then Page(true, Some(SignIn), None, none, false)
    else match status
      case None => Page(false, None, Some(OnboardingData(false, Some(Unexpected))), none, false)
      case Some(Failure(_, e)) => Page(false, None, Some(OnboardingData(false, Some(e))), none, false)
      case Some(Success(completed)) =>
        if !completed then Page(false, None, Some(OnboardingData(false, None)), none, false)
        else if fetched.None? then Page(false, None, Some(OnboardingData(false, Some(Unexpected))), none, false)
        else Page(false, None, Some(OnboardingData(true, None)), Select(none, fetched.value), true)
  }

  /** The render: a loading screen, the onboarding prompt unless onboarding
      is known to be complete, else the dashboard. */
  function Render(p: Page): Screen {
    if p.loading then LoadingScreen
    else if p.onboarding.None? || !p.onboarding.value.completed then OnboardingPrompt
    else Dashboard(Buttons(p.view), ActiveLabel(p.view.active))
  }

  /** Roles are fetched, and the dashboard shown, exactly when there is a
      session, the onboarding request answered "completed" and the roles
      request did not throw; a failed or incomplete onboarding check never
      reaches the roles. Without a session the page stays on its loading
      screen. */
  lemma {:induction false} DashboardIff(signedIn: bool, status: Option<Reply<bool>>, fetched: Option<seq<string>>, stored: Option<string>)
    ensures var p := Load(signedIn, status, fetched, stored);
      && (p.rolesFetched <==> signedIn && status == Some(Success(true)) && fetched.Some?)
      && (Render(p).Dashboard? <==> p.rolesFetched)
      && (!signedIn ==> Render(p) == LoadingScreen && p.redirect == Some(SignIn))
  {
  }

  /** On the dashboard the active role is the stored one when it is valid,
      else the first role, which is then stored, else none. */
  lemma {:induction false} DashboardActiveRole(status: Option<Reply<bool>>, roles: seq<string>, stored: Option<string>)
    requires status == Some(Success(true))
    ensures var p := Load(true, status, Some(roles), stored);
      && p.view.roles == roles
      && (StoredValid(stored, roles) ==> p.view.active == stored)
      && (!StoredValid(stored, roles) && |roles| > 0 ==> p.view.active == p.view.stored == Some(roles[0]))
      && (roles == [] ==> p.view.active.None? && Render(p) == Dashboard([], "None"))
  {
  }

  /** After a successful onboarding POST, the next visit (with the same
      token and a working store) gets past the onboarding check. */
  lemma {:induction false} DashboardAfterOnboarding(header: Option<string>, provider: map<string, Store.UserId>, s: Store.Store,
                                 body: OnboardingRoute.OnboardingBody, fault: bool, roles: seq<string>,
                                 stored: Option<string>)
    requires OnboardingRoute.PostOnboarding(header, provider, s, body, fault).reply.Success?
    ensures var t := OnboardingRoute.PostOnboarding(header, provider, s, body, fault).store;
      Load(true, Some(OnboardingRoute.GetOnboarding(header, provider, t, false)), Some(roles), stored).rolesFetched
  {
    OnboardingRoute.PostThenGet(header, provider, s, body, fault);
  }
}

/** The dashboard under /dashboard (src/app/dashboard/page.tsx). It reads the
    caller's rows of the `UserRole` table straight from the database client,
    keeping those whose status is the lower-case string "approved", and
    applies the same active-role rule. The query result is given: `None` is
    a query error. */
module RoleDashboard {
  import opened Common
  import opened ActiveRole

  /** A row of the query: its role and status columns. */
  datatype RoleRow = RoleRow(role: string, status: string)

  /** The status the query filters on. */
  const Approved: string := "approved"

  /** The query's `.eq("status", "approved")` and `.map(r => r.role)`. */
  function ApprovedRoles(rows: seq<RoleRow>): (r: seq<string>)
    ensures |r| <= |rows|
  {
    if rows == [] then []
    else (if rows[0].status == Approved then [rows[0].role] else []) + ApprovedRoles(rows[1..])
  }

  /** A role is listed exactly when some row grants it with status
      "approved". */
  lemma {:induction false} ApprovedRolesMembers(rows: seq<RoleRow>, role: string)
    ensures role in ApprovedRoles(rows) <==> exists i :: 0 <= i < |rows| && rows[i].role == role && rows[i].status == Approved
  {
    if rows != [] {
      ApprovedRolesMembers(rows[1..], role);
      if role in ApprovedRoles(rows[1..]) {
        var i :| 0 <= i < |rows[1..]| && rows[1..][i].role == role && rows[1..][i].status == Approved;
        assert rows[i + 1] == rows[1..][i];
      }
      if exists i :: 0 <= i < |rows| && rows[i].role == role && rows[i].status == Approved {
        var i :| 0 <= i < |rows| && rows[i].role == role && rows[i].status == Approved;
        if i > 0 {
          assert rows[1..][i - 1] == rows[i];
        }
      }
    }
  }

  /** `fetchRoles`: no signed-in user clears the roles, a query error leaves
      them as they were, and otherwise the approved roles go through the
      active-role rule. */
  function Load(hasUser: bool, query: Option<seq<RoleRow>>, v: RoleView): (r: RoleView)
    ensures !hasUser ==> r.roles == [] && r.active == v.active
    ensures hasUser && query.None? ==> r == v
    ensures hasUser && query.Some? ==> r.roles == ApprovedRoles(query.value)
  {
    if !hasUser then v.(roles := [])
    else if query.None? then v
    else Select(v, ApprovedRoles(query.value))
  }

  /** On first load: no user or a query error leaves no roles and no active
      role; otherwise a role is active exactly when some row is approved, and
      it is one of the approved roles. */
  lemma {:induction false} FirstLoad(hasUser: bool, query: Option<seq<RoleRow>>, stored: Option<string>)
    ensures var r := Load(hasUser, query, Fresh(stored));
      && (!hasUser || query.None? ==> r.roles == [] && r.active.None? && r.stored == stored)
      && (hasUser && query.Some? ==>
            (r.active.Some? <==> exists i :: 0 <= i < |query.value| && query.value[i].status == Approved)
            && (r.active.Some? ==> r.active.value in ApprovedRoles(query.value)))
  {
    if hasUser && query.Some? {
      var rows := query.value;
      SelectFromFresh(stored, ApprovedRoles(rows));
      if exists i :: 0 <= i < |rows| && rows[i].status == Approved {
        var i :| 0 <= i < |rows| && rows[i].status == Approved;
        ApprovedRolesMembers(rows, rows[i].role);
      } else if ApprovedRoles(rows) != [] {
        ApprovedRolesMembers(rows, ApprovedRoles(rows)[0]);
      }
    }
  }
}

=== FILE: http.dfy ===
/** The JSON replies of the API routes: a body, or an error message with its
    HTTP status. A route that changes state returns the store after the
    request with its reply. */
module Http {
  import opened Common
  import opened Store
  import Auth

  /** A route's reply. */
  datatype Reply<T> = Success(body: T) | Failure(status: int, error: string)

  /** A state-changing route's reply and the store after it. */
  datatype Answer<T> = Answer(reply: Reply<T>, store: Store)

  /** The catch-all reply of every route's `catch` block. */
  const InternalError: string := "Internal server error"

  /** The error text of the framework's reply to an exception a route does
      not catch: status 500 with no JSON body, so no error message. */
  const Uncaught: string := ""

  /** An authentication failure passed through unchanged. */
  function AuthFailure<T>(a: Auth.AuthResult): (r: Reply<T>)
    requires a.AuthError?
    ensures r.Failure? && r.status == a.status && r.error == a.error
  {
    Failure(a.status, a.error)
  }
}

=== FILE: next_slot.dfy ===
/** The "next available slot" of a tutor in the tutor search
    (src/app/api/tutors/route.ts, lines 176-199), over integer minutes.
    Time is counted in minutes from an origin that is a Monday 00:00 UTC,
    so a week starts at every multiple of `Week`. For a window on
    `day_of_week` d starting at minute m, the route moves "now" to ISO
    weekday d + 1 of the current week (Monday-first, so d = 0 lands on
    Monday), takes the start of that day plus m minutes, and moves a start
    earlier than now one week ahead. Time zones are ignored, as in the
    route. The result is the earliest such start over the tutor's active
    TUTOR_AVAILABILITY windows. */
module NextSlot {
  import opened Common
  import opened Store
  import opened Time

  /** Minutes in a day and in a week. */
  const Day: int := 1440
  const Week: int := 7 * Day

  /** The start of the ISO week holding `now`. */
  function WeekStart(now: int): (r: int)
    ensures r <= now < r + Week && r % Week == 0
  {
    now - now % Week
  }

  /** The projected start of a window on `day` at minute `start`. */
  function Project(now: int, day: int, start: int): int {
    var t := WeekStart(now) + day * Day + start;
    if t < now then t + Week else t
  }

  /** The windows the route considers: active tutor windows. */
  predicate Eligible(a: Availability) {
    a.active && a.kind == TutorAvailability
  }

  /** The earliest projected start over the eligible rows, or `None` (JSON
      `null`) when there is none. */
  function NextAvailableSlot(rows: seq<Availability>, now: int): (r: Option<int>) {
    if rows == [] then None
    else
      var rest := NextAvailableSlot(rows[1..], now);
      if !Eligible(rows[0]) then rest
      else
        var p := Project(now, rows[0].day, rows[0].start);
        if rest.None? || p <= rest.value then Some(p) else rest
  }

  /** A start earlier than now moves exactly one week ahead; any other stays
      where it is. */
  lemma {:induction false} ProjectShift(now: int, day: int, start: int)
    ensures var t := WeekStart(now) + day * Day + start;
      && (t < now ==> Project(now, day, start) == t + Week)
      && (t >= now ==> Project(now, day, start) == t)
  {
  }

  /** For a day in 0-6 and a start minute in 0-1439 the projected start lies
      in the week beginning now. */
  lemma {:induction false} ProjectWithinWeek(now: int, day: int, start: int)
    requires 0 <= day <= 6 && 0 <= start < Day
    ensures now <= Project(now, day, start) < now + Week
  {
    var w := WeekStart(now);
    var t := w + day * Day + start;
    assert w <= t < w + Week;
  }

  /** The result is `None` exactly when no row is eligible; otherwise it is
      the projection of some eligible row and no eligible row projects
      earlier. */
  lemma {:induction false} NextSlotIsMinimum(rows: seq<Availability>, now: int)
    ensures NextAvailableSlot(rows, now).None? <==> forall i :: 0 <= i < |rows| ==> !Eligible(rows[i])
    ensures NextAvailableSlot(rows, now).Some? ==>
              exists i :: 0 <= i < |rows| && Eligible(rows[i])
                          && Project(now, rows[i].day, rows[i].start) == NextAvailableSlot(rows, now).value
    ensures NextAvailableSlot(rows, now).Some? ==>
              forall i :: 0 <= i < |rows| && Eligible(rows[i]) ==>
                NextAvailableSlot(rows, now).value <= Project(now, rows[i].day, rows[i].start)
  {
    if rows != [] {
      NextSlotIsMinimum(rows[1..], now);
      assert forall i :: 1 <= i < |rows| ==> rows[i] == rows[1..][i - 1];
      var rest := NextAvailableSlot(rows[1..], now);
      if rest.Some? {
        var j :| 0 <= j < |rows[1..]| && Eligible(rows[1..][j])
                 && Project(now, rows[1..][j].day, rows[1..][j].start) == rest.value;
        assert rows[j + 1] == rows[1..][j];
      }
    }
  }

  /** With every eligible window on a day in 0-6 starting within the day,
      the next slot lies in the week beginning now. */
  lemma {:induction false} NextSlotWithinWeek(rows: seq<Availability>, now: int)
    requires forall i :: 0 <= i < |rows| && Eligible(rows[i]) ==> 0 <= rows[i].day <= 6 && 0 <= rows[i].start < Day
    requires NextAvailableSlot(rows, now).Some?
    ensures now <= NextAvailableSlot(rows, now).value < now + Week
  {
    NextSlotIsMinimum(rows, now);
    var i :| 0 <= i < |rows| && Eligible(rows[i])
             && Project(now, rows[i].day, rows[i].start) == NextAvailableSlot(rows, now).value;
    ProjectWithinWeek(now, rows[i].day, rows[i].start);
  }

  /** The weekday of a minute, Monday-first: 0 is Monday and 6 is Sunday. */
  function IsoWeekdayIndex(t: int): (r: int)
    ensures 0 <= r <= 6
  {
    (t % Week) / Day
  }

  /** The encodings disagree: a window stored for "Sunday", which the time
      helpers encode as day 0, is projected onto a Monday, not onto the
      Sunday (ISO index 6) it names. */
  lemma {:induction false} SundayProjectsOntoMonday(now: int, start: int)
    requires 0 <= start < Day
    ensures DayNameToNumber("Sunday") == 0
    ensures IsoWeekdayIndex(Project(now, DayNameToNumber("Sunday"), start)) == 0
  {
    DayNameToNumberFacts("Sunday");
    DayNamesDistinct();
    IndexOfDistinct(DayNames, 0);
    ProjectOffset(now, 0, start);
    DayOfOffset(0, start);
  }

  /** The ISO weekday index (Monday 0) of the day the time helpers number
      `d` (Sunday 0). */
  function NamedIsoIndex(d: int): (r: int)
    requires 0 <= d <= 6
    ensures 0 <= r <= 6 && (r + 1) % 7 == d
  {
    (d + 6) % 7
  }

  /** Every stored day is projected one weekday late: a window on day d
      lands on ISO weekday d, the day after the one the time helpers call
      d ("Monday", 1, lands on a Tuesday; "Sunday", 0, on a Monday). */
  lemma {:induction false} EveryDayShifted(now: int, d: int, start: int)
    requires 0 <= d <= 6 && 0 <= start < Day
    ensures IsoWeekdayIndex(Project(now, d, start)) == d
    ensures IsoWeekdayIndex(Project(now, d, start)) == (NamedIsoIndex(d) + 1) % 7
  {
    ProjectOffset(now, d, start);
    DayOfOffset(d, start);
  }

  /** A projected window start lies d days and `start` minutes into its week. */
  lemma {:induction false} ProjectOffset(now: int, d: int, start: int)
    requires 0 <= d <= 6 && 0 <= start < Day
    ensures Project(now, d, start) % Week == d * Day + start
  {
    var w := WeekStart(now);
    var off := d * Day + start;
    assert 0 <= off < Week;
    assert w == (w / Week) * Week;
    if Project(now, d, start) == w + off {
      WeekOffset(w / Week, off);
    } else {
      assert Project(now, d, start) == (w / Week + 1) * Week + off;
      WeekOffset(w / Week + 1, off);
    }
  }

  /** An offset within the week survives adding whole weeks. */
  lemma {:induction false} WeekOffset(k: int, off: int)
    requires 0 <= off < Week
    ensures (k * Week + off) % Week == off
  {
  }

  /** The offset `d * Day + start` is on day d of the week. */
  lemma {:induction false} DayOfOffset(d: int, start: int)
    requires 0 <= d <= 6 && 0 <= start < Day
    ensures (d * Day + start) / Day == d
  {
  }
}

=== FILE: numbers.dfy ===
/** The JavaScript number/string conversions the application uses on integers:
    `Number(s)`, `parseInt(s, 10)`, `n.toString()`, `s.padStart(2, "0")` and the
    truncating remainder operator `%`. Numbers are unbounded integers; `None`
    stands for `NaN`. The conversions are plain functions; what they guarantee
    is stated by the lemmas that follow each of them. */
module Numbers {
  import opened Common

  predicate IsDigit(c: char) {
    '0' <= c <= '9'
  }

  predicate AllDigits(s: string) {
    forall i :: 0 <= i < |s| ==> IsDigit(s[i])
  }

  /** The value of a decimal digit character. */
  function DigitValue(c: char): int {
    c as int - '0' as int
  }

  /** The character spelling a decimal digit. */
  function DigitChar(d: nat): char
    requires d < 10
  {
    ('0' as int + d) as char
  }

  /** `DigitChar` and `DigitValue` are inverse on digits. */
  lemma {:induction false} DigitCharValue(d: nat, c: char)
    requires d < 10
    ensures IsDigit(DigitChar(d)) && DigitValue(DigitChar(d)) == d
    ensures IsDigit(c) ==> 0 <= DigitValue(c) < 10 && DigitChar(DigitValue(c)) == c
  {
  }

  /** The value of a decimal digit string (the empty string reads as 0). */
  function ParseDigits(s: string): int {
    if s == [] then 0
    else 10 * ParseDigits(s[..|s| - 1]) + DigitValue(s[|s| - 1])
  }

  /** A digit string reads as a natural number. */
  lemma {:induction false} ParseDigitsNat(s: string)
    requires AllDigits(s)
    ensures ParseDigits(s) >= 0
    decreases |s|
  {
    if s != [] {
      ParseDigitsNat(s[..|s| - 1]);
    }
  }

  /** `n.toString()` for a natural number: its shortest decimal spelling. */
  function NatToString(n: nat): string {
    if n < 10 then [DigitChar(n)] else NatToString(n / 10) + [DigitChar(n % 10)]
  }

  /** The spelling of n is a non-empty digit string that reads back as n,
      has no leading zero unless n is 0, and has one digit exactly when n < 10. */
  lemma {:induction false} NatToStringFacts(n: nat)
    ensures var r := NatToString(n);
      && |r| >= 1 && AllDigits(r) && ParseDigits(r) == n
      && (r[0] == '0' ==> n == 0)
      && (|r| == 1 <==> n < 10)
  {
    DigitCharValue(n % 10, '0');
    if n >= 10 {
      NatToStringFacts(n / 10);
      var p := NatToString(n / 10);
      var r := p + [DigitChar(n % 10)];
      assert r[..|r| - 1] == p;
    }
  }

  /** `n.toString()` for an integer: a minus sign before a negative value. */
  function IntToString(n: int): string {
    if n < 0 then "-" + NatToString(-n) else NatToString(n)
  }

  /** `s.padStart(2, "0")`. */
  function PadStart2(s: string): string {
    if |s| >= 2 then s else seq(2 - |s|, _ => '0') + s
  }

  /** Leading zeros do not change the value of a digit string. */
  lemma {:induction false} ParseLeadingZero(s: string)
    ensures ParseDigits("0" + s) == ParseDigits(s)
    decreases |s|
  {
    var z := "0" + s;
    if s != [] {
      assert z[..|z| - 1] == "0" + s[..|s| - 1];
      ParseLeadingZero(s[..|s| - 1]);
    } else {
      assert z[..0] == [];
    }
  }

  /** Padding a natural number's spelling gives a digit string of at least
      two characters (exactly two below 100) with the same value. */
  lemma {:induction false} PaddedNatValue(n: nat)
    ensures var f := PadStart2(NatToString(n));
      && |f| >= 2 && AllDigits(f) && ParseDigits(f) == n
      && (n < 100 ==> |f| == 2)
  {
    var s := NatToString(n);
    NatToStringFacts(n);
    if |s| < 2 {
      assert PadStart2(s) == "0" + s;
      ParseLeadingZero(s);
    } else if n < 100 {
      NatToStringFacts(n / 10);
      assert s == NatToString(n / 10) + [DigitChar(n % 10)];
    }
  }

  /** The value of a two-character digit string. */
  lemma {:induction false} ParseTwo(s: string)
    requires |s| == 2
    ensures ParseDigits(s) == 10 * DigitValue(s[0]) + DigitValue(s[1])
  {
    var first := s[..1];
    assert first[..0] == [] && first[0] == s[0];
    assert ParseDigits(first) == DigitValue(s[0]);
    assert s[..|s| - 1] == first;
  }

  /** A two-digit string is the padded spelling of its own value. */
  lemma {:induction false} TwoDigitSpelling(s: string)
    requires |s| == 2 && AllDigits(s)
    ensures ParseDigits(s) >= 0 && PadStart2(NatToString(ParseDigits(s))) == s
  {
    ParseTwo(s);
    var hi := DigitValue(s[0]);
    var lo := DigitValue(s[1]);
    DigitCharValue(0, s[0]);
    DigitCharValue(0, s[1]);
    var n := 10 * hi + lo;
    if hi == 0 {
      assert NatToString(n) == [DigitChar(lo)];
    } else {
      assert n / 10 == hi && n % 10 == lo;
      assert NatToString(n) == NatToString(hi) + [DigitChar(lo)];
    }
    assert s == [s[0], s[1]];
  }

  /** JavaScript's `a % b` for a positive divisor: the remainder takes the
      sign of the dividend (truncating division), unlike Dafny's `%`. */
  function JsRem(a: int, b: int): (r: int)
    requires b > 0
    ensures -b < r < b
    ensures a >= 0 ==> r == a % b
    ensures a < 0 ==> r <= 0
  {
    if a >= 0 then a % b else -((-a) % b)
  }

  /** The longest prefix of `s` made of decimal digits. */
  function DigitPrefix(s: string): string {
    if s != [] && IsDigit(s[0]) then [s[0]] + DigitPrefix(s[1..]) else []
  }

  /** `DigitPrefix` is a prefix made of digits that stops at the first
      non-digit; on a digit string it is the whole string. */
  lemma {:induction false} DigitPrefixFacts(s: string)
    ensures var r := DigitPrefix(s);
      && AllDigits(r) && |r| <= |s| && r == s[..|r|]
      && (|r| < |s| ==> !IsDigit(s[|r|]))
      && (AllDigits(s) ==> r == s)
    decreases |s|
  {
    if s != [] && IsDigit(s[0]) {
      DigitPrefixFacts(s[1..]);
      var r := [s[0]] + DigitPrefix(s[1..]);
      assert r == s[..|r|];
      if AllDigits(s) {
        assert AllDigits(s[1..]);
        assert s == [s[0]] + s[1..];
      }
    }
  }

  /** A digit string has nothing to trim. */
  lemma {:induction false} NoSpaceDigitsTrim(s: string)
    requires AllDigits(s)
    ensures TrimStart(s) == s && Trim(s) == s
  {
    if s != [] {
      assert !IsJsSpace(s[0]);
      assert !IsJsSpace(s[|s| - 1]);
    }
  }

  /** `Number(s)` on a string, for the integer spellings the application
      handles: surrounding whitespace is ignored, the empty (or blank) string
      is 0, and an optional sign may precede the digits. Anything else is
      `NaN` (`None`). */
  function JsNumber(s: string): Option<int> {
    var t := Trim(s);
    var negative := |t| > 0 && t[0] == '-';
    var body := if |t| > 0 && (t[0] == '-' || t[0] == '+') then t[1..] else t;
    var ds := DigitPrefix(body);
    if t == [] then Some(0)
    else if body == [] || |ds| < |body| then None
    else Some(if negative then -ParseDigits(ds) else ParseDigits(ds))
  }

  /** `Number` reads a digit string as its decimal value, and the empty
      string as 0. */
  lemma {:induction false} JsNumberOfDigits(s: string)
    requires AllDigits(s)
    ensures JsNumber(s) == Some(ParseDigits(s))
  {
    NoSpaceDigitsTrim(s);
    DigitPrefixFacts(s);
    if s != [] { assert IsDigit(s[0]); }
  }

  /** `parseInt(s, 10)`: skip leading whitespace, read an optional sign and
      then as many decimal digits as there are; no digit at all is `NaN`. */
  function ParseInt(s: string): Option<int> {
    var t := TrimStart(s);
    var negative := |t| > 0 && t[0] == '-';
    var body := if |t| > 0 && (t[0] == '-' || t[0] == '+') then t[1..] else t;
    var ds := DigitPrefix(body);
    if ds == [] then None
    else Some(if negative then -ParseDigits(ds) else ParseDigits(ds))
  }

  /** `parseInt` reads a non-empty digit string as its value. */
  lemma {:induction false} ParseIntOfDigits(s: string)
    requires AllDigits(s) && s != []
    ensures ParseInt(s) == Some(ParseDigits(s))
  {
    NoSpaceDigitsTrim(s);
    DigitPrefixFacts(s);
    assert IsDigit(s[0]);
  }

  /** `parseInt` reads back what `toString` writes, for every integer. */
  lemma {:induction false} ParseIntOfToString(n: int)
    ensures ParseInt(IntToString(n)) == Some(n)
  {
    var s := IntToString(n);
    if n < 0 {
      var d := NatToString(-n);
      NatToStringFacts(-n);
      DigitPrefixFacts(d);
      assert s[0] == '-' && !IsJsSpace(s[0]);
      assert TrimStart(s) == s;
      assert s[1..] == d;
    } else {
      NatToStringFacts(n);
      ParseIntOfDigits(s);
    }
  }

  /** A parsed query value with JavaScript's `|| d` fallback: `NaN` and 0 are
      falsy and give way to the default. */
  function OrDefault(v: Option<int>, d: int): (r: int)
    ensures v.Some? && v.value != 0 ==> r == v.value
    ensures v.None? || v.value == 0 ==> r == d
  {
    if v.Some? && v.value != 0 then v.value else d
  }
}

=== FILE: onboarding_form.dfy ===
/** The onboarding form (src/components/forms/OnboardingForm.tsx). Four
    steps, name, languages, availability and timezone (with the country),
    each with a check on Next; Next on the last step sends the body of
    `POST /api/user/onboarding`. Whether a session exists is an input, and
    the route's answer to the request is not part of this model. */
module OnboardingFormWizard {
  import opened Common
  import Store
  import opened Slots
  import opened AvailabilityRows
  import opened OnboardingRoute
  import opened Wizard

  /** `OnboardingStep`. */
  datatype Step = Name | Languages | Availability | Timezone

  /** `onboardingSteps`, in order. */
  const Steps: seq<Step> := [Name, Languages, Availability, Timezone]

  /** The position of a step in `Steps`. */
  function Index(s: Step): nat {
    match s
    case Name => 0
    case Languages => 1
    case Availability => 2
    case Timezone => 3
  }

  /** The form's state. */
  datatype Form = Form(step: Step, firstName: string, lastName: string, userName: string,
                       picks: LanguagePicks, slots: seq<TimeSlot>, timezone: string, country: string,
                       error: Option<string>)

  /** The form as it first appears. */
  const Initial: Form := Form(Name, "", "", "", NoPicks, [], "", "", None)

  /** What the user can do. */
  datatype Event =
    | EditFirstName(text: string)
    | EditLastName(text: string)
    | EditUserName(text: string)
    | ClickLanguage(language: string)
    | ChooseProficiency(index: int, value: string)
    | ToggleSlot(day: int, hour: int)
    | ChooseTimezone(zone: string)
    | ChooseCountry(name: string)
    | Next
    | Back

  /** The form after an event, and the request body it sent, if any. */
  datatype Outcome = Outcome(form: Form, sent: Option<OnboardingBody>)

  const NameMissing: string := "Please enter your first and last name"
  const BadUsername: string := "Username must be one word (letters, numbers or underscore)"
  const NoLanguage: string := "Please select at least one language to learn."
  const NoSlot: string := "Please select at least one time slot."
  const NoSession: string := "No user found"

  /** The submitted JSON: every field of the form, the language rows under
      `selectedLanguages` and the country under `country`. */
  function Body(f: Form): OnboardingBody {
    OnboardingBody(Some(f.firstName), Some(f.lastName), Some(f.userName), Some(f.picks.details),
                   Some(f.slots), Some(f.timezone), Some(f.country))
  }

  /** `handleNext`, and `handleSubmit` on the last step. */
  function NextStep(f: Form, signedIn: bool): (r: Outcome)
    ensures r.form.error.Some? ==> r.form.step == f.step && r.sent.None?
    ensures r.sent.Some? ==> f.step == Timezone && signedIn && r.form.error.None?
    ensures r.form.step != f.step ==> Index(r.form.step) == Index(f.step) + 1 && r.form.error.None?
  {
    var g := f.(error := None);
    match f.step
    case Name =>
      if IsBlank(f.firstName) || IsBlank(f.lastName) then Outcome(g.(error := Some(NameMissing)), None)
      else if !IsUsername(f.userName) then Outcome(g.(error := Some(BadUsername)), None)
      else Outcome(g.(step := Languages), None)
    case Languages =>
      var c := CheckLanguages(f.picks, NoLanguage);
      if c.error.Some? then Outcome(g.(picks := c.picks, error := c.error), None)
      else Outcome(g.(picks := c.picks, step := Availability), None)
    case Availability =>
      if |f.slots| == 0 then Outcome(g.(error := Some(NoSlot)), None)
      else Outcome(g.(step := Timezone), None)
    case Timezone =>
      if !signedIn then Outcome(g.(error := Some(NoSession)), None)
      else Outcome(g, Some(Body(f)))
  }

  /** The Back button: clear the error and return to the previous step. It
      is not rendered on the first step. */
  function BackStep(f: Form): Form {
    StepsFacts(f.step);
    var p := Previous(Steps, f.step);
    if p.None? then f else f.(step := p.value, error := None)
  }

  /** One event. Each input belongs to one step; the proficiency control
      offers the `LANGUAGE_PROFICIENCY` values. */
  function Handle(f: Form, e: Event, signedIn: bool): (r: Outcome)
    ensures r.sent.Some? ==> e.Next? && f.step == Timezone
    ensures !e.Next? ==> r.sent.None?
  {
    match e
    case EditFirstName(t) => Outcome(if f.step == Name then f.(firstName := t) else f, None)
    case EditLastName(t) => Outcome(if f.step == Name then f.(lastName := t) else f, None)
    case EditUserName(t) => Outcome(if f.step == Name then f.(userName := t) else f, None)
    case ClickLanguage(l) => Outcome(if f.step == Languages then f.(picks := Pick(f.picks, l)) else f, None)
    case ChooseProficiency(i, v) =>
      Outcome(if f.step == Languages && v in ProficiencyLevels then f.(picks := SetProficiency(f.picks, i, v)) else f, None)
    case ToggleSlot(d, h) => Outcome(if f.step == Availability then f.(slots := ClickSlot(f.slots, d, h)) else f, None)
    case ChooseTimezone(z) => Outcome(if f.step == Timezone then f.(timezone := z) else f, None)
    case ChooseCountry(c) => Outcome(if f.step == Timezone then f.(country := c) else f, None)
    case Next => NextStep(f, signedIn)
    case Back => Outcome(BackStep(f), None)
  }

  /** What every form reached from `Initial` satisfies: the rows are in sync
      with the picks, proficiencies are dropdown values, slots come from the
      grid, and every step before the current one passed its check. */
  predicate Consistent(f: Form) {
    && InSync(f.picks) && LevelsFrom(f.picks.details, ProficiencyLevels) && AllGrid(f.slots)
    && (Index(f.step) >= 1 ==> !IsBlank(f.firstName) && !IsBlank(f.lastName) && IsUsername(f.userName))
    && (Index(f.step) >= 2 ==> |f.picks.selected| > 0 && AllHaveProficiency(f.picks.details))
    && (Index(f.step) >= 3 ==> |f.slots| > 0)
  }

  /** The steps are four distinct values, each at its index, and the counter
      shows index + 1 of 4. */
  lemma {:induction false} StepsFacts(s: Step)
    ensures NoDuplicates(Steps) && |Steps| == 4
    ensures s in Steps && Steps[Index(s)] == s
    ensures StepNumber(Steps, s) == Index(s) + 1
  {
    IndexOfDistinct(Steps, Index(s));
  }

  /** The form starts on the first step, counted 1, in a consistent state. */
  lemma {:induction false} InitialFacts()
    ensures Consistent(Initial) && StepNumber(Steps, Initial.step) == 1
  {
    StepsFacts(Initial.step);
  }

  /** Back is not offered on "name"; elsewhere it clears the error, goes
      exactly one step back and keeps every field. */
  lemma {:induction false} BackFacts(f: Form)
    ensures f.step == Name ==> BackStep(f) == f
    ensures f.step != Name ==>
              Index(BackStep(f).step) == Index(f.step) - 1 && BackStep(f) == f.(step := BackStep(f).step, error := None)
  {
    StepsFacts(f.step);
    PreviousFacts(Steps, f.step);
    if f.step != Name {
      StepsFacts(Previous(Steps, f.step).value);
    }
  }

  /** Next on "name" passes exactly when both trimmed names are non-blank and
      the untrimmed username is one word of `[A-Za-z0-9_]`; names are
      checked first. */
  lemma {:induction false} NameStepIff(f: Form, signedIn: bool)
    requires f.step == Name
    ensures NextStep(f, signedIn).form.step == Languages <==>
              !IsBlank(f.firstName) && !IsBlank(f.lastName) && IsUsername(f.userName)
    ensures IsBlank(f.firstName) || IsBlank(f.lastName) ==> NextStep(f, signedIn).form.error == Some(NameMissing)
  {
  }

  /** Next on "languages" passes exactly when a language is picked and each
      picked language has a row with a proficiency. */
  lemma {:induction false} LanguagesStepIff(f: Form, signedIn: bool)
    requires f.step == Languages && Consistent(f)
    ensures NextStep(f, signedIn).form.step == Availability <==>
              |f.picks.selected| > 0
              && forall i :: 0 <= i < |f.picks.selected| ==> Lookup(f.picks.details, f.picks.selected[i]).proficiency != ""
  {
    CheckLanguagesFacts(f.picks, NoLanguage, ProficiencyLevels);
  }

  /** Next on "availability" passes exactly when a slot is selected, and
      Next on "timezone" sends the body exactly when there is a session. */
  lemma {:induction false} LaterStepsIff(f: Form, signedIn: bool)
    ensures f.step == Availability ==> (NextStep(f, signedIn).form.step == Timezone <==> |f.slots| > 0)
    ensures f.step == Timezone ==>
              (NextStep(f, signedIn).sent == Some(Body(f)) <==> signedIn)
              && (!signedIn ==> NextStep(f, signedIn).form.error == Some(NoSession))
  {
  }

  /** Every event keeps the form consistent. */
  lemma {:induction false} HandleKeepsConsistent(f: Form, e: Event, signedIn: bool)
    requires Consistent(f)
    ensures Consistent(Handle(f, e, signedIn).form)
  {
    match e
    case ClickLanguage(l) =>
      if f.step == Languages { PickFacts(f.picks, l, ProficiencyLevels); }
    case ChooseProficiency(i, v) =>
      if f.step == Languages && v in ProficiencyLevels { SetProficiencyFacts(f.picks, i, v, ProficiencyLevels); }
    case ToggleSlot(d, h) =>
      ClickSlotKeepsGrid(f.slots, d, h);
    case Next =>
      if f.step == Languages { CheckLanguagesFacts(f.picks, NoLanguage, ProficiencyLevels); }
    case Back =>
      BackFacts(f);
    case _ =>
  }

  /** A body sent from a consistent form has non-blank names, a one-word
      username, at least one language row, each with a dropdown
      proficiency, and at least one grid slot. */
  lemma {:induction false} SentBodyFacts(f: Form, signedIn: bool)
    requires Consistent(f) && NextStep(f, signedIn).sent.Some?
    ensures var b := NextStep(f, signedIn).sent.value;
      && b == Body(f)
      && !IsBlank(b.firstName.value) && !IsBlank(b.lastName.value) && IsUsername(b.userName.value)
      && |b.selectedLanguages.value| > 0
      && (forall i :: 0 <= i < |b.selectedLanguages.value| ==> b.selectedLanguages.value[i].proficiency in ProficiencyLevels)
      && |b.selectedTimeSlots.value| > 0 && AllGrid(b.selectedTimeSlots.value)
  {
  }

  /** A body sent from a consistent form commits for any caller who has a
      user row: its slots all convert and every proficiency is accepted
      once upper-cased; the username is stored as typed. */
  lemma {:induction false} SentBodyCommits(f: Form, signedIn: bool, s: Store.Store, user: Store.UserId)
    requires Consistent(f) && NextStep(f, signedIn).sent.Some? && user in s.users
    ensures Transaction(s, user, Body(f)).Some?
    ensures Transaction(s, user, Body(f)).value.users[user].username == Some(f.userName)
  {
    SentBodyFacts(f, signedIn);
    var details := f.picks.details;
    GridSlotsConvert(user, f.slots, Some(f.timezone));
    forall i | 0 <= i < |details| ensures EntryProficiency(details[i]).Some? {
      OptionsParse(details[i].proficiency);
    }
    TransactionSomeIff(s, user, Body(f));
    TransactionUserFields(s, user, Body(f));
  }
}

=== FILE: onboarding_page.dfy ===
/** The onboarding page (src/app/onboarding/page.tsx). The same four steps
    as the other onboarding forms; the name step asks for a `fullName` that
    only has to be non-blank, and a progress bar highlights every segment up
    to the current step. The body sends the name under the key `fullName`,
    which the onboarding route does not read, so the name is never stored.
    Whether a session exists is an input, and the route's answer to the
    request is not part of this model. */
module OnboardingPageWizard {
  import opened Common
  import Store
  import opened Slots
  import opened AvailabilityRows
  import opened OnboardingRoute
  import opened Wizard

  /** `OnboardingStep`. */
  datatype Step = Name | Languages | Availability | Timezone

  /** The steps of `getStepIndex`, of the progress bar and of Back, in
      order. */
  const Steps: seq<Step> := [Name, Languages, Availability, Timezone]

  /** The position of a step in the list (the value `getStepIndex` is
      proved to return below). */
  function Index(s: Step): nat {
    match s
    case Name => 0
    case Languages => 1
    case Availability => 2
    case Timezone => 3
  }

  /** The form's state. */
  datatype Form = Form(step: Step, fullName: string, picks: LanguagePicks, slots: seq<TimeSlot>,
                       timezone: string, error: Option<string>)

  /** The form as it first appears. */
  const Initial: Form := Form(Name, "", NoPicks, [], "", None)

  /** What the user can do. */
  datatype Event =
    | EditFullName(text: string)
    | ClickLanguage(language: string)
    | ChooseProficiency(index: int, value: string)
    | ToggleSlot(day: int, hour: int)
    | ChooseTimezone(zone: string)
    | Next
    | Back

  /** The form after an event, and the request body it sent, if any. */
  datatype Outcome = Outcome(form: Form, sent: Option<OnboardingBody>)

  const NameMissing: string := "Please enter your full name"
  const NoLanguage: string := "Please select at least one language to learn."
  const NoSlot: string := "Please select at least one time slot."
  const NoSession: string := "No user found"

  /** The submitted JSON as the route reads it: the language rows, the slots
      and the timezone. The name travels under `fullName`, a key the route
      does not read, so no name field is present. */
  function Body(f: Form): OnboardingBody {
    OnboardingBody(None, None, None, Some(f.picks.details), Some(f.slots), Some(f.timezone), None)
  }

  /** `handleNext`, and `handleSubmit` on the last step. */
  function NextStep(f: Form, signedIn: bool): (r: Outcome)
    ensures r.form.error.Some? ==> r.form.step == f.step && r.sent.None?
    ensures r.sent.Some? ==> f.step == Timezone && signedIn && r.form.error.None?
    ensures r.form.step != f.step ==> Index(r.form.step) == Index(f.step) + 1 && r.form.error.None?
  {
    var g := f.(error := None);
    match f.step
    case Name =>
      if IsBlank(f.fullName) then Outcome(g.(error := Some(NameMissing)), None)
      else Outcome(g.(step := Languages), None)
    case Languages =>
      var c := CheckLanguages(f.picks, NoLanguage);
      if c.error.Some? then Outcome(g.(picks := c.picks, error := c.error), None)
      else Outcome(g.(picks := c.picks, step := Availability), None)
    case Availability =>
      if |f.slots| == 0 then Outcome(g.(error := Some(NoSlot)), None)
      else Outcome(g.(step := Timezone), None)
    case Timezone =>
      if !signedIn then Outcome(g.(error := Some(NoSession)), None)
      else Outcome(g, Some(Body(f)))
  }

  /** The Back button: clear the error and return to the previous step. It
      is not rendered on the first step. */
  function BackStep(f: Form): Form {
    StepsFacts(f.step);
    var p := Previous(Steps, f.step);
    if p.None? then f else f.(step := p.value, error := None)
  }

  /** One event. Each input belongs to one step; the proficiency `<select>`
      offers "native", "fluent", "intermediate" and "beginner". */
  function Handle(f: Form, e: Event, signedIn: bool): (r: Outcome)
    ensures r.sent.Some? ==> e.Next? && f.step == Timezone
    ensures !e.Next? ==> r.sent.None?
  {
    match e
    case EditFullName(t) => Outcome(if f.step == Name then f.(fullName := t) else f, None)
    case ClickLanguage(l) => Outcome(if f.step == Languages then f.(picks := Pick(f.picks, l)) else f, None)
    case ChooseProficiency(i, v) =>
      Outcome(if f.step == Languages && v in SelectLevels then f.(picks := SetProficiency(f.picks, i, v)) else f, None)
    case ToggleSlot(d, h) => Outcome(if f.step == Availability then f.(slots := ClickSlot(f.slots, d, h)) else f, None)
    case ChooseTimezone(z) => Outcome(if f.step == Timezone then f.(timezone := z) else f, None)
    case Next => NextStep(f, signedIn)
    case Back => Outcome(BackStep(f), None)
  }

  /** What every form reached from `Initial` satisfies: the rows are in sync
      with the picks, proficiencies are option values, slots come from the
      grid, and every step before the current one passed its check. */
  predicate Consistent(f: Form) {
    && InSync(f.picks) && LevelsFrom(f.picks.details, SelectLevels) && AllGrid(f.slots)
    && (Index(f.step) >= 1 ==> !IsBlank(f.fullName))
    && (Index(f.step) >= 2 ==> |f.picks.selected| > 0 && AllHaveProficiency(f.picks.details))
    && (Index(f.step) >= 3 ==> |f.slots| > 0)
  }

  /** The steps are four distinct values, each at its index. */
  lemma {:induction false} StepsFacts(s: Step)
    ensures NoDuplicates(Steps) && |Steps| == 4
    ensures s in Steps && Steps[Index(s)] == s
    ensures GetStepIndex(s) == Index(s)
  {
    IndexOfDistinct(Steps, Index(s));
  }

  /** The form starts on the first step, with only the first progress
      segment highlighted, in a consistent state. */
  lemma {:induction false} InitialFacts()
    ensures Consistent(Initial) && GetStepIndex(Initial.step) == 0
  {
    StepsFacts(Initial.step);
  }

  /** Back is not offered on "name"; elsewhere it clears the error, goes
      exactly one step back and keeps every field. */
  lemma {:induction false} BackFacts(f: Form)
    ensures f.step == Name ==> BackStep(f) == f
    ensures f.step != Name ==>
              Index(BackStep(f).step) == Index(f.step) - 1 && BackStep(f) == f.(step := BackStep(f).step, error := None)
  {
    StepsFacts(f.step);
    PreviousFacts(Steps, f.step);
    if f.step != Name {
      StepsFacts(Previous(Steps, f.step).value);
    }
  }

  /** Next on "name" passes exactly when the trimmed full name is non-empty. */
  lemma {:induction false} NameStepIff(f: Form, signedIn: bool)
    requires f.step == Name
    ensures NextStep(f, signedIn).form.step == Languages <==> !IsBlank(f.fullName)
    ensures NextStep(f, signedIn).form.step == Name ==> NextStep(f, signedIn).form.error == Some(NameMissing)
  {
  }

  /** Next on "languages" passes exactly when a language is picked and each
      picked language has a row with a proficiency. */
  lemma {:induction false} LanguagesStepIff(f: Form, signedIn: bool)
    requires f.step == Languages && Consistent(f)
    ensures NextStep(f, signedIn).form.step == Availability <==>
              |f.picks.selected| > 0
              && forall i :: 0 <= i < |f.picks.selected| ==> Lookup(f.picks.details, f.picks.selected[i]).proficiency != ""
  {
    CheckLanguagesFacts(f.picks, NoLanguage, SelectLevels);
  }

  /** Next on "availability" passes exactly when a slot is selected, and
      Next on "timezone" sends the body exactly when there is a session. */
  lemma {:induction false} LaterStepsIff(f: Form, signedIn: bool)
    ensures f.step == Availability ==> (NextStep(f, signedIn).form.step == Timezone <==> |f.slots| > 0)
    ensures f.step == Timezone ==>
              (NextStep(f, signedIn).sent == Some(Body(f)) <==> signedIn)
              && (!signedIn ==> NextStep(f, signedIn).form.error == Some(NoSession))
  {
  }

  /** Every event keeps the form consistent. */
  lemma {:induction false} HandleKeepsConsistent(f: Form, e: Event, signedIn: bool)
    requires Consistent(f)
    ensures Consistent(Handle(f, e, signedIn).form)
  {
    match e
    case ClickLanguage(l) =>
      if f.step == Languages { PickFacts(f.picks, l, SelectLevels); }
    case ChooseProficiency(i, v) =>
      if f.step == Languages && v in SelectLevels { SetProficiencyFacts(f.picks, i, v, SelectLevels); }
    case ToggleSlot(d, h) =>
      ClickSlotKeepsGrid(f.slots, d, h);
    case Next =>
      if f.step == Languages { CheckLanguagesFacts(f.picks, NoLanguage, SelectLevels); }
    case Back =>
      BackFacts(f);
    case _ =>
  }

  /** `getStepIndex`: the step's position in the list. */
  function GetStepIndex(s: Step): int {
    IndexOf(Steps, s)
  }

  /** Progress segment `segment` is highlighted:
      `getStepIndex(currentStep) >= segment`. */
  predicate Highlighted(f: Form, segment: int) {
    GetStepIndex(f.step) >= segment
  }

  /** `getStepIndex` maps name, languages, availability and timezone to 0,
      1, 2 and 3, and of the four segments exactly those up to the current
      step are highlighted. */
  lemma {:induction false} ProgressFacts(f: Form, segment: int)
    requires 0 <= segment < |Steps|
    ensures GetStepIndex(f.step) == Index(f.step)
    ensures Highlighted(f, segment) <==> segment <= Index(f.step)
  {
    StepsFacts(f.step);
  }

  /** A body sent from a consistent form commits for any caller who has a
      user row, and the name typed on the first step is not stored: the
      username, first name and last name columns keep their values. */
  lemma {:induction false} SentBodyCommits(f: Form, signedIn: bool, s: Store.Store, user: Store.UserId)
    requires Consistent(f) && NextStep(f, signedIn).sent.Some? && user in s.users
    ensures Transaction(s, user, Body(f)).Some?
    ensures var u := Transaction(s, user, Body(f)).value.users[user];
      u.username == s.users[user].username && u.firstName == s.users[user].firstName
      && u.lastName == s.users[user].lastName
  {
    var details := f.picks.details;
    GridSlotsConvert(user, f.slots, Some(f.timezone));
    forall i | 0 <= i < |details| ensures EntryProficiency(details[i]).Some? {
      OptionsParse(details[i].proficiency);
    }
    TransactionSomeIff(s, user, Body(f));
    TransactionUserFields(s, user, Body(f));
  }
}

=== FILE: onboarding_route.dfy ===
/** `GET` and `POST /api/user/onboarding`
    (src/app/api/user/onboarding/route.ts). GET reports whether the caller's
    student profile has completed onboarding. POST runs five steps in one
    transaction: update the user row, mark the student profile completed,
    upsert the student's languages, replace the student availability rows,
    and approve the STUDENT role assignment when that role exists. Any step
    that throws aborts all of them and the route answers 500.

    The body is read field by field; an absent field is `None`, and the
    ORM skips a `None` field in an update. The concurrent per-language
    upserts are modelled as a sequential loop: they write disjoint keys
    unless two entries resolve to the same language, and then the later
    entry's write is the one kept. */
module OnboardingRoute {
  import opened Common
  import opened Store
  import opened Auth
  import opened Http
  import opened Slots
  import opened AvailabilityRows

  /** One `{ language, proficiency }` entry of `selectedLanguages`. */
  datatype LanguageDetail = LanguageDetail(language: string, proficiency: string)

  /** The POST body fields the route reads. */
  datatype OnboardingBody = OnboardingBody(
    firstName: Option<string>, lastName: Option<string>, userName: Option<string>,
    selectedLanguages: Option<seq<LanguageDetail>>, selectedTimeSlots: Option<seq<TimeSlot>>,
    selectedTimezone: Option<string>, country: Option<string>)

  /** The role approved by onboarding. */
  const StudentRole: string := "STUDENT"

  // ---------------------------------------------------------------------------
  // GET
  // ---------------------------------------------------------------------------

  /** GET: `!!studentProfile?.onboarding_completed`. */
  function GetOnboarding(header: Option<string>, provider: map<string, UserId>, s: Store, fault: bool): (r: Reply<bool>)
    ensures r.Failure? ==> (r.status == 401 && r.error == "Unauthorized") || (r.status == 500 && r.error == InternalError)
  {
    var a := GetAuthenticatedUser(header, provider);
    if a.AuthError? then AuthFailure(a)
    else if fault then Failure(500, InternalError)
    else Success(a.user in s.studentProfiles && s.studentProfiles[a.user].onboardingCompleted)
  }

  /** GET reports true exactly for a caller whose profile exists and is
      marked completed; a missing profile reads as false. */
  lemma {:induction false} GetOnboardingIff(header: Option<string>, provider: map<string, UserId>, s: Store, user: UserId)
    requires GetAuthenticatedUser(header, provider) == Authenticated(user)
    ensures GetOnboarding(header, provider, s, false) == Success(true) <==>
              user in s.studentProfiles && s.studentProfiles[user].onboardingCompleted
    ensures user !in s.studentProfiles ==> GetOnboarding(header, provider, s, false) == Success(false)
  {
  }

  // ---------------------------------------------------------------------------
  // Step 3: resolving language keys to ids
  // ---------------------------------------------------------------------------

  /** The `language` field of every entry. */
  function Keys(details: seq<LanguageDetail>): (r: seq<string>)
    ensures |r| == |details|
  {
    if details == [] then [] else [details[0].language] + Keys(details[1..])
  }

  /** A catalogue row answers to a key by its code or its name. */
  predicate Matches(l: Language, key: string) {
    l.code == key || l.name == key
  }

  /** The `findMany` over codes or names in `keys`, in catalogue order. */
  function FoundLanguages(langs: seq<Language>, keys: seq<string>): (r: seq<Language>)
    ensures |r| <= |langs|
  {
    if langs == [] then []
    else
      var init := FoundLanguages(langs[..|langs| - 1], keys);
      var l := langs[|langs| - 1];
      if l.code in keys || l.name in keys then init + [l] else init
  }

  /** The `codeToId` map: each found row sets its code, then its name, so a
      later row overwrites an earlier one. */
  function CodeToId(found: seq<Language>): map<string, string> {
    if found == [] then map[]
    else
      var l := found[|found| - 1];
      CodeToId(found[..|found| - 1])[l.code := l.id][l.name := l.id]
  }

  /** The reference meaning of a lookup: the id of the last row answering to
      the key. */
  function LastMatch(langs: seq<Language>, key: string): (r: Option<string>)
    ensures r.None? <==> forall i :: 0 <= i < |langs| ==> !Matches(langs[i], key)
    ensures r.Some? ==> exists i :: 0 <= i < |langs| && Matches(langs[i], key) && langs[i].id == r.value
  {
    if langs == [] then None
    else if Matches(langs[|langs| - 1], key) then Some(langs[|langs| - 1].id)
    else
      var r := LastMatch(langs[..|langs| - 1], key);
      assert forall i :: 0 <= i < |langs| - 1 ==> langs[..|langs| - 1][i] == langs[i];
      r
  }

  /** The map holds a key exactly when some found row answers to it, and
      then the last such row's id. */
  lemma {:induction false} CodeToIdIsLastMatch(found: seq<Language>, key: string)
    ensures key in CodeToId(found) <==> LastMatch(found, key).Some?
    ensures key in CodeToId(found) ==> CodeToId(found)[key] == LastMatch(found, key).value
  {
    if found != [] {
      CodeToIdIsLastMatch(found[..|found| - 1], key);
    }
  }

  /** Restricting the catalogue to the rows answering to some key changes
      no lookup of a key that was asked for. */
  lemma {:induction false} FoundKeepsMatches(langs: seq<Language>, keys: seq<string>, key: string)
    requires key in keys
    ensures LastMatch(FoundLanguages(langs, keys), key) == LastMatch(langs, key)
  {
    if langs != [] {
      var init := langs[..|langs| - 1];
      var l := langs[|langs| - 1];
      FoundKeepsMatches(init, keys, key);
      var f := FoundLanguages(init, keys);
      if l.code in keys || l.name in keys {
        assert (f + [l])[..|f + [l]| - 1] == f;
      }
    }
  }

  /** The id a key resolves to over the whole catalogue. */
  function Resolve(langs: seq<Language>, details: seq<LanguageDetail>): map<string, string> {
    CodeToId(FoundLanguages(langs, Keys(details)))
  }

  /** The id an entry is written under: `None` for an unknown key or an
      empty (falsy) id. */
  function ResolvedId(ids: map<string, string>, d: LanguageDetail): Option<string> {
    if d.language in ids && ids[d.language] != "" then Some(ids[d.language]) else None
  }

  /** The proficiency an entry writes: its value upper-cased, then read as
      an enum name; `None` when the database would reject it. */
  function EntryProficiency(d: LanguageDetail): Option<Proficiency> {
    ParseProficiency(ToUpper(d.proficiency))
  }

  /** The per-entry upserts, in order; `None` when one of them throws. */
  function UpsertStudentLanguages(sl: map<(UserId, string), Proficiency>, user: UserId, ids: map<string, string>,
                                  details: seq<LanguageDetail>): Option<map<(UserId, string), Proficiency>>
    decreases |details|
  {
    if details == [] then Some(sl)
    else
      var id := ResolvedId(ids, details[0]);
      if id.None? then UpsertStudentLanguages(sl, user, ids, details[1..])
      else
        var p := EntryProficiency(details[0]);
        if p.None? then None
        else UpsertStudentLanguages(sl[(user, id.value) := p.value], user, ids, details[1..])
  }

  /** The upserts succeed exactly when every entry that resolves carries a
      proficiency naming an enum value once upper-cased. */
  lemma {:induction false} UpsertStudentLanguagesSome(sl: map<(UserId, string), Proficiency>, user: UserId,
                                                      ids: map<string, string>, details: seq<LanguageDetail>)
    ensures UpsertStudentLanguages(sl, user, ids, details).Some? <==>
              forall i :: 0 <= i < |details| && ResolvedId(ids, details[i]).Some? ==> EntryProficiency(details[i]).Some?
    decreases |details|
  {
    if details != [] {
      var id := ResolvedId(ids, details[0]);
      var next := if id.Some? && EntryProficiency(details[0]).Some? then sl[(user, id.value) := EntryProficiency(details[0]).value] else sl;
      UpsertStudentLanguagesSome(next, user, ids, details[1..]);
      assert forall i :: 0 <= i < |details| - 1 ==> details[1..][i] == details[i + 1];
    }
  }

  /** The last entry that resolves to the language id `lid`. */
  function LastDetailFor(ids: map<string, string>, details: seq<LanguageDetail>, lid: string): Option<LanguageDetail> {
    if details == [] then None
    else
      var later := LastDetailFor(ids, details[1..], lid);
      if later.Some? then later
      else if ResolvedId(ids, details[0]) == Some(lid) then Some(details[0])
      else None
  }

  /** After the upserts, a key of another user, or of a language no entry
      resolves to, is as before; the caller's entry for a resolved language
      holds the proficiency of the last entry resolving to it. */
  lemma {:induction false} UpsertStudentLanguagesEntry(sl: map<(UserId, string), Proficiency>, user: UserId,
                                                       ids: map<string, string>, details: seq<LanguageDetail>,
                                                       key: (UserId, string))
    requires UpsertStudentLanguages(sl, user, ids, details).Some?
    ensures var r := UpsertStudentLanguages(sl, user, ids, details).value;
      && (key.0 != user || LastDetailFor(ids, details, key.1).None? ==>
            (key in r <==> key in sl) && (key in sl ==> r[key] == sl[key]))
      && (key.0 == user && LastDetailFor(ids, details, key.1).Some? ==>
            EntryProficiency(LastDetailFor(ids, details, key.1).value).Some? &&
            key in r && r[key] == EntryProficiency(LastDetailFor(ids, details, key.1).value).value)
    decreases |details|
  {
    if details != [] {
      var id := ResolvedId(ids, details[0]);
      if id.None? {
        UpsertStudentLanguagesEntry(sl, user, ids, details[1..], key);
      } else {
        var p := EntryProficiency(details[0]);
        UpsertStudentLanguagesEntry(sl[(user, id.value) := p.value], user, ids, details[1..], key);
      }
    }
  }

  // ---------------------------------------------------------------------------
  // POST
  // ---------------------------------------------------------------------------

  /** An optional update value: a sent field replaces the column, an absent
      one keeps it. */
  function Keep(v: Option<string>, current: Option<string>): Option<string> {
    if v.Some? then v else current
  }

  /** Step 1: the user row with the sent fields written. */
  function UpdateUser(u: User, body: OnboardingBody): User {
    User(Keep(body.userName, u.username), Keep(body.firstName, u.firstName), Keep(body.lastName, u.lastName),
         Keep(body.country, u.country), Keep(body.selectedTimezone, u.timezone))
  }

  /** Step 2: the profile upsert; a new profile starts with no target
      languages. */
  function CompleteProfile(s: Store, user: UserId): StudentProfile {
    if user in s.studentProfiles then s.studentProfiles[user].(onboardingCompleted := true)
    else StudentProfile(true, [])
  }

  /** Step 3, skipped for an absent or empty list. */
  function LanguagesStep(s: Store, user: UserId, body: OnboardingBody): Option<map<(UserId, string), Proficiency>> {
    if body.selectedLanguages.None? || |body.selectedLanguages.value| == 0 then Some(s.studentLanguages)
    else
      var details := body.selectedLanguages.value;
      UpsertStudentLanguages(s.studentLanguages, user, Resolve(s.languages, details), details)
  }

  /** Step 5: the STUDENT assignment upsert, skipped without a STUDENT role. */
  function ApproveStudent(s: Store, user: UserId): seq<Assignment> {
    if StudentRole in s.roles then SetStatus(s.assignments, user, StudentRole, Approved) else s.assignments
  }

  /** The transaction: the store after all five steps, or `None` when a step
      throws (no user row to update, a rejected proficiency, a missing slot
      list, a time that reads as `NaN`). */
  function Transaction(s: Store, user: UserId, body: OnboardingBody): Option<Store> {
    if user !in s.users then None
    else
      var langs := LanguagesStep(s, user, body);
      if langs.None? || body.selectedTimeSlots.None? then None
      else
        var rows := ConvertSlots(user, body.selectedTimeSlots.value, body.selectedTimezone);
        if rows.None? then None
        else
          Some(s.(users := s.users[user := UpdateUser(s.users[user], body)],
                  studentProfiles := s.studentProfiles[user := CompleteProfile(s, user)],
                  studentLanguages := langs.value,
                  availability := ReplaceRows(s.availability, user, StudentAvailability, rows.value),
                  assignments := ApproveStudent(s, user)))
  }

  /** POST: authentication, then the transaction; a failure of the
      transaction or of the store (`fault`) answers 500 and keeps the store. */
  function PostOnboarding(header: Option<string>, provider: map<string, UserId>, s: Store, body: OnboardingBody,
                          fault: bool): (r: Answer<bool>)
    ensures r.reply.Failure? ==> r.store == s
    ensures r.reply.Failure? ==> (r.reply.status == 401 && r.reply.error == "Unauthorized")
                                 || r.reply == Failure(500, InternalError)
  {
    var a := GetAuthenticatedUser(header, provider);
    if a.AuthError? then Answer(AuthFailure(a), s)
    else
      var t := Transaction(s, a.user, body);
      if fault || t.None? then Answer(Failure(500, InternalError), s)
      else Answer(Success(true), t.value)
  }

  /** An authentication failure returns its error and writes nothing. */
  lemma {:induction false} PostAuthFailure(header: Option<string>, provider: map<string, UserId>, s: Store, body: OnboardingBody,
                        fault: bool)
    requires GetAuthenticatedUser(header, provider).AuthError?
    ensures PostOnboarding(header, provider, s, body, fault) == Answer(Failure(401, "Unauthorized"), s)
  {
  }

  /** POST succeeds exactly when the store does not fail and every step of
      the transaction succeeds, and then the store is the transaction's. */
  lemma {:induction false} PostOutcome(header: Option<string>, provider: map<string, UserId>, s: Store, body: OnboardingBody,
                    fault: bool, user: UserId)
    requires GetAuthenticatedUser(header, provider) == Authenticated(user)
    ensures PostOnboarding(header, provider, s, body, fault).reply.Success? <==>
              !fault && Transaction(s, user, body).Some?
    ensures PostOnboarding(header, provider, s, body, fault).reply.Success? ==>
              PostOnboarding(header, provider, s, body, fault).store == Transaction(s, user, body).value
  {
  }

  /** After a successful POST, GET reports onboarding completed. */
  lemma {:induction false} PostThenGet(header: Option<string>, provider: map<string, UserId>, s: Store, body: OnboardingBody, fault: bool)
    requires PostOnboarding(header, provider, s, body, fault).reply.Success?
    ensures GetOnboarding(header, provider, PostOnboarding(header, provider, s, body, fault).store, false) == Success(true)
  {
  }

  /** The transaction needs the user row, a slot list whose times all read
      as numbers, and, for a non-empty language list, a valid proficiency
      on every entry that resolves; nothing else can make it fail. */
  lemma {:induction false} TransactionSomeIff(s: Store, user: UserId, body: OnboardingBody)
    ensures Transaction(s, user, body).Some? <==>
              && user in s.users
              && body.selectedTimeSlots.Some?
              && ConvertSlots(user, body.selectedTimeSlots.value, body.selectedTimezone).Some?
              && (body.selectedLanguages.Some? ==>
                    var details := body.selectedLanguages.value;
                    forall i :: 0 <= i < |details| && ResolvedId(Resolve(s.languages, details), details[i]).Some? ==>
                      EntryProficiency(details[i]).Some?)
  {
    if body.selectedLanguages.Some? {
      var details := body.selectedLanguages.value;
      UpsertStudentLanguagesSome(s.studentLanguages, user, Resolve(s.languages, details), details);
    }
  }

  /** A key that no catalogue row answers to resolves to nothing, so its
      entry is skipped whatever its proficiency. */
  lemma {:induction false} UnknownKeySkipped(langs: seq<Language>, details: seq<LanguageDetail>, d: LanguageDetail)
    requires d.language in Keys(details)
    requires forall i :: 0 <= i < |langs| ==> !Matches(langs[i], d.language)
    ensures ResolvedId(Resolve(langs, details), d).None?
  {
    FoundKeepsMatches(langs, Keys(details), d.language);
    CodeToIdIsLastMatch(FoundLanguages(langs, Keys(details)), d.language);
  }

  /** A key resolves to the id of the last catalogue row whose code or name
      it is. */
  lemma {:induction false} KeyResolves(langs: seq<Language>, details: seq<LanguageDetail>, key: string)
    requires key in Keys(details)
    ensures key in Resolve(langs, details) <==> LastMatch(langs, key).Some?
    ensures key in Resolve(langs, details) ==> Resolve(langs, details)[key] == LastMatch(langs, key).value
  {
    FoundKeepsMatches(langs, Keys(details), key);
    CodeToIdIsLastMatch(FoundLanguages(langs, Keys(details)), key);
  }

  /** The profile ends completed, and an existing profile keeps its target
      languages. */
  lemma {:induction false} TransactionCompletes(s: Store, user: UserId, body: OnboardingBody)
    requires Transaction(s, user, body).Some?
    ensures var t := Transaction(s, user, body).value;
      && user in t.studentProfiles && t.studentProfiles[user].onboardingCompleted
      && (user in s.studentProfiles ==> t.studentProfiles[user].targetLanguages == s.studentProfiles[user].targetLanguages)
      && (user !in s.studentProfiles ==> t.studentProfiles[user].targetLanguages == [])
  {
  }

  /** Each of the five user fields the route writes (user name, first and
      last name, country, time zone) replaces its column when sent and keeps
      it when absent. */
  lemma {:induction false} TransactionUserFields(s: Store, user: UserId, body: OnboardingBody)
    requires Transaction(s, user, body).Some?
    ensures var u := Transaction(s, user, body).value.users[user];
      && (body.userName.Some? ==> u.username == body.userName)
      && (body.userName.None? ==> u.username == s.users[user].username)
      && (body.firstName.Some? ==> u.firstName == body.firstName)
      && (body.firstName.None? ==> u.firstName == s.users[user].firstName)
      && (body.lastName.Some? ==> u.lastName == body.lastName)
      && (body.lastName.None? ==> u.lastName == s.users[user].lastName)
      && (body.country.Some? ==> u.country == body.country)
      && (body.country.None? ==> u.country == s.users[user].country)
      && (body.selectedTimezone.Some? ==> u.timezone == body.selectedTimezone)
      && (body.selectedTimezone.None? ==> u.timezone == s.users[user].timezone)
  {
  }

  /** The caller's student rows become exactly one converted row per slot
      (none for an empty list), and every other (user, type) keeps its rows,
      the caller's tutor rows included. */
  lemma {:induction false} TransactionReplacesSlots(s: Store, user: UserId, body: OnboardingBody, user': UserId, kind': AvailabilityType)
    requires Transaction(s, user, body).Some?
    ensures body.selectedTimeSlots.Some?
    ensures var t := Transaction(s, user, body).value;
      var slots := body.selectedTimeSlots.value;
      && ConvertSlots(user, slots, body.selectedTimezone).Some?
      && RowsOf(t.availability, user, StudentAvailability) == ConvertSlots(user, slots, body.selectedTimezone).value
      && |RowsOf(t.availability, user, StudentAvailability)| == |slots|
      && (user' != user || kind' != StudentAvailability ==>
            RowsOf(t.availability, user', kind') == RowsOf(s.availability, user', kind'))
  {
    var rows := ConvertSlots(user, body.selectedTimeSlots.value, body.selectedTimezone).value;
    ReplaceRowsFacts(s.availability, user, StudentAvailability, rows, user', kind');
  }

  /** With a STUDENT role the caller's STUDENT assignment ends APPROVED and
      every other assignment fact is unchanged; without one the assignments
      are untouched. */
  lemma {:induction false} TransactionApproves(s: Store, user: UserId, body: OnboardingBody, user': UserId, role': string, status': RoleStatus)
    requires Transaction(s, user, body).Some?
    ensures var t := Transaction(s, user, body).value;
      && (StudentRole in s.roles ==> HasStatus(t.assignments, user, StudentRole, Approved))
      && (StudentRole !in s.roles ==> t.assignments == s.assignments)
      && ((user', role') != (user, StudentRole) ==>
            (HasStatus(t.assignments, user', role', status') <==> HasStatus(s.assignments, user', role', status')))
  {
    SetStatusFacts(s.assignments, user, StudentRole, Approved, user, StudentRole, Approved);
    SetStatusFacts(s.assignments, user, StudentRole, Approved, user', role', status');
  }

  /** The student-language table after the transaction, key by key: the
      caller's entry for a language named by some entry holds that entry's
      upper-cased proficiency (the last one wins), and nothing else
      changes. */
  lemma {:induction false} TransactionLanguages(s: Store, user: UserId, body: OnboardingBody, key: (UserId, string))
    requires Transaction(s, user, body).Some?
    requires body.selectedLanguages.Some?
    ensures var t := Transaction(s, user, body).value;
      var details := body.selectedLanguages.value;
      var last := LastDetailFor(Resolve(s.languages, details), details, key.1);
      && (key.0 != user || last.None? ==>
            (key in t.studentLanguages <==> key in s.studentLanguages)
            && (key in s.studentLanguages ==> t.studentLanguages[key] == s.studentLanguages[key]))
      && (key.0 == user && last.Some? ==>
            EntryProficiency(last.value).Some? && key in t.studentLanguages
            && t.studentLanguages[key] == EntryProficiency(last.value).value)
  {
    var details := body.selectedLanguages.value;
    if |details| > 0 {
      UpsertStudentLanguagesEntry(s.studentLanguages, user, Resolve(s.languages, details), details, key);
    }
  }
}

=== FILE: permissions.dfy ===
/** The admin permission gate (src/lib/permissions.ts). An APPROVED
    assignment to the ADMIN role grants every permission; otherwise a
    permission is granted by a role-permission link whose role the user
    holds with status APPROVED. Both checks read `userRoleAssignment`; the
    role's `userRoles` relation in the query is read as those assignment
    rows. */
module Permissions {
  import opened Common
  import opened Store

  /** `ALL_PERMISSIONS`: the four `AdminPermission` names. */
  const AllPermissions: seq<string> :=
    ["MANAGE_ADMINS", "MANAGE_TUTOR_APPLICATIONS", "MANAGE_PAYMENTS", "MANAGE_USERS"]

  /** The role whose approved holders pass every check. */
  const AdminRole: string := "ADMIN"

  /** The user holds ADMIN with status APPROVED (the first query of both
      functions). */
  predicate IsAdmin(s: Store, user: UserId) {
    HasStatus(s.assignments, user, AdminRole, Approved)
  }

  /** Some link grants `p` to a role the user holds with status APPROVED
      (the `rolePermissionAssignment.findFirst` query), scanning the links
      in order. */
  function Granted(links: seq<Link>, assignments: seq<Assignment>, user: UserId, p: string): bool {
    if links == [] then false
    else (links[0].permission == p && HasStatus(assignments, user, links[0].role, Approved))
         || Granted(links[1..], assignments, user, p)
  }

  /** `hasAdminPermission`: the ADMIN short cut, then the explicit grants. */
  function HasAdminPermission(s: Store, user: UserId, p: string): (r: bool)
    ensures IsAdmin(s, user) ==> r
  {
    IsAdmin(s, user) || Granted(s.links, s.assignments, user, p)
  }

  /** The permission names of the links whose role the user holds with
      status APPROVED, in link order (the `findMany` and `map` of
      `listAdminPermissions`). */
  function GrantedNames(links: seq<Link>, assignments: seq<Assignment>, user: UserId): seq<string> {
    if links == [] then []
    else
      var rest := GrantedNames(links[1..], assignments, user);
      if HasStatus(assignments, user, links[0].role, Approved) then [links[0].permission] + rest else rest
  }

  /** `listAdminPermissions`: all four names for an admin, else the granted
      names. */
  function ListAdminPermissions(s: Store, user: UserId): seq<string> {
    if IsAdmin(s, user) then AllPermissions else GrantedNames(s.links, s.assignments, user)
  }

  /** The reference meaning of a grant: some role the user holds APPROVED
      is linked to a permission named `p`. */
  ghost predicate GrantsSpec(s: Store, user: UserId, p: string) {
    exists role :: HasStatus(s.assignments, user, role, Approved) && Link(role, p) in s.links
  }

  /** The scan finds a grant exactly when one exists. */
  lemma {:induction false} GrantedIffExists(links: seq<Link>, assignments: seq<Assignment>, user: UserId, p: string)
    ensures Granted(links, assignments, user, p) <==>
              exists role :: HasStatus(assignments, user, role, Approved) && Link(role, p) in links
  {
    if links != [] {
      GrantedIffExists(links[1..], assignments, user, p);
      assert links == [links[0]] + links[1..];
      if Granted(links, assignments, user, p) && links[0].permission == p
         && HasStatus(assignments, user, links[0].role, Approved) {
        assert Link(links[0].role, p) == links[0];
      }
    }
  }

  /** A name is listed exactly when the scan finds a grant for it. */
  lemma {:induction false} GrantedNamesIffGranted(links: seq<Link>, assignments: seq<Assignment>, user: UserId, p: string)
    ensures p in GrantedNames(links, assignments, user) <==> Granted(links, assignments, user, p)
  {
    if links != [] {
      GrantedNamesIffGranted(links[1..], assignments, user, p);
    }
  }

  /** `hasAdminPermission(u, p)` holds exactly when u is an approved admin
      or some role u holds APPROVED is linked to a permission named p. */
  lemma {:induction false} HasAdminPermissionIff(s: Store, user: UserId, p: string)
    ensures HasAdminPermission(s, user, p) <==> IsAdmin(s, user) || GrantsSpec(s, user, p)
  {
    GrantedIffExists(s.links, s.assignments, user, p);
  }

  /** An approved admin gets exactly the four `ALL_PERMISSIONS`; anyone
      else gets the names linked to their approved roles. */
  lemma {:induction false} ListAdminPermissionsFacts(s: Store, user: UserId, p: string)
    ensures IsAdmin(s, user) ==>
              ListAdminPermissions(s, user) == AllPermissions && |ListAdminPermissions(s, user)| == 4
    ensures !IsAdmin(s, user) ==> (p in ListAdminPermissions(s, user) <==> GrantsSpec(s, user, p))
  {
    GrantedNamesIffGranted(s.links, s.assignments, user, p);
    GrantedIffExists(s.links, s.assignments, user, p);
  }

  /** For each of the four admin permissions the check and the list agree. */
  lemma {:induction false} CheckAgreesWithList(s: Store, user: UserId, p: string)
    requires p in AllPermissions
    ensures HasAdminPermission(s, user, p) <==> p in ListAdminPermissions(s, user)
  {
    GrantedNamesIffGranted(s.links, s.assignments, user, p);
  }

  /** A user without any APPROVED assignment, for example one whose only
      rows are SUBMITTED applications, passes no check and lists nothing. */
  lemma {:induction false} PendingGrantsNothing(s: Store, user: UserId, p: string)
    requires forall role :: !HasStatus(s.assignments, user, role, Approved)
    ensures !HasAdminPermission(s, user, p)
    ensures ListAdminPermissions(s, user) == []
  {
    GrantedIffExists(s.links, s.assignments, user, p);
    NoApprovedNoNames(s.links, s.assignments, user);
  }

  /** Without approved roles the list of granted names is empty. */
  lemma {:induction false} NoApprovedNoNames(links: seq<Link>, assignments: seq<Assignment>, user: UserId)
    requires forall role :: !HasStatus(assignments, user, role, Approved)
    ensures GrantedNames(links, assignments, user) == []
  {
    if links != [] {
      NoApprovedNoNames(links[1..], assignments, user);
    }
  }

  /** Adding a SUBMITTED row changes no permission: only APPROVED rows grant. */
  lemma {:induction false} SubmittedRowGrantsNothing(s: Store, user: UserId, p: string, a: Assignment)
    requires a.status == Submitted
    ensures HasAdminPermission(s.(assignments := s.assignments + [a]), user, p) == HasAdminPermission(s, user, p)
  {
    var t := s.(assignments := s.assignments + [a]);
    forall role ensures HasStatus(t.assignments, user, role, Approved) == HasStatus(s.assignments, user, role, Approved) {
      assert Assignment(user, role, Approved) != a;
    }
    HasAdminPermissionIff(s, user, p);
    HasAdminPermissionIff(t, user, p);
  }
}

=== FILE: pickers.dfy ===
/** The language, proficiency and role pickers
    (src/components/forms/LanguageSelection.tsx,
    src/components/onboarding/LanguageSelection.tsx,
    src/components/auth/RoleSelection.tsx). Each is a list of checkboxes over
    fixed options: a checkbox is checked when its option is in the
    selection, and clicking it toggles the option. */
module Pickers {
  import opened Common
  import opened Selection

  /** `AVAILABLE_LANGUAGES`, the languages offered for learning. */
  const AvailableLanguages: seq<string> :=
    ["Amharic", "Swahili", "Naija-Pidgin", "Kinyarwanda", "Igbo", "Lingala", "Hausa", "Igala", "Yoruba", "Shona"]

  /** `LANGUAGE_DIFFICULTY`, the levels of the proficiency picker. */
  const LanguageDifficulty: seq<string> := ["native", "fluent", "intermediate", "beginner"]

  /** The roles a new user can pick. */
  const PickableRoles: seq<string> := ["student", "tutor"]

  /** A checkbox is checked exactly when its option is selected
      (`selection.includes(option)`). */
  predicate Checked(selection: seq<string>, option: string) {
    option in selection
  }

  /** `toggleLanguage`, `toggleDifficulty` and `handleToggle`. */
  function TogglePick(selection: seq<string>, option: string): (r: seq<string>)
    ensures Checked(r, option) <==> !Checked(selection, option)
    ensures forall other :: other != option ==> (Checked(r, other) <==> Checked(selection, other))
  {
    Toggle(selection, option)
  }

  /** The language options are ten distinct names. */
  lemma {:induction false} AvailableLanguagesDistinct()
    ensures |AvailableLanguages| == 10 && NoDuplicates(AvailableLanguages)
  {
  }

  /** Clicking an unchecked option appends it; clicking a checked one
      removes every copy and keeps the rest in order; clicking an unchecked
      option twice gives the exact list back, and clicking any option twice
      gives the same set. */
  lemma {:induction false} TogglePickFacts(selection: seq<string>, option: string)
    ensures !Checked(selection, option) ==> TogglePick(selection, option) == selection + [option]
    ensures Checked(selection, option) ==> TogglePick(selection, option) == Remove(selection, option)
    ensures !Checked(selection, option) ==> TogglePick(TogglePick(selection, option), option) == selection
    ensures forall y :: y in TogglePick(TogglePick(selection, option), option) <==> y in selection
    ensures Remove(TogglePick(selection, option), option) == Remove(selection, option)
  {
    ToggleTwice(selection, option);
    ToggleKeepsOthersInOrder(selection, option);
  }

  /** A duplicate-free selection stays duplicate-free. */
  lemma {:induction false} TogglePickDistinct(selection: seq<string>, option: string)
    requires NoDuplicates(selection)
    ensures NoDuplicates(TogglePick(selection, option))
  {
    ToggleKeepsDistinct(selection, option);
  }

  /** A role selection drawn from "student" and "tutor" stays so under
      clicks on the two role checkboxes. */
  lemma {:induction false} RolesStayPickable(selection: seq<string>, role: string)
    requires AllIn(selection, PickableRoles) && role in PickableRoles
    ensures AllIn(TogglePick(selection, role), PickableRoles)
  {
    ToggleStaysWithin(selection, role, PickableRoles);
  }
}

=== FILE: profile_route.dfy ===
/** `GET` and `PUT /api/user/profile` (src/app/api/user/profile/route.ts).
    GET projects the caller's user row, student profile and student
    availability rows into the form's shape; PUT writes the name, time zone,
    target languages and availability back in one transaction, replacing
    every student availability row. Absent body fields are `None`, which the
    ORM skips in an update and replaces by the column default on create. */
module ProfileRoute {
  import opened Common
  import opened Store
  import opened Auth
  import opened Http
  import opened Slots
  import opened AvailabilityRows

  /** The GET payload. */
  datatype ProfileView = ProfileView(fullName: string, selectedTimezone: string,
                                     selectedLanguages: seq<string>, selectedTimeSlots: seq<SlotView>)

  /** The PUT body fields the route reads. */
  datatype ProfileBody = ProfileBody(fullName: Option<string>, selectedLanguages: Option<seq<string>>,
                                     selectedTimeSlots: Option<seq<TimeSlot>>, selectedTimezone: Option<string>)

  /** `value || ""` for an optional string column. */
  function OrEmpty(v: Option<string>): (r: string)
    ensures v.Some? ==> r == v.value
    ensures v.None? ==> r == ""
  {
    if v.Some? && v.value != "" then v.value else ""
  }

  /** The projection of the caller's rows. */
  function View(s: Store, user: UserId): ProfileView
    requires user in s.users
  {
    ProfileView(OrEmpty(s.users[user].username), OrEmpty(s.users[user].timezone),
                if user in s.studentProfiles then s.studentProfiles[user].targetLanguages else [],
                ViewRows(RowsOf(s.availability, user, StudentAvailability)))
  }

  /** GET: 404 without a user row. */
  function GetProfile(header: Option<string>, provider: map<string, UserId>, s: Store, fault: bool): (r: Reply<ProfileView>)
    ensures r.Failure? ==> (r.status == 401 && r.error == "Unauthorized") || (r.status == 404 && r.error == "User not found")
                           || (r.status == 500 && r.error == InternalError)
  {
    var a := GetAuthenticatedUser(header, provider);
    if a.AuthError? then AuthFailure(a)
    else if fault then Failure(500, InternalError)
    else if a.user !in s.users then Failure(404, "User not found")
    else Success(View(s, a.user))
  }

  /** The profile upsert: a new profile takes the sent languages (none when
      absent) and is marked completed; an existing one only takes the sent
      languages. */
  function UpsertProfile(s: Store, user: UserId, languages: Option<seq<string>>): StudentProfile {
    if user in s.studentProfiles then
      var p := s.studentProfiles[user];
      if languages.Some? then p.(targetLanguages := languages.value) else p
    else StudentProfile(true, languages.GetOr([]))
  }

  /** The PUT transaction, or `None` when a step throws (no user row, no slot
      list, a time that reads as `NaN`). */
  function PutTransaction(s: Store, user: UserId, body: ProfileBody): Option<Store> {
    if user !in s.users || body.selectedTimeSlots.None? then None
    else
      var rows := ConvertSlots(user, body.selectedTimeSlots.value, body.selectedTimezone);
      if rows.None? then None
      else
        var u := s.users[user];
        var u' := u.(username := if body.fullName.Some? then body.fullName else u.username,
                     timezone := if body.selectedTimezone.Some? then body.selectedTimezone else u.timezone);
        Some(s.(users := s.users[user := u'],
                studentProfiles := s.studentProfiles[user := UpsertProfile(s, user, body.selectedLanguages)],
                availability := ReplaceRows(s.availability, user, StudentAvailability, rows.value)))
  }

  /** PUT: authentication, then the transaction; every failure answers 500
      and keeps the store. */
  function PutProfile(header: Option<string>, provider: map<string, UserId>, s: Store, body: ProfileBody, fault: bool)
    : (r: Answer<bool>)
    ensures r.reply.Failure? ==> r.store == s
    ensures r.reply.Failure? ==> (r.reply.status == 401 && r.reply.error == "Unauthorized")
                                 || r.reply == Failure(500, InternalError)
  {
    var a := GetAuthenticatedUser(header, provider);
    if a.AuthError? then Answer(AuthFailure(a), s)
    else
      var t := PutTransaction(s, a.user, body);
      if fault || t.None? then Answer(Failure(500, InternalError), s)
      else Answer(Success(true), t.value)
  }

  /** GET answers 404 exactly for an authenticated caller without a user
      row, and otherwise shows "" for an unset name or time zone and [] for
      a missing profile. */
  lemma {:induction false} GetProfileFacts(header: Option<string>, provider: map<string, UserId>, s: Store, user: UserId)
    requires GetAuthenticatedUser(header, provider) == Authenticated(user)
    ensures GetProfile(header, provider, s, false) == Failure(404, "User not found") <==> user !in s.users
    ensures user in s.users ==>
              var v := GetProfile(header, provider, s, false).body;
              && (s.users[user].username.None? ==> v.fullName == "")
              && (s.users[user].timezone.None? ==> v.selectedTimezone == "")
              && (user !in s.studentProfiles ==> v.selectedLanguages == [])
              && |v.selectedTimeSlots| == |RowsOf(s.availability, user, StudentAvailability)|
  {
  }

  /** GET shows each stored student row through `numberToDayName` and
      `minutesToTimeString`: a day outside 0-6 shows as undefined. */
  lemma {:induction false} ViewRowsShape(rows: seq<Availability>, i: int)
    requires 0 <= i < |rows|
    ensures ViewRows(rows)[i].day.Some? <==> 0 <= rows[i].day <= 6
    ensures ViewRows(rows)[i] == ViewRow(rows[i])
  {
    if i > 0 {
      ViewRowsShape(rows[1..], i - 1);
    }
  }

  /** The caller's student rows become one converted row per slot, and every
      other (user, type) keeps its rows. */
  lemma {:induction false} PutReplacesSlots(s: Store, user: UserId, body: ProfileBody, user': UserId, kind': AvailabilityType)
    requires PutTransaction(s, user, body).Some?
    ensures body.selectedTimeSlots.Some?
    ensures var t := PutTransaction(s, user, body).value;
      var rows := ConvertSlots(user, body.selectedTimeSlots.value, body.selectedTimezone);
      && rows.Some?
      && RowsOf(t.availability, user, StudentAvailability) == rows.value
      && (user' != user || kind' != StudentAvailability ==>
            RowsOf(t.availability, user', kind') == RowsOf(s.availability, user', kind'))
  {
    var rows := ConvertSlots(user, body.selectedTimeSlots.value, body.selectedTimezone).value;
    ReplaceRowsFacts(s.availability, user, StudentAvailability, rows, user', kind');
  }

  /** PUT sets `onboarding_completed` only when it creates the profile; an
      existing profile keeps its flag. */
  lemma {:induction false} PutKeepsOnboardingFlag(s: Store, user: UserId, body: ProfileBody)
    requires PutTransaction(s, user, body).Some?
    ensures var t := PutTransaction(s, user, body).value;
      && user in t.studentProfiles
      && (user in s.studentProfiles ==>
            t.studentProfiles[user].onboardingCompleted == s.studentProfiles[user].onboardingCompleted)
      && (user !in s.studentProfiles ==> t.studentProfiles[user].onboardingCompleted)
  {
  }

  /** The round trip: after a PUT that sends a non-empty name, a time zone,
      a language list and well-formed slots, GET returns exactly what was
      sent, the slots in the order they were sent. */
  lemma {:induction false} PutThenGet(header: Option<string>, provider: map<string, UserId>, s: Store, body: ProfileBody, user: UserId)
    requires GetAuthenticatedUser(header, provider) == Authenticated(user) && user in s.users
    requires body.fullName.Some?
    requires body.selectedTimezone.Some? && body.selectedLanguages.Some?
    requires body.selectedTimeSlots.Some? && AllWellFormed(body.selectedTimeSlots.value)
    ensures PutProfile(header, provider, s, body, false).reply == Success(true)
    ensures GetProfile(header, provider, PutProfile(header, provider, s, body, false).store, false) ==
              Success(ProfileView(body.fullName.value, body.selectedTimezone.value, body.selectedLanguages.value,
                                  ExpectedAll(body.selectedTimeSlots.value)))
  {
    var slots := body.selectedTimeSlots.value;
    SlotsRoundTrip(user, slots, body.selectedTimezone);
    var t := PutTransaction(s, user, body).value;
    PutReplacesSlots(s, user, body, user, StudentAvailability);
    assert View(t, user).selectedTimeSlots == ExpectedAll(slots);
  }

  /** The same round trip read as multisets: GET returns each sent slot as
      often as it was sent. */
  lemma {:induction false} PutThenGetSlots(header: Option<string>, provider: map<string, UserId>, s: Store, body: ProfileBody, user: UserId)
    requires GetAuthenticatedUser(header, provider) == Authenticated(user) && user in s.users
    requires body.fullName.Some?
    requires body.selectedTimezone.Some? && body.selectedLanguages.Some?
    requires body.selectedTimeSlots.Some? && AllWellFormed(body.selectedTimeSlots.value)
    ensures var r := GetProfile(header, provider, PutProfile(header, provider, s, body, false).store, false);
      r.Success? && multiset(r.body.selectedTimeSlots) == multiset(ExpectedAll(body.selectedTimeSlots.value))
  {
    PutThenGet(header, provider, s, body, user);
  }

  /** A PUT without a slot list throws on `.map` and changes nothing. */
  lemma {:induction false} PutWithoutSlotsFails(header: Option<string>, provider: map<string, UserId>, s: Store, body: ProfileBody)
    requires GetAuthenticatedUser(header, provider).Authenticated? && body.selectedTimeSlots.None?
    ensures PutProfile(header, provider, s, body, false) == Answer(Failure(500, InternalError), s)
  {
  }
}

=== FILE: role_menu.dfy ===
/** The role navigation (src/features/user/RoleMenuItems.tsx): "dashboard"
    followed by the role's own items, each linked to a path under
    `/user/{role}/`. Which path is active is given as a predicate, like the
    component's `isActive` prop. */
module RoleMenu {
  import opened Common

  /** `Role`. */
  datatype Role = Student | Tutor | Admin

  /** The role as it appears in paths. */
  function RoleName(role: Role): string {
    match role
    case Student => "student"
    case Tutor => "tutor"
    case Admin => "admin"
  }

  /** `roleItems[role]`, the labels of the role's own items. */
  function RoleItems(role: Role): seq<string> {
    match role
    case Student => ["find tutors", "my lessons", "past sessions", "billing", "reviews"]
    case Tutor => ["schedule & availability", "my sessions", "teaching profile", "earnings", "reviews"]
    case Admin => ["user management", "platform analytics", "content & support", "system management",
                   "financial operations", "audit logs"]
  }

  /** The label of the first item. */
  const DashboardLabel: string := "dashboard"

  /** `navItems`: "dashboard" first, then the role's items in order. */
  function NavLabels(role: Role): (r: seq<string>)
    ensures |r| == |RoleItems(role)| + 1 && r[0] == DashboardLabel && r[1..] == RoleItems(role)
  {
    [DashboardLabel] + RoleItems(role)
  }

  /** Every occurrence of one character replaced by another. */
  function ReplaceChar(s: string, from: char, to: char): (r: string)
    ensures |r| == |s|
    ensures forall i :: 0 <= i < |s| ==> r[i] == (if s[i] == from then to else s[i])
  {
    seq(|s|, i requires 0 <= i < |s| => if s[i] == from then to else s[i])
  }

  /** `label.toLowerCase().replace(/ /g, "-")`. */
  function Slug(text: string): (r: string)
    ensures |r| == |text| && ' ' !in r
  {
    ReplaceChar(ToLower(text), ' ', '-')
  }

  /** The common start of a role's paths. */
  function Prefix(role: Role): string {
    "/user/" + RoleName(role) + "/"
  }

  /** The path of an item: `/user/{role}/dashboard` for "dashboard", else
      the prefix and the slug of the label. */
  function ItemPath(role: Role, text: string): string {
    if text == DashboardLabel then Prefix(role) + "dashboard" else Prefix(role) + Slug(text)
  }

  /** A rendered link: its label, its path and whether it is highlighted. */
  datatype NavLink = NavLink(text: string, path: string, highlighted: bool)

  /** The component's output. */
  function Links(role: Role, isActive: string -> bool): (r: seq<NavLink>)
    ensures |r| == |NavLabels(role)|
    ensures forall i :: 0 <= i < |r| ==> r[i].text == NavLabels(role)[i] && r[i].path == ItemPath(role, r[i].text)
    ensures forall i :: 0 <= i < |r| ==> (r[i].highlighted <==> isActive(r[i].path))
  {
    var texts := NavLabels(role);
    seq(|texts|, i requires 0 <= i < |texts| =>
          var path := ItemPath(role, texts[i]); NavLink(texts[i], path, isActive(path)))
  }

  /** A label the slug can be undone on: no upper-case letter and no "-". */
  predicate Sluggable(text: string) {
    HasNoUpper(text) && '-' !in text
  }

  /** On such labels the slug is undone by turning every "-" back into a
      space, so two such labels with the same slug are equal. */
  lemma {:induction false} SlugRoundTrip(text: string)
    requires Sluggable(text)
    ensures ReplaceChar(Slug(text), '-', ' ') == text
  {
    var r := ReplaceChar(Slug(text), '-', ' ');
    assert forall i :: 0 <= i < |text| ==> r[i] == text[i];
  }

  /** The "dashboard" special case agrees with the general rule, so every
      path is the prefix followed by the slug of its label. */
  lemma {:induction false} ItemPathIsSlug(role: Role, text: string)
    ensures ItemPath(role, text) == Prefix(role) + Slug(text)
  {
    if text == DashboardLabel {
      assert Slug(text) == "dashboard" by {
        assert Sluggable(text);
        SlugRoundTrip(text);
        forall i | 0 <= i < |text| ensures Slug(text)[i] == text[i] {
        }
      }
    }
  }

  /** Student and tutor have six links each and admin seven; every label
      starts with a lower-case letter, and two labels of one role differ in
      length or in that letter. */
  lemma {:induction false} LabelFacts(role: Role)
    ensures |NavLabels(role)| == (if role == Admin then 7 else 6)
    ensures forall i :: 0 <= i < |NavLabels(role)| ==> |NavLabels(role)[i]| > 0 && 'a' <= NavLabels(role)[i][0] <= 'z'
    ensures forall i, j :: 0 <= i < j < |NavLabels(role)| ==>
              |NavLabels(role)[i]| != |NavLabels(role)[j]| || NavLabels(role)[i][0] != NavLabels(role)[j][0]
  {
    var texts := NavLabels(role);
    assert texts == [DashboardLabel] + RoleItems(role);
    forall i | 0 <= i < |texts| ensures |texts[i]| > 0 && 'a' <= texts[i][0] <= 'z' {
      if i == 0 {} else if i == 1 {} else if i == 2 {} else if i == 3 {} else if i == 4 {} else if i == 5 {}
    }
  }

  /** The slug keeps the length and a leading lower-case letter. */
  lemma {:induction false} SlugStart(text: string)
    requires |text| > 0 && 'a' <= text[0] <= 'z'
    ensures |Slug(text)| == |text| && Slug(text)[0] == text[0]
  {
  }

  /** Within a role no two links share a path. */
  lemma {:induction false} PathsDistinct(role: Role, isActive: string -> bool)
    ensures var r := Links(role, isActive);
      forall i, j :: 0 <= i < j < |r| ==> r[i].path != r[j].path
  {
    var r := Links(role, isActive);
    var texts := NavLabels(role);
    LabelFacts(role);
    forall i, j | 0 <= i < j < |r| ensures r[i].path != r[j].path {
      ItemPathIsSlug(role, texts[i]);
      ItemPathIsSlug(role, texts[j]);
      SlugStart(texts[i]);
      SlugStart(texts[j]);
      var p := Prefix(role);
      assert r[i].path[|p|..] == Slug(texts[i]);
      assert r[j].path[|p|..] == Slug(texts[j]);
    }
  }
}

=== FILE: roles_route.dfy ===
/** `GET /api/user/roles` (src/app/api/user/roles/route.ts): the caller's
    APPROVED roles from the older `userRole` store, lower-cased. The bearer
    check is written inline in the route but behaves exactly like
    `getAuthenticatedUser`, so the model uses that. A store failure is the
    oracle `fault`. */
module RolesRoute {
  import opened Common
  import opened Store
  import opened Auth
  import opened Http

  /** `roles.map(r => r.role.toLowerCase())`. */
  function LowerAll(roles: seq<string>): (r: seq<string>)
    ensures |r| == |roles|
  {
    if roles == [] then [] else [ToLower(roles[0])] + LowerAll(roles[1..])
  }

  /** A name is listed exactly when it is the lower-cased form of some
      input role. */
  lemma {:induction false} LowerAllMembers(roles: seq<string>, x: string)
    ensures x in LowerAll(roles) <==> exists role :: role in roles && ToLower(role) == x
  {
    if roles != [] {
      LowerAllMembers(roles[1..], x);
      assert roles == [roles[0]] + roles[1..];
      if x in LowerAll(roles) && x != ToLower(roles[0]) {
        var role :| role in roles[1..] && ToLower(role) == x;
        assert role in roles;
      }
      if x !in LowerAll(roles) {
        forall role | role in roles ensures ToLower(role) != x {
          if role != roles[0] {
            assert role in roles[1..];
          }
        }
      }
    }
  }

  /** Every listed name is lower-case. */
  lemma {:induction false} LowerAllLower(roles: seq<string>)
    ensures forall i :: 0 <= i < |LowerAll(roles)| ==> HasNoUpper(LowerAll(roles)[i])
  {
    if roles != [] {
      LowerAllLower(roles[1..]);
      var r := LowerAll(roles);
      forall i | 0 <= i < |r| ensures HasNoUpper(r[i]) {
        if i > 0 {
          assert r[i] == LowerAll(roles[1..])[i - 1];
        }
      }
    }
  }

  /** The route: 401 without an accepted bearer token, 500 on a store
      failure, else the approved `userRole` roles in lower case. */
  function GetRoles(header: Option<string>, provider: map<string, UserId>, s: Store, fault: bool): (r: Reply<seq<string>>)
    ensures r.Failure? ==> (r.status == 401 && r.error == "Unauthorized") || (r.status == 500 && r.error == InternalError)
  {
    var a := GetAuthenticatedUser(header, provider);
    if a.AuthError? then AuthFailure(a)
    else if fault then Failure(500, InternalError)
    else Success(LowerAll(RolesWith(s.userRoles, a.user, Approved)))
  }

  /** The route answers 401 exactly when authentication fails, whatever the
      store holds. */
  lemma {:induction false} RolesUnauthorizedIff(header: Option<string>, provider: map<string, UserId>, s: Store, fault: bool)
    ensures GetRoles(header, provider, s, fault) == Failure(401, "Unauthorized") <==>
              GetAuthenticatedUser(header, provider).AuthError?
  {
  }

  /** For an authenticated caller the route lists a name exactly when some
      role the caller holds APPROVED in `userRole` lower-cases to it; every
      name is lower-case; a store failure gives 500. */
  lemma {:induction false} RolesListed(header: Option<string>, provider: map<string, UserId>, s: Store, user: UserId, name: string)
    requires GetAuthenticatedUser(header, provider) == Authenticated(user)
    ensures GetRoles(header, provider, s, true) == Failure(500, InternalError)
    ensures GetRoles(header, provider, s, false).Success?
    ensures var body := GetRoles(header, provider, s, false).body;
      && (name in body <==> exists role :: HasStatus(s.userRoles, user, role, Approved) && ToLower(role) == name)
      && (forall i :: 0 <= i < |body| ==> HasNoUpper(body[i]))
  {
    var approved := RolesWith(s.userRoles, user, Approved);
    LowerAllMembers(approved, name);
    LowerAllLower(approved);
    forall role ensures role in approved <==> HasStatus(s.userRoles, user, role, Approved) {
      RolesWithFacts(s.userRoles, user, Approved, role);
    }
  }

  /** A SUBMITTED role is not reported: with only a SUBMITTED `TUTOR` row
      and no other roles, the list is empty. */
  lemma {:induction false} SubmittedNotListed(header: Option<string>, provider: map<string, UserId>, s: Store, user: UserId)
    requires GetAuthenticatedUser(header, provider) == Authenticated(user)
    requires s.userRoles == [Assignment(user, "TUTOR", Submitted)]
    ensures GetRoles(header, provider, s, false) == Success([])
  {
    assert s.userRoles[1..] == [];
    assert RolesWith(s.userRoles, user, Approved) == [];
    assert LowerAll([]) == [];
  }
}

=== FILE: seed.dfy ===
/** Database seeding (prisma/seed.ts): upserts of the language catalogue,
    the permissions, the three roles and the ADMIN role's permission links.
    Every upsert has an empty update, so an existing row is never changed
    and a second run finds nothing to do. Ids of created language rows come
    from `newId`, standing for the database's generated ids. */
module Seed {
  import opened Common
  import opened Store

  /** A language to seed: code, English name and native name. */
  datatype LanguageSeed = LanguageSeed(code: string, name: string, nativeName: string)

  /** A role to seed with the names of the permissions it is linked to. */
  datatype RoleSeed = RoleSeed(name: string, permissions: seq<string>)

  /** A permission to seed with its description. */
  datatype PermissionSeed = PermissionSeed(name: string, description: string)

  /** `languages`: ten African languages. */
  const SeedLanguages: seq<LanguageSeed> := [
    LanguageSeed("am", "Amharic", "\U{12A0}\U{121B}\U{122D}\U{129B}"),
    LanguageSeed("sw", "Swahili", "Kiswahili"),
    LanguageSeed("pcm", "Naija-Pidgin", "Naija"),
    LanguageSeed("rw", "Kinyarwanda", "Ikinyarwanda"),
    LanguageSeed("ig", "Igbo", "Igbo"),
    LanguageSeed("ln", "Lingala", "Lingala"),
    LanguageSeed("ha", "Hausa", "Harshen Hausa"),
    LanguageSeed("igl", "Igala", "Igala"),
    LanguageSeed("yo", "Yoruba", "Yor\U{00F9}b\U{00E1}"),
    LanguageSeed("sn", "Shona", "ChiShona")
  ]

  /** The six permissions of the ADMIN role, in seeding order. */
  const AdminPermissionNames: seq<string> := [
    "MANAGE_USERS", "VIEW_DASHBOARD", "MANAGE_ROLES",
    "MANAGE_TUTOR_APPLICATIONS", "VIEW_AUDIT_LOGS", "SYSTEM_SETTINGS"
  ]

  /** `defaultRoles`: only ADMIN is linked to permissions. */
  const DefaultRoles: seq<RoleSeed> := [
    RoleSeed("ADMIN", AdminPermissionNames),
    RoleSeed("TUTOR", []),
    RoleSeed("STUDENT", [])
  ]

  /** `defaultPermissions`. */
  const DefaultPermissions: seq<PermissionSeed> := [
    PermissionSeed("MANAGE_USERS", "Approve, reject, suspend or delete users"),
    PermissionSeed("VIEW_DASHBOARD", "Access admin dashboard"),
    PermissionSeed("MANAGE_ROLES", "Create / edit roles & permissions"),
    PermissionSeed("MANAGE_TUTOR_APPLICATIONS", "view/approve/reject tutor applications"),
    PermissionSeed("VIEW_AUDIT_LOGS", "Access system audit logs"),
    PermissionSeed("SYSTEM_SETTINGS", "Configure system settings")
  ]

  // ---------------------------------------------------------------------------
  // Languages
  // ---------------------------------------------------------------------------

  /** Some row has this code. */
  predicate HasCode(langs: seq<Language>, code: string) {
    exists i :: 0 <= i < |langs| && langs[i].code == code
  }

  /** Every seed's code has a row. */
  predicate CoversCodes(langs: seq<Language>, seeds: seq<LanguageSeed>) {
    forall j :: 0 <= j < |seeds| ==> HasCode(langs, seeds[j].code)
  }

  /** The language upserts in order: a new code gets a row, an existing one
      is left alone. */
  function UpsertLanguages(langs: seq<Language>, seeds: seq<LanguageSeed>, newId: string -> string): seq<Language>
    decreases |seeds|
  {
    if seeds == [] then langs
    else
      var l := seeds[0];
      var next := if HasCode(langs, l.code) then langs
                  else langs + [Language(newId(l.code), l.code, l.name, l.nativeName)];
      UpsertLanguages(next, seeds[1..], newId)
  }

  /** Existing rows are kept unchanged, at their places, and every seeded
      code ends up with a row. */
  lemma {:induction false} UpsertLanguagesFacts(langs: seq<Language>, seeds: seq<LanguageSeed>, newId: string -> string)
    ensures var r := UpsertLanguages(langs, seeds, newId);
      |langs| <= |r| && r[..|langs|] == langs && CoversCodes(r, seeds)
    decreases |seeds|
  {
    if seeds != [] {
      var l := seeds[0];
      var next := if HasCode(langs, l.code) then langs
                  else langs + [Language(newId(l.code), l.code, l.name, l.nativeName)];
      UpsertLanguagesFacts(next, seeds[1..], newId);
      var r := UpsertLanguages(langs, seeds, newId);
      assert r[..|next|] == next;
      assert r[..|langs|] == next[..|langs|];
      assert HasCode(next, l.code) by {
        if !HasCode(langs, l.code) { assert next[|langs|].code == l.code; }
      }
      forall j | 0 <= j < |seeds| ensures HasCode(r, seeds[j].code) {
        if j == 0 {
          var i :| 0 <= i < |next| && next[i].code == l.code;
          assert r[i] == r[..|next|][i];
        } else {
          assert seeds[j] == seeds[1..][j - 1];
        }
      }
    }
  }

  /** When every code already has a row, the upserts change nothing. */
  lemma {:induction false} UpsertLanguagesNoop(langs: seq<Language>, seeds: seq<LanguageSeed>, newId: string -> string)
    requires CoversCodes(langs, seeds)
    ensures UpsertLanguages(langs, seeds, newId) == langs
    decreases |seeds|
  {
    if seeds != [] {
      assert HasCode(langs, seeds[0].code);
      assert CoversCodes(langs, seeds[1..]) by {
        forall j | 0 <= j < |seeds[1..]| ensures HasCode(langs, seeds[1..][j].code) {
          assert seeds[1..][j] == seeds[j + 1];
        }
      }
      UpsertLanguagesNoop(langs, seeds[1..], newId);
    }
  }

  // ---------------------------------------------------------------------------
  // Permissions
  // ---------------------------------------------------------------------------

  /** The names of the permission seeds, in order. */
  function PermissionNames(seeds: seq<PermissionSeed>): (r: seq<string>)
    ensures |r| == |seeds|
    ensures forall j :: 0 <= j < |seeds| ==> r[j] == seeds[j].name
  {
    if seeds == [] then [] else [seeds[0].name] + PermissionNames(seeds[1..])
  }

  /** The permission upserts: a new name gets its description, an existing
      one keeps its own. */
  function UpsertPermissions(perms: map<string, string>, seeds: seq<PermissionSeed>): map<string, string>
    decreases |seeds|
  {
    if seeds == [] then perms
    else
      var p := seeds[0];
      var next := if p.name in perms then perms else perms[p.name := p.description];
      UpsertPermissions(next, seeds[1..])
  }

  /** Existing permissions keep their descriptions, and the names present
      afterwards are the old ones and the seeded ones. */
  lemma {:induction false} UpsertPermissionsFacts(perms: map<string, string>, seeds: seq<PermissionSeed>)
    ensures var r := UpsertPermissions(perms, seeds);
      && (forall n :: n in perms ==> n in r && r[n] == perms[n])
      && (forall n :: n in r <==> n in perms || n in PermissionNames(seeds))
    decreases |seeds|
  {
    if seeds != [] {
      var p := seeds[0];
      var next := if p.name in perms then perms else perms[p.name := p.description];
      UpsertPermissionsFacts(next, seeds[1..]);
      assert PermissionNames(seeds) == [p.name] + PermissionNames(seeds[1..]);
    }
  }

  /** When every name is present the permission upserts change nothing. */
  lemma {:induction false} UpsertPermissionsNoop(perms: map<string, string>, seeds: seq<PermissionSeed>)
    requires forall j :: 0 <= j < |seeds| ==> seeds[j].name in perms
    ensures UpsertPermissions(perms, seeds) == perms
    decreases |seeds|
  {
    if seeds != [] {
      assert forall j :: 0 <= j < |seeds[1..]| ==> seeds[1..][j].name in perms by {
        forall j | 0 <= j < |seeds[1..]| ensures seeds[1..][j].name in perms {
          assert seeds[1..][j] == seeds[j + 1];
        }
      }
      UpsertPermissionsNoop(perms, seeds[1..]);
    }
  }

  // ---------------------------------------------------------------------------
  // Roles and links
  // ---------------------------------------------------------------------------

  /** The link upserts of one role: a permission name that is not found is
      skipped; a link that exists already is left alone. */
  function UpsertLinks(links: seq<Link>, role: string, names: seq<string>, perms: map<string, string>): seq<Link>
    decreases |names|
  {
    if names == [] then links
    else
      var l := Link(role, names[0]);
      var next := if names[0] in perms && l !in links then links + [l] else links;
      UpsertLinks(next, role, names[1..], perms)
  }

  /** The links of `role` to each of `names`, in order. */
  function LinksFor(role: string, names: seq<string>): (r: seq<Link>)
    ensures |r| == |names|
    ensures forall i :: 0 <= i < |names| ==> r[i] == Link(role, names[i])
  {
    if names == [] then [] else [Link(role, names[0])] + LinksFor(role, names[1..])
  }

  /** Every found name is linked to `role`. */
  predicate CoversLinks(links: seq<Link>, role: string, names: seq<string>, perms: map<string, string>) {
    forall j :: 0 <= j < |names| && names[j] in perms ==> Link(role, names[j]) in links
  }

  /** The link upserts keep every existing link at its place and leave each
      found name linked. */
  lemma {:induction false} UpsertLinksFacts(links: seq<Link>, role: string, names: seq<string>, perms: map<string, string>)
    ensures var r := UpsertLinks(links, role, names, perms);
      |links| <= |r| && r[..|links|] == links && CoversLinks(r, role, names, perms)
    decreases |names|
  {
    if names != [] {
      var l := Link(role, names[0]);
      var next := if names[0] in perms && l !in links then links + [l] else links;
      UpsertLinksFacts(next, role, names[1..], perms);
      var r := UpsertLinks(links, role, names, perms);
      assert r[..|links|] == r[..|next|][..|links|];
      forall j | 0 <= j < |names| && names[j] in perms ensures Link(role, names[j]) in r {
        if j == 0 {
          assert l in next;
          var i :| 0 <= i < |next| && next[i] == l;
          assert r[i] == r[..|next|][i];
        } else {
          assert names[j] == names[1..][j - 1];
        }
      }
    }
  }

  /** With every found name linked already, the link upserts change nothing. */
  lemma {:induction false} UpsertLinksNoop(links: seq<Link>, role: string, names: seq<string>, perms: map<string, string>)
    requires CoversLinks(links, role, names, perms)
    ensures UpsertLinks(links, role, names, perms) == links
    decreases |names|
  {
    if names != [] {
      assert CoversLinks(links, role, names[1..], perms) by {
        forall j | 0 <= j < |names[1..]| && names[1..][j] in perms ensures Link(role, names[1..][j]) in links {
          assert names[1..][j] == names[j + 1];
        }
      }
      UpsertLinksNoop(links, role, names[1..], perms);
    }
  }

  /** On links that hold none of them, distinct found names are appended
      one link each, in order; a name that is not found adds nothing. */
  lemma {:induction false} UpsertLinksFresh(links: seq<Link>, role: string, names: seq<string>, perms: map<string, string>)
    requires NoDuplicates(names)
    requires forall j :: 0 <= j < |names| ==> names[j] in perms && Link(role, names[j]) !in links
    ensures UpsertLinks(links, role, names, perms) == links + LinksFor(role, names)
    decreases |names|
  {
    if names != [] {
      var next := links + [Link(role, names[0])];
      assert UpsertLinks(links, role, names, perms) == UpsertLinks(next, role, names[1..], perms);
      FreshRest(links, role, names, perms);
      UpsertLinksFresh(next, role, names[1..], perms);
      LinksForHead(links, role, names);
    }
  }

  /** After the first fresh name is linked, the remaining names are still
      found, distinct and unlinked. */
  lemma {:induction false} FreshRest(links: seq<Link>, role: string, names: seq<string>, perms: map<string, string>)
    requires names != [] && NoDuplicates(names)
    requires forall j :: 0 <= j < |names| ==> names[j] in perms && Link(role, names[j]) !in links
    ensures NoDuplicates(names[1..])
    ensures forall j :: 0 <= j < |names[1..]| ==> names[1..][j] in perms && Link(role, names[1..][j]) !in links + [Link(role, names[0])]
  {
    forall j | 0 <= j < |names[1..]| ensures names[1..][j] in perms && Link(role, names[1..][j]) !in links + [Link(role, names[0])] {
      assert names[1..][j] == names[j + 1];
      assert names[0] != names[j + 1];
    }
    forall i, j | 0 <= i < j < |names[1..]| ensures names[1..][i] != names[1..][j] {
      assert names[1..][i] == names[i + 1] && names[1..][j] == names[j + 1];
    }
  }

  /** Linking the first name and then the rest is linking them all. */
  lemma {:induction false} LinksForHead(links: seq<Link>, role: string, names: seq<string>)
    requires names != []
    ensures links + [Link(role, names[0])] + LinksFor(role, names[1..]) == links + LinksFor(role, names)
  {
    assert LinksFor(role, names) == [Link(role, names[0])] + LinksFor(role, names[1..]);
  }

  /** A name that cannot be found is skipped rather than failing. */
  lemma {:induction false} UnknownPermissionSkipped(links: seq<Link>, role: string, name: string, perms: map<string, string>)
    requires name !in perms
    ensures UpsertLinks(links, role, [name], perms) == links
  {
  }

  /** The roles and links after the role loop. */
  datatype RoleState = RoleState(roles: set<string>, links: seq<Link>)

  /** The names of the role seeds, in order. */
  function RoleNames(seeds: seq<RoleSeed>): (r: seq<string>)
    ensures |r| == |seeds|
    ensures forall k :: 0 <= k < |seeds| ==> r[k] == seeds[k].name
  {
    if seeds == [] then [] else [seeds[0].name] + RoleNames(seeds[1..])
  }

  /** The role loop: upsert each role by name, then its links. */
  function SeedRoles(st: RoleState, seeds: seq<RoleSeed>, perms: map<string, string>): RoleState
    decreases |seeds|
  {
    if seeds == [] then st
    else
      var r := seeds[0];
      SeedRoles(RoleState(st.roles + {r.name}, UpsertLinks(st.links, r.name, r.permissions, perms)), seeds[1..], perms)
  }

  /** Every seed role's found names are linked to it. */
  predicate CoversRoles(links: seq<Link>, seeds: seq<RoleSeed>, perms: map<string, string>) {
    forall k :: 0 <= k < |seeds| ==> CoversLinks(links, seeds[k].name, seeds[k].permissions, perms)
  }

  /** The role loop adds exactly the seeded role names and keeps the
      existing links as a prefix. */
  lemma {:induction false} SeedRolesKeeps(st: RoleState, seeds: seq<RoleSeed>, perms: map<string, string>)
    ensures var t := SeedRoles(st, seeds, perms);
      && (forall n :: n in t.roles <==> n in st.roles || n in RoleNames(seeds))
      && |st.links| <= |t.links| && t.links[..|st.links|] == st.links
    decreases |seeds|
  {
    if seeds != [] {
      var r := seeds[0];
      var next := RoleState(st.roles + {r.name}, UpsertLinks(st.links, r.name, r.permissions, perms));
      UpsertLinksFacts(st.links, r.name, r.permissions, perms);
      SeedRolesKeeps(next, seeds[1..], perms);
      var t := SeedRoles(st, seeds, perms);
      assert t.links[..|st.links|] == t.links[..|next.links|][..|st.links|];
      assert RoleNames(seeds) == [r.name] + RoleNames(seeds[1..]);
    }
  }

  /** After the role loop every role's found permissions are linked. */
  lemma {:induction false} SeedRolesCovers(st: RoleState, seeds: seq<RoleSeed>, perms: map<string, string>)
    ensures CoversRoles(SeedRoles(st, seeds, perms).links, seeds, perms)
    decreases |seeds|
  {
    if seeds != [] {
      var r := seeds[0];
      var next := RoleState(st.roles + {r.name}, UpsertLinks(st.links, r.name, r.permissions, perms));
      UpsertLinksFacts(st.links, r.name, r.permissions, perms);
      SeedRolesKeeps(next, seeds[1..], perms);
      SeedRolesCovers(next, seeds[1..], perms);
      var ls := SeedRoles(st, seeds, perms).links;
      forall k | 0 <= k < |seeds| ensures CoversLinks(ls, seeds[k].name, seeds[k].permissions, perms) {
        if k == 0 {
          forall j | 0 <= j < |r.permissions| && r.permissions[j] in perms
            ensures Link(r.name, r.permissions[j]) in ls
          {
            var i :| 0 <= i < |next.links| && next.links[i] == Link(r.name, r.permissions[j]);
            assert ls[i] == ls[..|next.links|][i];
          }
        } else {
          assert seeds[k] == seeds[1..][k - 1];
        }
      }
    }
  }

  /** With every role present and every found permission linked, the role
      loop changes nothing. */
  lemma {:induction false} SeedRolesNoop(st: RoleState, seeds: seq<RoleSeed>, perms: map<string, string>)
    requires forall k :: 0 <= k < |seeds| ==> seeds[k].name in st.roles
    requires CoversRoles(st.links, seeds, perms)
    ensures SeedRoles(st, seeds, perms) == st
    decreases |seeds|
  {
    if seeds != [] {
      UpsertLinksNoop(st.links, seeds[0].name, seeds[0].permissions, perms);
      assert st.roles + {seeds[0].name} == st.roles;
      forall k | 0 <= k < |seeds[1..]| ensures seeds[1..][k].name in st.roles
        && CoversLinks(st.links, seeds[1..][k].name, seeds[1..][k].permissions, perms) {
        assert seeds[1..][k] == seeds[k + 1];
      }
      SeedRolesNoop(st, seeds[1..], perms);
    }
  }

  /** Roles without permissions add no links. */
  lemma {:induction false} SeedRolesWithoutLinks(st: RoleState, seeds: seq<RoleSeed>, perms: map<string, string>)
    requires forall k :: 0 <= k < |seeds| ==> seeds[k].permissions == []
    ensures SeedRoles(st, seeds, perms).links == st.links
    decreases |seeds|
  {
    if seeds != [] {
      assert seeds[0].permissions == [];
      var next := RoleState(st.roles + {seeds[0].name}, st.links);
      assert forall k :: 0 <= k < |seeds[1..]| ==> seeds[1..][k].permissions == [] by {
        forall k | 0 <= k < |seeds[1..]| ensures seeds[1..][k].permissions == [] {
          assert seeds[1..][k] == seeds[k + 1];
        }
      }
      SeedRolesWithoutLinks(next, seeds[1..], perms);
    }
  }

  // ---------------------------------------------------------------------------
  // The whole seeding run
  // ---------------------------------------------------------------------------

  /** `seedDatabase`: languages, then permissions, then roles with links. */
  function SeedDatabase(s: Store, newId: string -> string): Store {
    var langs := UpsertLanguages(s.languages, SeedLanguages, newId);
    var perms := UpsertPermissions(s.permissions, DefaultPermissions);
    var st := SeedRoles(RoleState(s.roles, s.links), DefaultRoles, perms);
    s.(languages := langs, permissions := perms, roles := st.roles, links := st.links)
  }

  /** Seeding never changes an existing row: language rows and links stay
      where they were, descriptions are kept, no role disappears, and the
      tables seeding does not touch are unchanged. */
  lemma {:induction false} SeedKeepsExisting(s: Store, newId: string -> string)
    ensures var t := SeedDatabase(s, newId);
      && |s.languages| <= |t.languages| && t.languages[..|s.languages|] == s.languages
      && (forall n :: n in s.permissions ==> n in t.permissions && t.permissions[n] == s.permissions[n])
      && s.roles <= t.roles
      && |s.links| <= |t.links| && t.links[..|s.links|] == s.links
      && t.users == s.users && t.assignments == s.assignments && t.userRoles == s.userRoles
      && t.(languages := s.languages, permissions := s.permissions, roles := s.roles, links := s.links) == s
  {
    UpsertLanguagesFacts(s.languages, SeedLanguages, newId);
    UpsertPermissionsFacts(s.permissions, DefaultPermissions);
    var perms := UpsertPermissions(s.permissions, DefaultPermissions);
    SeedRolesKeeps(RoleState(s.roles, s.links), DefaultRoles, perms);
  }

  /** After seeding every listed language code, permission name and role
      name is present, and every role is linked to each of its permissions
      that exists. */
  lemma {:induction false} SeedCovers(s: Store, newId: string -> string)
    ensures var t := SeedDatabase(s, newId);
      && CoversCodes(t.languages, SeedLanguages)
      && (forall j :: 0 <= j < |DefaultPermissions| ==> DefaultPermissions[j].name in t.permissions)
      && (forall k :: 0 <= k < |DefaultRoles| ==> DefaultRoles[k].name in t.roles)
      && CoversRoles(t.links, DefaultRoles, t.permissions)
  {
    UpsertLanguagesFacts(s.languages, SeedLanguages, newId);
    UpsertPermissionsFacts(s.permissions, DefaultPermissions);
    var perms := UpsertPermissions(s.permissions, DefaultPermissions);
    var st := RoleState(s.roles, s.links);
    SeedRolesKeeps(st, DefaultRoles, perms);
    SeedRolesCovers(st, DefaultRoles, perms);
    var t := SeedDatabase(s, newId);
    forall j | 0 <= j < |DefaultPermissions| ensures DefaultPermissions[j].name in t.permissions {
      assert PermissionNames(DefaultPermissions)[j] == DefaultPermissions[j].name;
    }
    forall k | 0 <= k < |DefaultRoles| ensures DefaultRoles[k].name in t.roles {
      assert RoleNames(DefaultRoles)[k] == DefaultRoles[k].name;
    }
  }

  /** Seeding is idempotent: a second run on its own output changes
      nothing, whatever ids the database would hand out. */
  lemma {:induction false} SeedIdempotent(s: Store, newId: string -> string, newId': string -> string)
    ensures SeedDatabase(SeedDatabase(s, newId), newId') == SeedDatabase(s, newId)
  {
    var t := SeedDatabase(s, newId);
    SeedCovers(s, newId);
    UpsertLanguagesNoop(t.languages, SeedLanguages, newId');
    UpsertPermissionsNoop(t.permissions, DefaultPermissions);
    SeedRolesNoop(RoleState(t.roles, t.links), DefaultRoles, t.permissions);
  }

  /** The six ADMIN permission names are distinct. */
  lemma {:induction false} AdminNamesDistinct()
    ensures NoDuplicates(AdminPermissionNames)
  {
  }

  /** Seeding empty permissions creates all six ADMIN permission names. */
  lemma {:induction false} EmptyPermissionsSeeded()
    ensures forall j :: 0 <= j < |AdminPermissionNames| ==>
              AdminPermissionNames[j] in UpsertPermissions(map[], DefaultPermissions)
  {
    UpsertPermissionsFacts(map[], DefaultPermissions);
    forall j | 0 <= j < |AdminPermissionNames|
      ensures AdminPermissionNames[j] in UpsertPermissions(map[], DefaultPermissions) {
      assert PermissionNames(DefaultPermissions)[j] == AdminPermissionNames[j];
    }
  }

  /** The links seeding leaves are those of the role loop. */
  lemma {:induction false} SeedLinks(s: Store, newId: string -> string)
    ensures SeedDatabase(s, newId).links ==
              SeedRoles(RoleState(s.roles, s.links), DefaultRoles, UpsertPermissions(s.permissions, DefaultPermissions)).links
  {
  }

  /** One step of the role loop. */
  lemma {:induction false} SeedRolesStep(st: RoleState, seeds: seq<RoleSeed>, perms: map<string, string>)
    requires seeds != []
    ensures SeedRoles(st, seeds, perms) ==
              SeedRoles(RoleState(st.roles + {seeds[0].name}, UpsertLinks(st.links, seeds[0].name, seeds[0].permissions, perms)),
                        seeds[1..], perms)
  {
  }

  /** The role loop from no roles and no links, once the six ADMIN
      permissions exist, links exactly those six to ADMIN. */
  lemma {:induction false} EmptyRoleLoop(perms: map<string, string>)
    requires forall j :: 0 <= j < |AdminPermissionNames| ==> AdminPermissionNames[j] in perms
    ensures SeedRoles(RoleState({}, []), DefaultRoles, perms).links == LinksFor("ADMIN", AdminPermissionNames)
  {
    AdminNamesDistinct();
    UpsertLinksFresh([], "ADMIN", AdminPermissionNames, perms);
    var admin := UpsertLinks([], "ADMIN", AdminPermissionNames, perms);
    SeedRolesStep(RoleState({}, []), DefaultRoles, perms);
    SeedRolesWithoutLinks(RoleState({} + {"ADMIN"}, admin), DefaultRoles[1..], perms);
  }

  /** On an empty store ADMIN is linked to exactly its six permissions, in
      order, and TUTOR and STUDENT to none. */
  lemma {:induction false} SeedEmptyLinks(newId: string -> string)
    ensures SeedDatabase(EmptyStore, newId).links == LinksFor("ADMIN", AdminPermissionNames)
    ensures |SeedDatabase(EmptyStore, newId).links| == 6
  {
    EmptyPermissionsSeeded();
    EmptyRoleLoop(UpsertPermissions(map[], DefaultPermissions));
    SeedLinks(EmptyStore, newId);
  }
}

=== FILE: selection.dfy ===
/** The checkbox-toggle pattern shared by the language, proficiency, role
    and time-slot pickers: an item that `includes` reports as selected is
    filtered out, any other item is appended at the end. */
module Selection {
  import opened Common

  /** `xs.filter(y => y !== x)`. */
  function Remove<T(==)>(xs: seq<T>, x: T): (r: seq<T>)
    ensures |r| <= |xs|
  {
    if xs == [] then []
    else if xs[0] == x then Remove(xs[1..], x)
    else [xs[0]] + Remove(xs[1..], x)
  }

  /** Filtering keeps exactly the other elements, and leaves a list without
      `x` unchanged. */
  lemma {:induction false} RemoveFacts<T>(xs: seq<T>, x: T)
    ensures forall y :: y in Remove(xs, x) <==> y in xs && y != x
    ensures x !in xs ==> Remove(xs, x) == xs
    ensures NoDuplicates(xs) ==> NoDuplicates(Remove(xs, x))
  {
    if xs != [] {
      RemoveFacts(xs[1..], x);
      assert xs == [xs[0]] + xs[1..];
      if NoDuplicates(xs) {
        assert NoDuplicates(xs[1..]);
        assert xs[0] !in xs[1..];
      }
    }
  }

  /** Filtering distributes over appending. */
  lemma {:induction false} RemoveAppend<T>(xs: seq<T>, ys: seq<T>, x: T)
    ensures Remove(xs + ys, x) == Remove(xs, x) + Remove(ys, x)
  {
    if xs != [] {
      assert (xs + ys)[1..] == xs[1..] + ys;
      RemoveAppend(xs[1..], ys, x);
    } else {
      assert xs + ys == ys;
    }
  }

  /** The `toggle` handlers: deselect a selected item, otherwise append it. */
  function Toggle<T(==,!new)>(xs: seq<T>, x: T): (r: seq<T>)
    ensures x in r <==> x !in xs
    ensures forall y :: y != x ==> (y in r <==> y in xs)
  {
    RemoveFacts(xs, x);
    if x in xs then Remove(xs, x) else xs + [x]
  }

  /** Toggling an unselected item twice restores the exact list; toggling a
      selected item twice keeps the same items with that item moved to the
      end (and any duplicate copies of it collapsed into one). */
  lemma {:induction false} ToggleTwice<T(!new)>(xs: seq<T>, x: T)
    ensures x !in xs ==> Toggle(Toggle(xs, x), x) == xs
    ensures x in xs ==> Toggle(Toggle(xs, x), x) == Remove(xs, x) + [x]
    ensures forall y :: y in Toggle(Toggle(xs, x), x) <==> y in xs
  {
    RemoveFacts(xs, x);
    if x !in xs {
      RemoveAppend(xs, [x], x);
      assert Remove([x], x) == [];
    }
  }

  /** A toggle never introduces a duplicate. */
  lemma {:induction false} ToggleKeepsDistinct<T(!new)>(xs: seq<T>, x: T)
    requires NoDuplicates(xs)
    ensures NoDuplicates(Toggle(xs, x))
  {
    RemoveFacts(xs, x);
  }

  /** Every element of `xs` belongs to `allowed`. */
  predicate AllIn<T(==)>(xs: seq<T>, allowed: seq<T>) {
    forall i :: 0 <= i < |xs| ==> xs[i] in allowed
  }

  /** Toggling only ever offered items keeps the selection within them. */
  lemma {:induction false} ToggleStaysWithin<T(!new)>(xs: seq<T>, x: T, allowed: seq<T>)
    requires AllIn(xs, allowed) && x in allowed
    ensures AllIn(Toggle(xs, x), allowed)
  {
    var r := Toggle(xs, x);
    forall i | 0 <= i < |r| ensures r[i] in allowed {
      assert r[i] in r;
      if r[i] != x { assert r[i] in xs; }
    }
  }

  /** A toggle moves no other item: filtering the toggled item out of the
      result gives the same list, in the same order, as filtering it out of
      the input. */
  lemma {:induction false} ToggleKeepsOthersInOrder<T(!new)>(xs: seq<T>, x: T)
    ensures Remove(Toggle(xs, x), x) == Remove(xs, x)
  {
    RemoveFacts(xs, x);
    RemoveFacts(Remove(xs, x), x);
    if x !in xs {
      RemoveAppend(xs, [x], x);
      assert Remove([x], x) == [];
    }
  }
}

=== FILE: slots.dfy ===
/** The weekly time-slot pickers (src/components/forms/AvailabilitySelection.tsx
    and src/components/onboarding/AvailabilitySelection.tsx): a day tab, the
    24 one-hour slots "HH:00"-"HH+1:00", and a toggle on (day, start, end)
    triples. Both components share this logic. */
module Slots {
  import opened Common
  import opened Numbers
  import opened Time
  import opened Selection

  /** A selected slot: day name and "HH:MM" start and end. */
  datatype TimeSlot = TimeSlot(day: string, start: string, end: string)

  /** The picker's `DAYS`, Monday first. */
  const Days: seq<string> :=
    ["Monday", "Tuesday", "Wednesday", "Thursday", "Friday", "Saturday", "Sunday"]

  /** The day tab that is open when the picker appears (`DAYS[0]`). */
  const InitialDay: string := Days[0]

  /** The hour `i` as two digits (`i.toString().padStart(2, "0")`). */
  function HourLabel(i: nat): string {
    PadStart2(NatToString(i))
  }

  /** The start label of slot `i`. */
  function SlotStart(i: nat): string {
    JoinClock(HourLabel(i), "00")
  }

  /** The end label of slot `i`: the start of the next hour. */
  function SlotEnd(i: nat): string {
    JoinClock(HourLabel(i + 1), "00")
  }

  /** `TIME_SLOTS`: the 24 one-hour slots of a day. */
  const SlotCount: nat := 24

  /** `isSlotSelected`: some selected slot has this day, start and end. */
  predicate IsSlotSelected(selected: seq<TimeSlot>, day: string, start: string, end: string) {
    exists i :: 0 <= i < |selected| && selected[i].day == day
                && selected[i].start == start && selected[i].end == end
  }

  /** The slots that differ from (day, start, end) in at least one field. */
  function DropSlot(selected: seq<TimeSlot>, day: string, start: string, end: string): seq<TimeSlot> {
    if selected == [] then []
    else
      var s := selected[0];
      var rest := DropSlot(selected[1..], day, start, end);
      if s.day == day && s.start == start && s.end == end then rest else [s] + rest
  }

  /** `toggleTimeSlot` on the open day tab: filter the slot out when it is
      selected, append it otherwise. */
  function ToggleTimeSlot(selected: seq<TimeSlot>, selectedDay: string, start: string, end: string): seq<TimeSlot> {
    if IsSlotSelected(selected, selectedDay, start, end) then DropSlot(selected, selectedDay, start, end)
    else selected + [TimeSlot(selectedDay, start, end)]
  }

  /** `isSlotSelected` is membership of the triple. */
  lemma {:induction false} IsSlotSelectedIsMembership(selected: seq<TimeSlot>, day: string, start: string, end: string)
    ensures IsSlotSelected(selected, day, start, end) <==> TimeSlot(day, start, end) in selected
  {
    if TimeSlot(day, start, end) in selected {
      var i :| 0 <= i < |selected| && selected[i] == TimeSlot(day, start, end);
      assert selected[i].day == day && selected[i].start == start && selected[i].end == end;
    }
  }

  /** Filtering by the three fields is filtering out the triple. */
  lemma {:induction false} DropSlotIsRemove(selected: seq<TimeSlot>, day: string, start: string, end: string)
    ensures DropSlot(selected, day, start, end) == Remove(selected, TimeSlot(day, start, end))
  {
    if selected != [] {
      DropSlotIsRemove(selected[1..], day, start, end);
    }
  }

  /** The slot toggle is the generic checkbox toggle on triples, so it flips
      exactly the toggled slot, keeps every other slot, and toggling the same
      slot twice on a list without it gives the list back. */
  lemma {:induction false} ToggleTimeSlotIsToggle(selected: seq<TimeSlot>, day: string, start: string, end: string)
    ensures ToggleTimeSlot(selected, day, start, end) == Toggle(selected, TimeSlot(day, start, end))
  {
    IsSlotSelectedIsMembership(selected, day, start, end);
    DropSlotIsRemove(selected, day, start, end);
  }

  /** The label "HH:00" of hour i reads as 60 * i minutes. */
  lemma {:induction false} HourMinutes(i: nat)
    ensures TimeStringToMinutes(JoinClock(HourLabel(i), "00")) == Some(60 * i)
  {
    PaddedNatValue(i);
    assert AllDigits("00") && ParseDigits("00") == 0 by { ParseTwo("00"); }
    ClockValue(HourLabel(i), "00");
  }

  /** The labels of slot i read as 60 * i and 60 * (i + 1) minutes, so every
      slot is one hour long; the last slot ends at "24:00", that is minute
      1440, one past the last minute of the day. */
  lemma {:induction false} SlotMinutes(i: nat)
    requires i < SlotCount
    ensures TimeStringToMinutes(SlotStart(i)) == Some(60 * i)
    ensures TimeStringToMinutes(SlotEnd(i)) == Some(60 * (i + 1))
  {
    HourMinutes(i);
    HourMinutes(i + 1);
  }

  /** Different slots start at different times. */
  lemma {:induction false} SlotsDistinct(i: nat, j: nat)
    requires i < SlotCount && j < SlotCount && i != j
    ensures SlotStart(i) != SlotStart(j)
  {
    HourMinutes(i);
    HourMinutes(j);
  }
}

=== FILE: store.dfy ===
/** The relational state behind the API routes, as immutable values: users,
    student and tutor profiles, the language catalogue, permissions, roles,
    the two role stores (`userRoleAssignment` and the older `userRole`),
    role-permission links, student languages and availability rows. Rows
    are identified by their unique keys; tables whose order a listing can
    observe are sequences in insertion order. */
module Store {
  import opened Common

  type UserId = string

  /** `RoleStatus`: an application is SUBMITTED until an admin approves it. */
  datatype RoleStatus = Submitted | Approved

  /** `LanguageProficiency`. */
  datatype Proficiency = Native | Fluent | Advanced | Intermediate | Beginner

  /** `AvailabilityType`: student and tutor rows share one table. */
  datatype AvailabilityType = StudentAvailability | TutorAvailability

  /** The enum value names, as the database spells them. */
  function ProficiencyName(p: Proficiency): string {
    match p
    case Native => "NATIVE"
    case Fluent => "FLUENT"
    case Advanced => "ADVANCED"
    case Intermediate => "INTERMEDIATE"
    case Beginner => "BEGINNER"
  }

  /** Reading a string as a `LanguageProficiency`: only an exact enum name
      is accepted; the database rejects anything else. */
  function ParseProficiency(s: string): (r: Option<Proficiency>)
    ensures r.Some? ==> ProficiencyName(r.value) == s
  {
    if s == "NATIVE" then Some(Native)
    else if s == "FLUENT" then Some(Fluent)
    else if s == "ADVANCED" then Some(Advanced)
    else if s == "INTERMEDIATE" then Some(Intermediate)
    else if s == "BEGINNER" then Some(Beginner)
    else None
  }

  /** Every enum value reads back from its name. */
  lemma {:induction false} ProficiencyRoundTrip(p: Proficiency)
    ensures ParseProficiency(ProficiencyName(p)) == Some(p)
  {
  }

  /** A `User` row; absent columns are `None`. */
  datatype User = User(username: Option<string>, firstName: Option<string>,
                       lastName: Option<string>, country: Option<string>,
                       timezone: Option<string>)

  /** A `StudentProfile` row (one per user). */
  datatype StudentProfile = StudentProfile(onboardingCompleted: bool, targetLanguages: seq<string>)

  /** A `TutorProfile` row (one per user). `languages_taught` holds the JSON
      array it was given. */
  datatype TutorProfile = TutorProfile(intro: string, languagesTaught: seq<Json>,
                                       teachingExperience: string, country: string)

  /** A `Language` row; `code` is unique. */
  datatype Language = Language(id: string, code: string, name: string, nativeName: string)

  /** A role held by a user with a status; rows of both role stores have
      this shape and are unique per (user, role). */
  datatype Assignment = Assignment(user: UserId, role: string, status: RoleStatus)

  /** A `RolePermissionAssignment`: role `role` grants permission `permission`. */
  datatype Link = Link(role: string, permission: string)

  /** An `Availability` row: a weekly window in minutes since midnight. */
  datatype Availability = Availability(user: UserId, kind: AvailabilityType, day: int,
                                       start: int, end: int, timezone: Option<string>,
                                       active: bool)

  datatype Store = Store(
    users: map<UserId, User>,
    studentProfiles: map<UserId, StudentProfile>,
    tutorProfiles: map<UserId, TutorProfile>,
    languages: seq<Language>,
    /** permission name to description */
    permissions: map<string, string>,
    roles: set<string>,
    /** `userRoleAssignment`, read by onboarding, permissions and the admin listing */
    assignments: seq<Assignment>,
    /** `userRole`, written by tutor-apply and read by the roles endpoint */
    userRoles: seq<Assignment>,
    links: seq<Link>,
    /** the proficiency of each (user, language id) a student learns */
    studentLanguages: map<(UserId, string), Proficiency>,
    availability: seq<Availability>)

  /** The store with no rows at all. */
  const EmptyStore: Store := Store(map[], map[], map[], [], map[], {}, [], [], [], map[], [])

  // ---------------------------------------------------------------------------
  // Role rows
  // ---------------------------------------------------------------------------

  /** Some row holds `role` for `user`, whatever its status. */
  predicate HasKey(xs: seq<Assignment>, user: UserId, role: string) {
    exists i :: 0 <= i < |xs| && xs[i].user == user && xs[i].role == role
  }

  /** `user` holds `role` with status `status`. */
  predicate HasStatus(xs: seq<Assignment>, user: UserId, role: string, status: RoleStatus) {
    Assignment(user, role, status) in xs
  }

  /** Every row for (user, role) gets the status, in place. */
  function UpdateStatus(xs: seq<Assignment>, user: UserId, role: string, status: RoleStatus): (r: seq<Assignment>)
    ensures |r| == |xs|
  {
    if xs == [] then []
    else
      var head := if xs[0].user == user && xs[0].role == role then Assignment(user, role, status) else xs[0];
      [head] + UpdateStatus(xs[1..], user, role, status)
  }

  /** An upsert on the (user, role) key that writes `status` on both the
      create and the update path. */
  function SetStatus(xs: seq<Assignment>, user: UserId, role: string, status: RoleStatus): seq<Assignment> {
    if HasKey(xs, user, role) then UpdateStatus(xs, user, role, status)
    else xs + [Assignment(user, role, status)]
  }

  /** The rows `UpdateStatus` produces: (user, role) rows carry the new
      status, every other row is as before, and the keys stay the same. */
  lemma {:induction false} UpdateStatusFacts(xs: seq<Assignment>, user: UserId, role: string, status: RoleStatus,
                                             a: Assignment)
    ensures a in UpdateStatus(xs, user, role, status) <==>
              if a.user == user && a.role == role then a.status == status && HasKey(xs, user, role)
              else a in xs
  {
    if xs != [] {
      UpdateStatusFacts(xs[1..], user, role, status, a);
      var r := UpdateStatus(xs, user, role, status);
      assert r == [r[0]] + UpdateStatus(xs[1..], user, role, status);
      assert xs == [xs[0]] + xs[1..];
      if a.user == user && a.role == role && a.status == status && HasKey(xs, user, role) {
        var i :| 0 <= i < |xs| && xs[i].user == user && xs[i].role == role;
        if i > 0 { assert xs[1..][i - 1] == xs[i]; }
      }
    }
  }

  /** After the upsert, (user, role) has exactly the written status and
      every other (user, role, status) fact is unchanged. */
  lemma {:induction false} SetStatusFacts(xs: seq<Assignment>, user: UserId, role: string, status: RoleStatus,
                       user': UserId, role': string, status': RoleStatus)
    ensures HasStatus(SetStatus(xs, user, role, status), user', role', status') <==>
              if user' == user && role' == role then status' == status
              else HasStatus(xs, user', role', status')
  {
    var a := Assignment(user', role', status');
    if HasKey(xs, user, role) {
      UpdateStatusFacts(xs, user, role, status, a);
    } else if user' == user && role' == role {
      assert a !in xs;
    }
  }

  /** The roles `user` holds with status `status`, in row order. */
  function RolesWith(xs: seq<Assignment>, user: UserId, status: RoleStatus): seq<string> {
    if xs == [] then []
    else
      var rest := RolesWith(xs[1..], user, status);
      if xs[0].user == user && xs[0].status == status then [xs[0].role] + rest else rest
  }

  /** `RolesWith` lists exactly the roles held with that status. */
  lemma {:induction false} RolesWithFacts(xs: seq<Assignment>, user: UserId, status: RoleStatus, role: string)
    ensures role in RolesWith(xs, user, status) <==> HasStatus(xs, user, role, status)
  {
    if xs != [] {
      RolesWithFacts(xs[1..], user, status, role);
      assert xs == [xs[0]] + xs[1..];
    }
  }

  /** The rows for `role` with status `status`, in row order. */
  function RowsWith(xs: seq<Assignment>, role: string, status: RoleStatus): seq<Assignment> {
    if xs == [] then []
    else
      var rest := RowsWith(xs[1..], role, status);
      if xs[0].role == role && xs[0].status == status then [xs[0]] + rest else rest
  }

  /** `RowsWith` keeps exactly the rows for that role and status. */
  lemma {:induction false} RowsWithFacts(xs: seq<Assignment>, role: string, status: RoleStatus, a: Assignment)
    ensures a in RowsWith(xs, role, status) <==> a in xs && a.role == role && a.status == status
  {
    if xs != [] {
      RowsWithFacts(xs[1..], role, status, a);
      assert xs == [xs[0]] + xs[1..];
    }
  }

  // ---------------------------------------------------------------------------
  // Availability rows
  // ---------------------------------------------------------------------------

  /** The rows of `user` of the given type, in row order. */
  function RowsOf(rows: seq<Availability>, user: UserId, kind: AvailabilityType): seq<Availability> {
    if rows == [] then []
    else
      var rest := RowsOf(rows[1..], user, kind);
      if rows[0].user == user && rows[0].kind == kind then [rows[0]] + rest else rest
  }

  /** The rows that do not belong to `user` with the given type. */
  function RowsNotOf(rows: seq<Availability>, user: UserId, kind: AvailabilityType): seq<Availability> {
    if rows == [] then []
    else
      var rest := RowsNotOf(rows[1..], user, kind);
      if rows[0].user == user && rows[0].kind == kind then rest else [rows[0]] + rest
  }

  /** `deleteMany` of the user's rows of one type followed by `createMany`. */
  function ReplaceRows(rows: seq<Availability>, user: UserId, kind: AvailabilityType,
                       added: seq<Availability>): seq<Availability> {
    RowsNotOf(rows, user, kind) + added
  }

  /** All rows in `rows` belong to `user` with the given type. */
  predicate AllOf(rows: seq<Availability>, user: UserId, kind: AvailabilityType) {
    forall i :: 0 <= i < |rows| ==> rows[i].user == user && rows[i].kind == kind
  }

  /** Selecting distributes over appending. */
  lemma {:induction false} RowsOfAppend(xs: seq<Availability>, ys: seq<Availability>, user: UserId, kind: AvailabilityType)
    ensures RowsOf(xs + ys, user, kind) == RowsOf(xs, user, kind) + RowsOf(ys, user, kind)
  {
    if xs == [] {
      assert xs + ys == ys;
    } else {
      assert (xs + ys)[1..] == xs[1..] + ys;
      RowsOfAppend(xs[1..], ys, user, kind);
    }
  }

  /** Selecting the rows of one (user, type) keeps all of a list of such rows
      and none of the rows of another (user, type). */
  lemma {:induction false} RowsOfSelect(rows: seq<Availability>, user: UserId, kind: AvailabilityType)
    ensures AllOf(rows, user, kind) ==> RowsOf(rows, user, kind) == rows
    ensures RowsOf(RowsNotOf(rows, user, kind), user, kind) == []
  {
    if rows != [] {
      RowsOfSelect(rows[1..], user, kind);
      assert rows == [rows[0]] + rows[1..];
      if AllOf(rows, user, kind) { assert AllOf(rows[1..], user, kind); }
    }
  }

  /** Removing one (user, type) does not touch the rows of another. */
  lemma {:induction false} RowsOfOther(rows: seq<Availability>, user: UserId, kind: AvailabilityType,
                                       user': UserId, kind': AvailabilityType)
    requires user' != user || kind' != kind
    ensures RowsOf(RowsNotOf(rows, user, kind), user', kind') == RowsOf(rows, user', kind')
  {
    if rows != [] {
      RowsOfOther(rows[1..], user, kind, user', kind');
    }
  }

  /** A list of rows of one (user, type) holds none of another. */
  lemma {:induction false} RowsOfForeign(rows: seq<Availability>, user: UserId, kind: AvailabilityType,
                                         user': UserId, kind': AvailabilityType)
    requires AllOf(rows, user, kind) && (user' != user || kind' != kind)
    ensures RowsOf(rows, user', kind') == []
  {
    if rows != [] {
      assert AllOf(rows[1..], user, kind);
      RowsOfForeign(rows[1..], user, kind, user', kind');
    }
  }

  /** Replace-all: afterwards the user's rows of that type are exactly the
      new rows, in order, and every other (user, type) keeps its rows. */
  lemma {:induction false} ReplaceRowsFacts(rows: seq<Availability>, user: UserId, kind: AvailabilityType,
                         added: seq<Availability>, user': UserId, kind': AvailabilityType)
    requires AllOf(added, user, kind)
    ensures RowsOf(ReplaceRows(rows, user, kind, added), user, kind) == added
    ensures user' != user || kind' != kind ==>
              RowsOf(ReplaceRows(rows, user, kind, added), user', kind') == RowsOf(rows, user', kind')
  {
    RowsOfAppend(RowsNotOf(rows, user, kind), added, user, kind);
    RowsOfSelect(rows, user, kind);
    RowsOfSelect(added, user, kind);
    if user' != user || kind' != kind {
      RowsOfAppend(RowsNotOf(rows, user, kind), added, user', kind');
      RowsOfOther(rows, user, kind, user', kind');
      RowsOfForeign(added, user, kind, user', kind');
    }
  }
}

=== FILE: time.dfy ===
/** Day-name and clock-time conversions (src/lib/time.ts). Days are numbered
    0-6 with Sunday = 0; times are "HH:MM" strings and minutes since
    midnight. */
module Time {
  import opened Common
  import opened Numbers

  /** `DAY_NAMES`, Sunday first. */
  const DayNames: seq<string> :=
    ["Sunday", "Monday", "Tuesday", "Wednesday", "Thursday", "Friday", "Saturday"]

  /** `dayNameToNumber`: the position of an exact `DAY_NAMES` entry, or -1
      for any other string (no trimming, case-sensitive). */
  function DayNameToNumber(day: string): (r: int)
    ensures -1 <= r <= 6
  {
    IndexOf(DayNames, day)
  }

  /** A day name's number names it, and -1 means it is not a `DAY_NAMES`
      entry. */
  lemma {:induction false} DayNameToNumberFacts(day: string)
    ensures 0 <= DayNameToNumber(day) ==> DayNames[DayNameToNumber(day)] == day
    ensures DayNameToNumber(day) == -1 <==> day !in DayNames
  {
    IndexOfFacts(DayNames, day);
  }

  /** `numberToDayName`: `DAY_NAMES[num]`, which is `undefined` outside 0-6. */
  function NumberToDayName(num: int): (r: Option<string>)
    ensures r.Some? <==> 0 <= num <= 6
    ensures r.Some? ==> r.value in DayNames
  {
    if 0 <= num < |DayNames| then Some(DayNames[num]) else None
  }

  /** The seven names are pairwise distinct. */
  lemma {:induction false} DayNamesDistinct()
    ensures NoDuplicates(DayNames)
  {
  }

  /** Both directions of the day round trip: a day name survives
      name -> number -> name, and a number 0-6 survives number -> name -> number. */
  lemma {:induction false} DayRoundTrip(d: string, n: int)
    ensures d in DayNames ==> NumberToDayName(DayNameToNumber(d)) == Some(d)
    ensures 0 <= n <= 6 ==> DayNameToNumber(NumberToDayName(n).value) == n
  {
    DayNameToNumberFacts(d);
    if 0 <= n <= 6 {
      DayNamesDistinct();
      IndexOfDistinct(DayNames, n);
    }
  }

  /** `timeStringToMinutes`: split on ':', read the first two pieces with
      `Number` and return `h * 60 + m`; a missing minute piece (no ':' at all)
      leaves `minutes` undefined and the result `NaN`, as does a piece that is
      not a number. */
  function TimeStringToMinutes(time: string): Option<int> {
    var parts := Split(time, ':');
    if |parts| < 2 then None
    else
      var hours := JsNumber(parts[0]);
      var minutes := JsNumber(parts[1]);
      if hours.Some? && minutes.Some? then Some(hours.value * 60 + minutes.value) else None
  }

  /** A string without ':' is not a time: the result is `NaN`. */
  lemma {:induction false} NoColonIsNaN(time: string)
    requires ':' !in time
    ensures TimeStringToMinutes(time) == None
  {
    SplitNoSep(time, ':');
  }

  /** The hour field of `minutesToTimeString`: `Math.floor(mins / 60)`,
      padded to two characters. */
  function HourField(mins: int): string {
    PadStart2(IntToString(mins / 60))
  }

  /** The minute field of `minutesToTimeString`: the truncating `mins % 60`,
      padded to two characters. */
  function MinuteField(mins: int): string {
    PadStart2(IntToString(JsRem(mins, 60)))
  }

  /** An "H:M" clock string. */
  function JoinClock(h: string, m: string): string {
    h + ":" + m
  }

  /** `minutesToTimeString`: the hour field, ':' and the minute field. */
  function MinutesToTimeString(mins: int): string {
    JoinClock(HourField(mins), MinuteField(mins))
  }

  /** Joining two fields with ':' puts the colon third from the end when the
      minute field has two characters. */
  lemma {:induction false} JoinShape(h: string, m: string)
    requires |m| == 2
    ensures var r := JoinClock(h, m);
      |r| == |h| + 3 && r[|r| - 3] == ':' && r[..|r| - 3] == h && r[|r| - 2..] == m
  {
  }

  /** For a non-negative count both fields of the formatted time are digit
      strings of at least two characters; the minute field has exactly two
      and reads 00-59; the hour field reads the whole hours. */
  lemma {:induction false} TimeStringShape(mins: nat)
    ensures var r := MinutesToTimeString(mins);
      && |r| >= 5 && r[|r| - 3] == ':'
      && AllDigits(r[..|r| - 3]) && ParseDigits(r[..|r| - 3]) == mins / 60
      && AllDigits(r[|r| - 2..]) && ParseDigits(r[|r| - 2..]) == mins % 60
  {
    var h := HourField(mins);
    var m := MinuteField(mins);
    assert m == PadStart2(NatToString(mins % 60));
    PaddedNatValue(mins / 60);
    PaddedNatValue(mins % 60);
    JoinShape(h, m);
  }

  /** A digit string holds no ':'. */
  lemma {:induction false} DigitsHaveNoColon(s: string)
    requires AllDigits(s)
    ensures ':' !in s
  {
    forall i | 0 <= i < |s| ensures s[i] != ':' { assert IsDigit(s[i]); }
  }

  /** "H:M" splits into its two fields when neither holds a ':'. */
  lemma {:induction false} SplitClock(h: string, m: string)
    requires ':' !in h && ':' !in m
    ensures Split(JoinClock(h, m), ':') == [h, m]
  {
    assert JoinClock(h, m) == h + [':'] + m;
    SplitAfter(h, ':', m);
    SplitNoSep(m, ':');
  }

  /** A time whose two pieces read as numbers is `hours * 60 + minutes`. */
  lemma {:induction false} TimeOfFields(time: string, h: string, m: string, hv: int, mv: int)
    requires Split(time, ':') == [h, m]
    requires JsNumber(h) == Some(hv) && JsNumber(m) == Some(mv)
    ensures TimeStringToMinutes(time) == Some(hv * 60 + mv)
  {
  }

  /** A digit field holds no ':' and reads as its decimal value. */
  lemma {:induction false} DigitField(s: string)
    requires AllDigits(s)
    ensures ':' !in s && JsNumber(s) == Some(ParseDigits(s))
  {
    DigitsHaveNoColon(s);
    JsNumberOfDigits(s);
  }

  /** "H:M" with fields free of ':' that read as numbers is `H * 60 + M`. */
  lemma {:induction false} ClockValueOf(h: string, m: string, hv: int, mv: int)
    requires ':' !in h && ':' !in m
    requires JsNumber(h) == Some(hv) && JsNumber(m) == Some(mv)
    ensures TimeStringToMinutes(JoinClock(h, m)) == Some(hv * 60 + mv)
  {
    SplitClock(h, m);
    TimeOfFields(JoinClock(h, m), h, m, hv, mv);
  }

  /** Reading a clock string "H:M" whose two fields are digit strings. */
  lemma {:induction false} ClockValue(h: string, m: string)
    requires AllDigits(h) && AllDigits(m)
    ensures TimeStringToMinutes(JoinClock(h, m)) == Some(ParseDigits(h) * 60 + ParseDigits(m))
  {
    DigitField(h);
    DigitField(m);
    ClockValueOf(h, m, ParseDigits(h), ParseDigits(m));
  }

  /** For every n >= 0, formatting then parsing gives n back. */
  lemma {:induction false} MinutesRoundTrip(n: nat)
    ensures TimeStringToMinutes(MinutesToTimeString(n)) == Some(n)
  {
    assert MinuteField(n) == PadStart2(NatToString(n % 60));
    PaddedNatValue(n / 60);
    PaddedNatValue(n % 60);
    ClockValue(HourField(n), MinuteField(n));
  }

  /** A count whose whole hours are spelled by the two digits `hh` has `hh`
      as its hour field. */
  lemma {:induction false} HourOf(t: int, hh: string)
    requires t >= 0 && |hh| == 2 && AllDigits(hh) && t / 60 == ParseDigits(hh)
    ensures HourField(t) == hh
  {
    TwoDigitSpelling(hh);
  }

  /** A count whose minutes past the hour are spelled by the two digits `mm`
      has `mm` as its minute field. */
  lemma {:induction false} MinuteOf(t: int, mm: string)
    requires t >= 0 && |mm| == 2 && AllDigits(mm) && t % 60 == ParseDigits(mm)
    ensures MinuteField(t) == mm
  {
    TwoDigitSpelling(mm);
  }

  /** `h * 60 + m` with m < 60 has h whole hours and m minutes past the hour. */
  lemma {:induction false} ClockArithmetic(h: int, m: int)
    requires h >= 0 && 0 <= m < 60
    ensures h * 60 + m >= 0 && (h * 60 + m) / 60 == h && (h * 60 + m) % 60 == m
  {
  }

  /** Two-digit hour and minute fields format back from their value. */
  lemma {:induction false} FormatClock(h: nat, m: nat, hh: string, mm: string)
    requires m < 60
    requires |hh| == 2 && AllDigits(hh) && ParseDigits(hh) == h
    requires |mm| == 2 && AllDigits(mm) && ParseDigits(mm) == m
    ensures MinutesToTimeString(h * 60 + m) == JoinClock(hh, mm)
  {
    ClockArithmetic(h, m);
    HourOf(h * 60 + m, hh);
    MinuteOf(h * 60 + m, mm);
  }

  /** Two-digit fields with minutes 00-59 format back from their value. */
  lemma {:induction false} ClockFormatsBack(hh: string, mm: string)
    requires |hh| == 2 && |mm| == 2 && AllDigits(hh) && AllDigits(mm)
    requires ParseDigits(mm) < 60
    ensures MinutesToTimeString(ParseDigits(hh) * 60 + ParseDigits(mm)) == JoinClock(hh, mm)
  {
    ParseDigitsNat(hh);
    ParseDigitsNat(mm);
    FormatClock(ParseDigits(hh), ParseDigits(mm), hh, mm);
  }

  /** An hour field below 24 with minutes 00-59 gives a minute of the day. */
  lemma {:induction false} ClockWithinDay(hh: string, mm: string)
    requires AllDigits(hh) && AllDigits(mm) && ParseDigits(mm) < 60
    ensures ParseDigits(hh) < 24 ==> 0 <= ParseDigits(hh) * 60 + ParseDigits(mm) <= 1439
  {
    ParseDigitsNat(hh);
    ParseDigitsNat(mm);
  }

  /** A two-digit clock string with minutes 00-59 parses to h * 60 + m and
      formats back to itself; within a day ("00:00".."23:59") the value lies
      in 0..1439. */
  lemma {:induction false} ClockRoundTrip(hh: string, mm: string)
    requires |hh| == 2 && |mm| == 2 && AllDigits(hh) && AllDigits(mm)
    requires ParseDigits(mm) < 60
    ensures TimeStringToMinutes(JoinClock(hh, mm)) == Some(ParseDigits(hh) * 60 + ParseDigits(mm))
    ensures MinutesToTimeString(ParseDigits(hh) * 60 + ParseDigits(mm)) == JoinClock(hh, mm)
    ensures ParseDigits(hh) < 24 ==> 0 <= ParseDigits(hh) * 60 + ParseDigits(mm) <= 1439
  {
    ClockValue(hh, mm);
    ClockFormatsBack(hh, mm);
    ClockWithinDay(hh, mm);
  }
}

=== FILE: tutor_application_form.dfy ===
/** The tutor application form (src/features/tutor/TutorApplicationForm.tsx):
    intro, languages and experience, like the application under /user, but
    the intro must be at least 180 UTF-16 code units long once trimmed, the
    experience at least 240, and proficiencies come from the
    `LANGUAGE_PROFICIENCY` dropdown. The body has no `country` key, so the
    apply route refuses every application this form sends. */
module TutorApplicationWizard {
  import opened Common
  import opened Auth
  import opened Http
  import opened OnboardingRoute
  import opened ApplyRoute
  import opened Wizard
  import Store

  /** `ApplicationStep`. */
  datatype Step = Intro | Languages | Experience

  /** `steps`, in order. */
  const Steps: seq<Step> := [Intro, Languages, Experience]

  /** The position of a step in `Steps`. */
  function Index(s: Step): nat {
    match s
    case Intro => 0
    case Languages => 1
    case Experience => 2
  }

  /** The form's state. */
  datatype Form = Form(step: Step, intro: string, picks: LanguagePicks, experience: string, error: Option<string>)

  /** The form as it first appears. */
  const Initial: Form := Form(Intro, "", NoPicks, "", None)

  /** What the user can do. */
  datatype Event =
    | EditIntro(text: string)
    | ClickLanguage(language: string)
    | ChooseProficiency(index: int, value: string)
    | EditExperience(text: string)
    | Next
    | Back

  /** The form after an event, and the application it sent, if any. */
  datatype Outcome = Outcome(form: Form, sent: Option<Application>)

  /** The shortest trimmed intro and experience the form accepts. */
  const MinIntro: nat := 180
  const MinExperience: nat := 240

  const IntroShort: string := "An introduction must be at least 180 characters long."
  const NoLanguage: string := "Select at least one language you teach."
  const ExperienceShort: string := "Your teaching experience description must be at least 240 characters long."
  const NoSession: string := "You must be signed in to apply."

  /** JavaScript's `s.trim().length >= min`. */
  predicate LongEnough(s: string, min: nat) {
    Utf16Length(Trim(s)) >= min
  }

  /** The submitted JSON: intro, language rows and experience. */
  function Sent(f: Form): Application {
    Application(f.intro, f.picks.details, f.experience, None)
  }

  /** `handleNext`, which calls `handleSubmit` once the experience passes. */
  function NextStep(f: Form, signedIn: bool): (r: Outcome)
    ensures r.form.error.Some? ==> r.form.step == f.step && r.sent.None?
    ensures r.sent.Some? ==> f.step == Experience && signedIn && r.form.error.None?
    ensures r.form.step != f.step ==> Index(r.form.step) == Index(f.step) + 1 && r.form.error.None?
  {
    var g := f.(error := None);
    match f.step
    case Intro =>
      if !LongEnough(f.intro, MinIntro) then Outcome(g.(error := Some(IntroShort)), None)
      else Outcome(g.(step := Languages), None)
    case Languages =>
      var c := CheckLanguages(f.picks, NoLanguage);
      if c.error.Some? then Outcome(g.(picks := c.picks, error := c.error), None)
      else Outcome(g.(picks := c.picks, step := Experience), None)
    case Experience =>
      if !LongEnough(f.experience, MinExperience) then Outcome(g.(error := Some(ExperienceShort)), None)
      else if !signedIn then Outcome(g.(error := Some(NoSession)), None)
      else Outcome(g, Some(Sent(f)))
  }

  /** The Back button: clear the error and return to the previous step. It
      is not rendered on the first step. */
  function BackStep(f: Form): Form {
    StepsFacts(f.step);
    var p := Previous(Steps, f.step);
    if p.None? then f else f.(step := p.value, error := None)
  }

  /** One event. Each input belongs to one step; the proficiency dropdown
      offers the `LANGUAGE_PROFICIENCY` values. */
  function Handle(f: Form, e: Event, signedIn: bool): (r: Outcome)
    ensures r.sent.Some? ==> e.Next? && f.step == Experience
    ensures !e.Next? ==> r.sent.None?
  {
    match e
    case EditIntro(t) => Outcome(if f.step == Intro then f.(intro := t) else f, None)
    case ClickLanguage(l) => Outcome(if f.step == Languages then f.(picks := Pick(f.picks, l)) else f, None)
    case ChooseProficiency(i, v) =>
      Outcome(if f.step == Languages && v in ProficiencyLevels then f.(picks := SetProficiency(f.picks, i, v)) else f, None)
    case EditExperience(t) => Outcome(if f.step == Experience then f.(experience := t) else f, None)
    case Next => NextStep(f, signedIn)
    case Back => Outcome(BackStep(f), None)
  }

  /** What every form reached from `Initial` satisfies: the rows are in sync
      with the picks, proficiencies are dropdown values, and every step
      before the current one passed its check. */
  predicate Consistent(f: Form) {
    && InSync(f.picks) && LevelsFrom(f.picks.details, ProficiencyLevels)
    && (Index(f.step) >= 1 ==> LongEnough(f.intro, MinIntro))
    && (Index(f.step) >= 2 ==> |f.picks.selected| > 0 && AllHaveProficiency(f.picks.details))
  }

  /** The steps are three distinct values, each at its index, and the
      counter shows index + 1 of 3. */
  lemma {:induction false} StepsFacts(s: Step)
    ensures NoDuplicates(Steps) && |Steps| == 3
    ensures s in Steps && Steps[Index(s)] == s
    ensures StepNumber(Steps, s) == Index(s) + 1
  {
    IndexOfDistinct(Steps, Index(s));
  }

  /** The form starts on the first step, counted 1, in a consistent state. */
  lemma {:induction false} InitialFacts()
    ensures Consistent(Initial) && StepNumber(Steps, Initial.step) == 1
  {
    StepsFacts(Initial.step);
  }

  /** Back is not offered on "intro"; elsewhere it clears the error, goes
      exactly one step back and keeps every field. */
  lemma {:induction false} BackFacts(f: Form)
    ensures f.step == Intro ==> BackStep(f) == f
    ensures f.step != Intro ==>
              Index(BackStep(f).step) == Index(f.step) - 1 && BackStep(f) == f.(step := BackStep(f).step, error := None)
  {
    StepsFacts(f.step);
    PreviousFacts(Steps, f.step);
    if f.step != Intro {
      StepsFacts(Previous(Steps, f.step).value);
    }
  }

  /** Next on "intro" passes exactly when the trimmed intro has at least 180
      code units; Next on "experience" sends the application exactly when
      the trimmed experience has at least 240 and there is a session, the
      length being checked first. */
  lemma {:induction false} TextStepsIff(f: Form, signedIn: bool)
    ensures f.step == Intro ==>
              (NextStep(f, signedIn).form.step == Languages <==> Utf16Length(Trim(f.intro)) >= 180)
    ensures f.step == Experience ==>
              (NextStep(f, signedIn).sent == Some(Sent(f)) <==> Utf16Length(Trim(f.experience)) >= 240 && signedIn)
              && (Utf16Length(Trim(f.experience)) < 240 ==> NextStep(f, signedIn).form.error == Some(ExperienceShort))
  {
  }

  /** A text long enough for either check is not blank, so an intro that
      passed here would also pass the shorter forms' non-blank check. */
  lemma {:induction false} LongEnoughNotBlank(s: string, min: nat)
    requires min > 0 && LongEnough(s, min)
    ensures !IsBlank(s) && s != ""
  {
  }

  /** Next on "languages" passes exactly when a language is picked and each
      picked language has a row with a proficiency. */
  lemma {:induction false} LanguagesStepIff(f: Form, signedIn: bool)
    requires f.step == Languages && Consistent(f)
    ensures NextStep(f, signedIn).form.step == Experience <==>
              |f.picks.selected| > 0
              && forall i :: 0 <= i < |f.picks.selected| ==> Lookup(f.picks.details, f.picks.selected[i]).proficiency != ""
  {
    CheckLanguagesFacts(f.picks, NoLanguage, ProficiencyLevels);
  }

  /** Every event keeps the form consistent. */
  lemma {:induction false} HandleKeepsConsistent(f: Form, e: Event, signedIn: bool)
    requires Consistent(f)
    ensures Consistent(Handle(f, e, signedIn).form)
  {
    match e
    case ClickLanguage(l) =>
      if f.step == Languages { PickFacts(f.picks, l, ProficiencyLevels); }
    case ChooseProficiency(i, v) =>
      if f.step == Languages && v in ProficiencyLevels { SetProficiencyFacts(f.picks, i, v, ProficiencyLevels); }
    case Next =>
      if f.step == Languages { CheckLanguagesFacts(f.picks, NoLanguage, ProficiencyLevels); }
    case Back =>
      BackFacts(f);
    case _ =>
  }

  /** Every application this form sends is refused with 400 "Missing
      required fields" for an authenticated caller, and the store is left
      as it was: the body never carries a country. */
  lemma {:induction false} SentAlwaysRejected(f: Form, signedIn: bool, header: Option<string>, provider: map<string, Store.UserId>,
                           s: Store.Store, fault: bool)
    requires NextStep(f, signedIn).sent.Some?
    requires GetAuthenticatedUser(header, provider).Authenticated?
    ensures Apply(header, provider, s, AsApplyBody(Sent(f)), false, fault) == Answer(MissingFields, s)
  {
    ApplicationRequiredFields(Sent(f));
    ApplyRejectsIff(header, provider, s, AsApplyBody(Sent(f)), false, fault);
  }
}

=== FILE: tutor_search.dfy ===
/** `GET /api/tutors` (src/app/api/tutors/route.ts): the public tutor search.
    Query parameters are read as optional strings; the tutor-profile table,
    joined with each tutor's user row, teaching languages and availability
    rows, is the input `tutors` in database order; each tutor's average
    rating (already defaulted to 0 when the average is null) is the oracle
    `ratings`, holding only tutors that have ratings. The route counts the
    tutors that pass the filters, takes one page of them, drops the page's
    tutors whose rating is outside [minRating, maxRating], and reports each
    survivor with its rating and next available slot. */
module TutorSearch {
  import opened Common
  import opened Numbers
  import opened Store
  import opened Http
  import opened NextSlot

  // ---------------------------------------------------------------------------
  // Inputs and outputs
  // ---------------------------------------------------------------------------

  /** The query string; an absent parameter is `None`. */
  datatype Query = Query(page: Option<string>, pageSize: Option<string>, languages: Option<string>,
                         minRating: Option<string>, maxRating: Option<string>, native: Option<string>,
                         country: Option<string>, dayOfWeek: Option<string>,
                         startMinute: Option<string>, endMinute: Option<string>)

  /** A `TutorLanguage` row joined with its language. */
  datatype TutorLanguage = TutorLanguage(language: Language, proficiency: Proficiency, teaching: bool)

  /** A tutor profile joined with what the search reads. */
  datatype TutorRecord = TutorRecord(user: UserId, active: bool, userActive: bool, country: Option<string>,
                                     intro: string, teachingExperience: string,
                                     languages: seq<TutorLanguage>, availability: seq<Availability>)

  /** One entry of `results`; `rating` is `null` (None) for a tutor without
      ratings. */
  datatype TutorResult = TutorResult(id: UserId, country: Option<string>, intro: string,
                                     teachingExperience: string, languages: seq<TutorLanguage>,
                                     rating: Option<real>, nextAvailableSlot: Option<int>)

  /** The response body. */
  datatype SearchPage = SearchPage(page: int, pageSize: int, total: int, results: seq<TutorResult>)

  // ---------------------------------------------------------------------------
  // Pagination parameters
  // ---------------------------------------------------------------------------

  /** `parseInt(page ?? "1", 10) || 1`: never 0, 1 when missing, zero or not
      a number. */
  function PageOf(p: Option<string>): (r: int)
    ensures r != 0
    ensures p.None? ==> r == 1
    ensures p.Some? && (ParseInt(p.value).None? || ParseInt(p.value) == Some(0)) ==> r == 1
    ensures p.Some? && ParseInt(p.value).Some? && ParseInt(p.value).value != 0 ==> r == ParseInt(p.value).value
  {
    assert ParseInt("1") == Some(1) by { ParseIntOfDigits("1"); }
    OrDefault(ParseInt(p.GetOr("1")), 1)
  }

  /** The page size: `parseInt(pageSize ?? "10", 10) || 10`, capped at 50. */
  function PageSizeOf(p: Option<string>): (r: int)
    ensures r != 0 && r <= 50
    ensures p.None? ==> r == 10
    ensures p.Some? && (ParseInt(p.value).None? || ParseInt(p.value) == Some(0)) ==> r == 10
    ensures p.Some? && ParseInt(p.value).Some? && ParseInt(p.value).value != 0 ==>
              r == if ParseInt(p.value).value < 50 then ParseInt(p.value).value else 50
  {
    assert ParseInt("10") == Some(10) by { ParseIntOfDigits("10"); }
    var n := OrDefault(ParseInt(p.GetOr("10")), 10);
    if n < 50 then n else 50
  }

  /** The page size the route should use: the parsed size raised to 1 when
      it is negative, so that every page holds 1 to 50 rows. */
  function BoundedPageSize(p: Option<string>): (r: nat)
    ensures 1 <= r <= 50
    ensures PageSizeOf(p) > 0 ==> r == PageSizeOf(p)
    ensures PageSizeOf(p) < 0 ==> r == 1
  {
    var n := PageSizeOf(p);
    if n < 1 then 1 else n
  }

  /** The page the ORM returns for a non-negative `skip` and `take`: the
      `take` rows from position `skip` on, or all that remain. */
  function Slice<T>(xs: seq<T>, skip: nat, take: nat): (r: seq<T>)
    ensures skip + take <= |xs| ==> |r| == take
    ensures skip + take > |xs| ==> |r| == if skip < |xs| then |xs| - skip else 0
    ensures forall i :: 0 <= i < |r| ==> skip + i < |xs| && r[i] == xs[skip + i]
  {
    if skip >= |xs| then []
    else if skip + take <= |xs| then xs[skip..skip + take]
    else xs[skip..]
  }

  /** The ORM's `skip`/`take` window for any `take`. A negative `take` reads
      the list from its end: the last `skip` rows are skipped and up to
      `-take` rows before them are returned, in list order. */
  function TakeWindow<T>(xs: seq<T>, skip: nat, take: int): (r: seq<T>)
    ensures take >= 0 ==> r == Slice(xs, skip, take)
    ensures take < 0 && skip - take <= |xs| ==> |r| == -take
    ensures take < 0 && skip - take > |xs| ==> |r| == if skip < |xs| then |xs| - skip else 0
    ensures take < 0 ==> forall i :: 0 <= i < |r| ==> |xs| - skip - |r| + i >= 0 && r[i] == xs[|xs| - skip - |r| + i]
  {
    if take >= 0 then Slice(xs, skip, take)
    else if skip >= |xs| then []
    else
      var end := |xs| - skip;
      var start := if end + take < 0 then 0 else end + take;
      xs[start..end]
  }

  // ---------------------------------------------------------------------------
  // Filters
  // ---------------------------------------------------------------------------

  /** The non-empty trimmed fields of a comma-separated list, in order. */
  function NonEmptyTrimmed(parts: seq<string>): (r: seq<string>)
    ensures |r| <= |parts|
    ensures forall i :: 0 <= i < |r| ==> r[i] != ""
    ensures forall f :: f in r <==> f != "" && exists i :: 0 <= i < |parts| && Trim(parts[i]) == f
  {
    if parts == [] then []
    else
      var rest := NonEmptyTrimmed(parts[1..]);
      var t := Trim(parts[0]);
      if t == "" then rest else [t] + rest
  }

  /** The requested languages: none for an absent or empty parameter. */
  function LanguagesList(raw: Option<string>): seq<string> {
    if raw.None? || raw.value == "" then [] else NonEmptyTrimmed(Split(raw.value, ','))
  }

  /** The availability window asked for: a day and a [start, end] range in
      minutes. */
  datatype Window = Window(day: int, start: int, end: int)

  /** What the query asks of a tutor. */
  datatype Criteria = Criteria(country: Option<string>, languages: seq<string>, native: bool, window: Option<Window>)

  /** The criteria of a query, or `None` when the query cannot be run: a
      valid day with a start or end minute that is not a number. */
  function CriteriaOf(q: Query): Option<Criteria> {
    var country := if q.country.Some? && q.country.value != "" then q.country else None;
    var native := q.native == Some("true");
    var day := if q.dayOfWeek.Some? then ParseInt(q.dayOfWeek.value) else None;
    if day.None? || !(0 <= day.value <= 6) then
      Some(Criteria(country, LanguagesList(q.languages), native, None))
    else
      var qs := ParseInt(q.startMinute.GetOr("0"));
      var qe := ParseInt(q.endMinute.GetOr("1439"));
      if qs.None? || qe.None? then None
      else Some(Criteria(country, LanguagesList(q.languages), native, Some(Window(day.value, qs.value, qe.value))))
  }

  /** Two minute intervals [s, e] and [qs, qe] overlap. */
  predicate Overlaps(s: int, e: int, qs: int, qe: int) {
    s <= qe && e >= qs
  }

  /** An availability row that satisfies the window filter. */
  predicate WindowMatches(a: Availability, w: Window) {
    a.kind == TutorAvailability && a.active && a.day == w.day && Overlaps(a.start, a.end, w.start, w.end)
  }

  /** A tutor-language entry that satisfies the language filter: when
      languages are asked for, a teaching entry whose code, id or name is
      one of them; with `native`, the same entry must be NATIVE. */
  predicate EntryMatches(tl: TutorLanguage, c: Criteria) {
    && (|c.languages| > 0 ==>
          tl.teaching && (tl.language.code in c.languages || tl.language.id in c.languages
                          || tl.language.name in c.languages))
    && (c.native ==> tl.proficiency == Native)
  }

  /** The whole `where` clause. */
  predicate TutorMatches(t: TutorRecord, c: Criteria) {
    && t.active && t.userActive
    && (c.country.Some? ==> t.country == c.country)
    && (|c.languages| > 0 || c.native ==> exists i :: 0 <= i < |t.languages| && EntryMatches(t.languages[i], c))
    && (c.window.Some? ==> exists i :: 0 <= i < |t.availability| && WindowMatches(t.availability[i], c.window.value))
  }

  /** The matching tutors, in order. */
  function Matching(tutors: seq<TutorRecord>, c: Criteria): (r: seq<TutorRecord>)
    ensures |r| <= |tutors|
  {
    if tutors == [] then []
    else
      var rest := Matching(tutors[1..], c);
      if TutorMatches(tutors[0], c) then [tutors[0]] + rest else rest
  }

  // ---------------------------------------------------------------------------
  // Ratings and results
  // ---------------------------------------------------------------------------

  /** `ratingsMap[id] ?? 0`. */
  function RatingOf(ratings: map<UserId, real>, user: UserId): real {
    if user in ratings then ratings[user] else 0.0
  }

  /** The rating window; a bound that is not a number lets no tutor through. */
  predicate InRatingWindow(rating: real, minRating: Option<int>, maxRating: Option<int>) {
    minRating.Some? && maxRating.Some? && minRating.value as real <= rating <= maxRating.value as real
  }

  /** The page's tutors whose rating lies in the window, in order. */
  function RatingFiltered(page: seq<TutorRecord>, ratings: map<UserId, real>, minRating: Option<int>,
                          maxRating: Option<int>): (r: seq<TutorRecord>)
    ensures |r| <= |page|
  {
    if page == [] then []
    else
      var rest := RatingFiltered(page[1..], ratings, minRating, maxRating);
      if InRatingWindow(RatingOf(ratings, page[0].user), minRating, maxRating) then [page[0]] + rest else rest
  }

  /** One result entry. */
  function ResultOf(t: TutorRecord, ratings: map<UserId, real>, now: int): TutorResult {
    TutorResult(t.user, t.country, t.intro, t.teachingExperience, TeachingOnly(t.languages),
                if t.user in ratings then Some(ratings[t.user]) else None,
                NextAvailableSlot(t.availability, now))
  }

  /** The tutor's teaching languages, in order. */
  function TeachingOnly(langs: seq<TutorLanguage>): (r: seq<TutorLanguage>)
    ensures |r| <= |langs|
    ensures forall tl :: tl in r <==> tl in langs && tl.teaching
  {
    if langs == [] then []
    else
      var rest := TeachingOnly(langs[1..]);
      if langs[0].teaching then [langs[0]] + rest else rest
  }

  /** The results, one per tutor, in order. */
  function Results(ts: seq<TutorRecord>, ratings: map<UserId, real>, now: int): (r: seq<TutorResult>)
    ensures |r| == |ts|
  {
    if ts == [] then [] else [ResultOf(ts[0], ratings, now)] + Results(ts[1..], ratings, now)
  }

  /** The page of a successful search: the `paged` rows of the matching
      tutors, less those outside the rating window, as results; `total`
      counts all matching tutors. */
  function PageReply(q: Query, page: int, size: int, matching: seq<TutorRecord>, paged: seq<TutorRecord>,
                     ratings: map<UserId, real>, now: int): (r: Reply<SearchPage>)
    ensures r.Success? && r.body.page == page && r.body.pageSize == size && r.body.total == |matching|
    ensures |r.body.results| <= |paged|
  {
    var kept := RatingFiltered(paged, ratings, ParseInt(q.minRating.GetOr("0")), ParseInt(q.maxRating.GetOr("5")));
    Success(SearchPage(page, size, |matching|, Results(kept, ratings, now)))
  }

  /** The route as written. A negative skip, or a minute bound that is not a
      number, is refused by the database and answers 500, as does a store
      failure (`fault`). A negative page size passes the cap of 50 and
      reaches the ORM as a negative `take`, which reads backwards from the
      end of the list. `now` is the current time in minutes. */
  function SearchAsWritten(q: Query, tutors: seq<TutorRecord>, ratings: map<UserId, real>, now: int, fault: bool)
    : (r: Reply<SearchPage>)
    ensures r.Failure? ==> r == Failure(500, InternalError)
    ensures r.Success? ==> r.body.pageSize != 0 && r.body.pageSize <= 50
    ensures r.Success? ==> |r.body.results| <= if r.body.pageSize < 0 then -r.body.pageSize else r.body.pageSize
    ensures r.Success? ==> 0 <= r.body.total <= |tutors|
  {
    var page := PageOf(q.page);
    var size := PageSizeOf(q.pageSize);
    var c := CriteriaOf(q);
    var skip := (page - 1) * size;
    if fault || c.None? || skip < 0 then Failure(500, InternalError)
    else
      var matching := Matching(tutors, c.value);
      PageReply(q, page, size, matching, TakeWindow(matching, skip, size), ratings, now)
  }

  /** The route with the page size kept between 1 and 50. Failures are as
      in `SearchAsWritten`. */
  function Search(q: Query, tutors: seq<TutorRecord>, ratings: map<UserId, real>, now: int, fault: bool)
    : (r: Reply<SearchPage>)
    ensures r.Failure? ==> r == Failure(500, InternalError)
    ensures r.Success? ==> 1 <= r.body.pageSize <= 50 && |r.body.results| <= r.body.pageSize
    ensures r.Success? ==> 0 <= r.body.total <= |tutors|
  {
    var page := PageOf(q.page);
    var size := BoundedPageSize(q.pageSize);
    var c := CriteriaOf(q);
    var skip := (page - 1) * size;
    if fault || c.None? || skip < 0 then Failure(500, InternalError)
    else
      var matching := Matching(tutors, c.value);
      PageReply(q, page, size, matching, Slice(matching, skip, size), ratings, now)
  }

  // ---------------------------------------------------------------------------
  // Properties
  // ---------------------------------------------------------------------------

  /** A query without parameters reads page 1 of size 10 and filters on
      nothing but the active flags. */
  lemma {:induction false} DefaultQuery()
    ensures var q := Query(None, None, None, None, None, None, None, None, None, None);
      && PageOf(q.page) == 1 && PageSizeOf(q.pageSize) == 10
      && CriteriaOf(q) == Some(Criteria(None, [], false, None))
  {
  }

  /** The window filter applies only when `dayOfWeek` parses to 0-6. */
  lemma {:induction false} WindowOnlyForValidDay(q: Query)
    requires q.dayOfWeek.None? || ParseInt(q.dayOfWeek.value).None? || !(0 <= ParseInt(q.dayOfWeek.value).value <= 6)
    ensures CriteriaOf(q).Some? && CriteriaOf(q).value.window.None?
  {
  }

  /** For a valid day the minute bounds default to 0 and 1439. */
  lemma {:induction false} WindowDefaults(q: Query, day: int)
    requires q.dayOfWeek.Some? && ParseInt(q.dayOfWeek.value) == Some(day) && 0 <= day <= 6
    requires q.startMinute.None? && q.endMinute.None?
    ensures CriteriaOf(q).Some? && CriteriaOf(q).value.window == Some(Window(day, 0, 1439))
  {
    DefaultRatingBounds();
    LastMinuteParses();
  }

  /** "1439" reads as 1439, the last minute of a day. */
  lemma {:induction false} LastMinuteParses()
    ensures ParseInt("1439") == Some(1439)
  {
    assert AllDigits("1439") by {
      forall i | 0 <= i < 4 ensures IsDigit("1439"[i]) {}
    }
    ParseIntOfDigits("1439");
    assert ParseDigits("1439") == 1439 by {
      assert "1439"[..3] == "143" && "143"[..2] == "14" && "14"[..1] == "1" && "1"[..0] == "";
    }
  }

  /** Overlap is symmetric, and every non-empty window overlaps itself. */
  lemma {:induction false} OverlapSymmetric(s: int, e: int, qs: int, qe: int)
    ensures Overlaps(s, e, qs, qe) <==> Overlaps(qs, qe, s, e)
    ensures s <= e ==> Overlaps(s, e, s, e)
  {
  }

  /** The query 550-590 matches a 540-600 window on the same day and misses
      a 601-700 one; inactive rows and student rows never match. */
  lemma {:induction false} OverlapExample(user: UserId, tz: Option<string>)
    ensures WindowMatches(Availability(user, TutorAvailability, 2, 540, 600, tz, true), Window(2, 550, 590))
    ensures !WindowMatches(Availability(user, TutorAvailability, 2, 601, 700, tz, true), Window(2, 550, 590))
    ensures !WindowMatches(Availability(user, TutorAvailability, 2, 540, 600, tz, false), Window(2, 550, 590))
    ensures !WindowMatches(Availability(user, StudentAvailability, 2, 540, 600, tz, true), Window(2, 550, 590))
  {
  }

  /** With `native`, the NATIVE proficiency must sit on the entry that
      matches the language: a tutor teaching "yo" at BEGINNER and "fr" as a
      native speaker does not match a native search for "yo", while it
      matches a search for "yo" alone. */
  lemma {:induction false} NativeOnSameEntry(yo: Language, fr: Language, t: TutorRecord)
    requires yo.code == "yo" && fr.code == "fr" && fr.id != "yo" && fr.name != "yo"
    requires t.active && t.userActive
    requires t.languages == [TutorLanguage(yo, Beginner, true), TutorLanguage(fr, Native, true)]
    ensures !TutorMatches(t, Criteria(None, ["yo"], true, None))
    ensures TutorMatches(t, Criteria(None, ["yo"], false, None))
  {
    assert EntryMatches(t.languages[0], Criteria(None, ["yo"], false, None));
    assert !EntryMatches(t.languages[1], Criteria(None, ["yo"], true, None));
  }

  /** A tutor is counted exactly when it is in the input and passes every
      filter. */
  lemma {:induction false} MatchingFacts(tutors: seq<TutorRecord>, c: Criteria, t: TutorRecord)
    ensures t in Matching(tutors, c) <==> t in tutors && TutorMatches(t, c)
  {
    if tutors != [] {
      MatchingFacts(tutors[1..], c, t);
      assert tutors == [tutors[0]] + tutors[1..];
    }
  }

  /** A page tutor survives exactly when its rating, 0 without ratings, lies
      in the window. */
  lemma {:induction false} RatingFilteredFacts(page: seq<TutorRecord>, ratings: map<UserId, real>,
                                               minRating: Option<int>, maxRating: Option<int>, t: TutorRecord)
    ensures t in RatingFiltered(page, ratings, minRating, maxRating) <==>
              t in page && InRatingWindow(RatingOf(ratings, t.user), minRating, maxRating)
  {
    if page != [] {
      RatingFilteredFacts(page[1..], ratings, minRating, maxRating, t);
      assert page == [page[0]] + page[1..];
    }
  }

  /** Each result reports its tutor's id, the rating if the tutor has one
      (else `null`), and the tutor's next slot. */
  lemma {:induction false} ResultsFacts(ts: seq<TutorRecord>, ratings: map<UserId, real>, now: int, i: int)
    requires 0 <= i < |ts|
    ensures Results(ts, ratings, now)[i].id == ts[i].user
    ensures Results(ts, ratings, now)[i].rating == (if ts[i].user in ratings then Some(ratings[ts[i].user]) else None)
    ensures Results(ts, ratings, now)[i].nextAvailableSlot == NextAvailableSlot(ts[i].availability, now)
  {
    if i > 0 {
      ResultsFacts(ts[1..], ratings, now, i - 1);
    }
  }

  /** `total` counts every tutor that passes the filters, before pagination
      and before the rating window, so it does not depend on the ratings or
      the clock. */
  lemma {:induction false} TotalBeforeRatings(q: Query, tutors: seq<TutorRecord>, ratings: map<UserId, real>, ratings': map<UserId, real>,
                           now: int, now': int)
    requires Search(q, tutors, ratings, now, false).Success?
    ensures CriteriaOf(q).Some?
    ensures Search(q, tutors, ratings, now, false).body.total == |Matching(tutors, CriteriaOf(q).value)|
    ensures Search(q, tutors, ratings', now', false).Success?
    ensures Search(q, tutors, ratings', now', false).body.total == Search(q, tutors, ratings, now, false).body.total
  {
  }

  /** The rating window is applied after pagination: a tutor is listed
      exactly when it is on the requested page of matching tutors and its
      rating lies in the window, so a page can come back shorter than the
      page size although later pages hold tutors in the window. */
  lemma {:induction false} RatingAfterPagination(q: Query, tutors: seq<TutorRecord>, ratings: map<UserId, real>, now: int,
                              t: TutorRecord)
    requires Search(q, tutors, ratings, now, false).Success?
    ensures CriteriaOf(q).Some?
    ensures var page := PageOf(q.page);
      var size := BoundedPageSize(q.pageSize);
      var paged := Slice(Matching(tutors, CriteriaOf(q).value), (page - 1) * size, size);
      var kept := RatingFiltered(paged, ratings, ParseInt(q.minRating.GetOr("0")), ParseInt(q.maxRating.GetOr("5")));
      && Search(q, tutors, ratings, now, false).body.results == Results(kept, ratings, now)
      && (t in kept <==> t in paged
                         && InRatingWindow(RatingOf(ratings, t.user), ParseInt(q.minRating.GetOr("0")),
                                           ParseInt(q.maxRating.GetOr("5"))))
  {
    var page := PageOf(q.page);
    var size := BoundedPageSize(q.pageSize);
    SearchPaged(q, tutors, ratings, now);
    var paged := Slice(Matching(tutors, CriteriaOf(q).value), (page - 1) * size, size);
    RatingFilteredFacts(paged, ratings, ParseInt(q.minRating.GetOr("0")), ParseInt(q.maxRating.GetOr("5")), t);
  }

  /** A successful search is the reply for the bounded window of the matching
      tutors. */
  lemma {:induction false} SearchPaged(q: Query, tutors: seq<TutorRecord>, ratings: map<UserId, real>, now: int)
    requires Search(q, tutors, ratings, now, false).Success?
    ensures CriteriaOf(q).Some?
    ensures var page := PageOf(q.page);
      var size := BoundedPageSize(q.pageSize);
      var matching := Matching(tutors, CriteriaOf(q).value);
      Search(q, tutors, ratings, now, false) == PageReply(q, page, size, matching, Slice(matching, (page - 1) * size, size), ratings, now)
  {
  }

  /** A tutor without ratings counts as 0: it passes the default window
      [0, 5] and reports `rating: null`. */
  lemma {:induction false} UnratedTutor(t: TutorRecord, ratings: map<UserId, real>, now: int)
    requires t.user !in ratings
    ensures InRatingWindow(RatingOf(ratings, t.user), ParseInt("0"), ParseInt("5"))
    ensures ResultOf(t, ratings, now).rating.None?
  {
    assert AllDigits("0") by {
      forall i | 0 <= i < 1 ensures IsDigit("0"[i]) {}
    }
    assert AllDigits("5") by {
      forall i | 0 <= i < 1 ensures IsDigit("5"[i]) {}
    }
    ParseIntOfDigits("0");
    ParseIntOfDigits("5");
    assert "0"[..0] == "" && "5"[..0] == "";
  }

  /** A minimum rating that is not a number lets no tutor through. */
  lemma {:induction false} NaNRatingBoundKeepsNone(page: seq<TutorRecord>, ratings: map<UserId, real>, maxRating: Option<int>)
    ensures RatingFiltered(page, ratings, None, maxRating) == []
  {
    if page != [] {
      NaNRatingBoundKeepsNone(page[1..], ratings, maxRating);
    }
  }

  /** The filter keeps the order of the fields: it distributes over
      concatenation and keeps one field exactly when it trims to a non-empty
      text. */
  lemma {:induction false} NonEmptyTrimmedAppend(a: seq<string>, b: seq<string>)
    ensures NonEmptyTrimmed(a + b) == NonEmptyTrimmed(a) + NonEmptyTrimmed(b)
    ensures forall f :: NonEmptyTrimmed([f]) == if Trim(f) == "" then [] else [Trim(f)]
  {
    if a != [] {
      assert (a + b)[1..] == a[1..] + b;
      NonEmptyTrimmedAppend(a[1..], b);
    } else {
      assert a + b == b;
    }
  }

  /** The teaching filter keeps the order of the entries: it distributes
      over concatenation and keeps one entry exactly when it is a teaching
      entry. */
  lemma {:induction false} TeachingOnlyAppend(a: seq<TutorLanguage>, b: seq<TutorLanguage>)
    ensures TeachingOnly(a + b) == TeachingOnly(a) + TeachingOnly(b)
    ensures forall tl :: TeachingOnly([tl]) == if tl.teaching then [tl] else []
  {
    if a != [] {
      assert (a + b)[1..] == a[1..] + b;
      TeachingOnlyAppend(a[1..], b);
    } else {
      assert a + b == b;
    }
  }

  /** Every matching tutor is kept when all tutors are active and no filter
      is asked for. */
  lemma {:induction false} UnfilteredMatchesAll(tutors: seq<TutorRecord>)
    requires forall i :: 0 <= i < |tutors| ==> tutors[i].active && tutors[i].userActive
    ensures Matching(tutors, Criteria(None, [], false, None)) == tutors
  {
    if tutors != [] {
      UnfilteredMatchesAll(tutors[1..]);
    }
  }

  /** The default rating window [0, 5] keeps every unrated tutor. */
  lemma {:induction false} DefaultWindowKeepsUnrated(page: seq<TutorRecord>, ratings: map<UserId, real>)
    requires forall i :: 0 <= i < |page| ==> page[i].user !in ratings
    ensures RatingFiltered(page, ratings, Some(0), Some(5)) == page
  {
    if page != [] {
      DefaultWindowKeepsUnrated(page[1..], ratings);
    }
  }

  /** The two routes agree whenever the parsed page size is positive. */
  lemma {:induction false} SearchAgreesForPositiveSize(q: Query, tutors: seq<TutorRecord>, ratings: map<UserId, real>, now: int,
                                    fault: bool)
    requires PageSizeOf(q.pageSize) > 0
    ensures Search(q, tutors, ratings, now, fault) == SearchAsWritten(q, tutors, ratings, now, fault)
  {
  }

  /** `?pageSize=-1000` over more than 50 active, unrated tutors: the route
      as written answers with more than 50 results, up to 1000, past the cap
      of 50 per page. */
  lemma {:induction false} NegativePageSizeBypassesCap(tutors: seq<TutorRecord>, ratings: map<UserId, real>, now: int)
    requires 50 < |tutors|
    requires forall i :: 0 <= i < |tutors| ==> tutors[i].active && tutors[i].userActive && tutors[i].user !in ratings
    ensures var r := SearchAsWritten(Query(None, Some("-1000"), None, None, None, None, None, None, None, None),
                                     tutors, ratings, now, false);
      && r.Success?
      && |r.body.results| == (if |tutors| < 1000 then |tutors| else 1000)
      && |r.body.results| > 50
  {
    var q := Query(None, Some("-1000"), None, None, None, None, None, None, None, None);
    MinusThousandQueryFacts(q);
    UnfilteredMatchesAll(tutors);
    var paged := TakeWindow(tutors, 0, -1000);
    assert |paged| == (if |tutors| < 1000 then |tutors| else 1000);
    assert forall i :: 0 <= i < |paged| ==> paged[i].user !in ratings;
    DefaultWindowKeepsUnrated(paged, ratings);
    assert SearchAsWritten(q, tutors, ratings, now, false) == PageReply(q, 1, -1000, tutors, paged, ratings, now);
  }

  /** The same query on the bounded route answers with a page of one. */
  lemma {:induction false} NegativePageSizeBounded(tutors: seq<TutorRecord>, ratings: map<UserId, real>, now: int)
    requires 50 < |tutors|
    requires forall i :: 0 <= i < |tutors| ==> tutors[i].active && tutors[i].userActive && tutors[i].user !in ratings
    ensures var r := Search(Query(None, Some("-1000"), None, None, None, None, None, None, None, None),
                            tutors, ratings, now, false);
      r.Success? && r.body.pageSize == 1 && |r.body.results| == 1
  {
    var q := Query(None, Some("-1000"), None, None, None, None, None, None, None, None);
    MinusThousandQueryFacts(q);
    UnfilteredMatchesAll(tutors);
    var paged := Slice(tutors, 0, 1);
    assert |paged| == 1 && paged[0].user !in ratings;
    DefaultWindowKeepsUnrated(paged, ratings);
    assert Search(q, tutors, ratings, now, false) == PageReply(q, 1, 1, tutors, paged, ratings, now);
  }

  /** The query `?pageSize=-1000` alone: page 1, no filter, the default
      rating window, a page size of -1000 as written and 1 once bounded. */
  lemma {:induction false} MinusThousandQueryFacts(q: Query)
    requires q == Query(None, Some("-1000"), None, None, None, None, None, None, None, None)
    ensures PageOf(q.page) == 1 && CriteriaOf(q) == Some(Criteria(None, [], false, None))
    ensures PageSizeOf(q.pageSize) == -1000 && BoundedPageSize(q.pageSize) == 1
    ensures ParseInt(q.minRating.GetOr("0")) == Some(0) && ParseInt(q.maxRating.GetOr("5")) == Some(5)
  {
    MinusThousandPageSize();
    DefaultRatingBounds();
  }

  /** `?pageSize=-1000` parses to -1000 and passes the cap. */
  lemma {:induction false} MinusThousandPageSize()
    ensures PageSizeOf(Some("-1000")) == -1000
  {
    ParseIntOfToString(-1000);
    assert IntToString(-1000) == "-1000";
  }

  /** The rating bounds default to 0 and 5. */
  lemma {:induction false} DefaultRatingBounds()
    ensures ParseInt("0") == Some(0) && ParseInt("5") == Some(5)
  {
    assert AllDigits("0") by {
      forall i | 0 <= i < 1 ensures IsDigit("0"[i]) {}
    }
    assert AllDigits("5") by {
      forall i | 0 <= i < 1 ensures IsDigit("5"[i]) {}
    }
    ParseIntOfDigits("0");
    ParseIntOfDigits("5");
    assert "0"[..0] == "" && "5"[..0] == "";
  }
}

=== FILE: user_apply_form.dfy ===
/** The three-step tutor application under /user
    (src/app/user/apply/form/page.tsx): intro, languages and experience.
    Next on the experience step submits the application, and the body has
    no `country` key, so the apply route refuses every application this
    form sends. The route's answer to the request is not part of this
    model. */
module UserApplyWizard {
  import opened Common
  import opened Auth
  import opened Http
  import opened OnboardingRoute
  import opened ApplyRoute
  import opened Wizard
  import Store

  /** `ApplicationStep`. */
  datatype Step = Intro | Languages | Experience

  /** `steps`, in order. */
  const Steps: seq<Step> := [Intro, Languages, Experience]

  /** The position of a step in `Steps`. */
  function Index(s: Step): nat {
    match s
    case Intro => 0
    case Languages => 1
    case Experience => 2
  }

  /** The form's state. */
  datatype Form = Form(step: Step, intro: string, picks: LanguagePicks, experience: string, error: Option<string>)

  /** The form as it first appears. */
  const Initial: Form := Form(Intro, "", NoPicks, "", None)

  /** What the user can do. */
  datatype Event =
    | EditIntro(text: string)
    | ClickLanguage(language: string)
    | ChooseProficiency(index: int, value: string)
    | EditExperience(text: string)
    | Next
    | Back

  /** The form after an event, and the application it sent, if any. */
  datatype Outcome = Outcome(form: Form, sent: Option<Application>)

  const IntroMissing: string := "Please provide a short introduction."
  const NoLanguage: string := "Select at least one language you teach."
  const ExperienceMissing: string := "Describe your teaching experience."
  const NoSession: string := "You must be signed in to apply."

  /** The submitted JSON: intro, language rows and experience. */
  function Sent(f: Form): Application {
    Application(f.intro, f.picks.details, f.experience, None)
  }

  /** `handleNext`, which calls `handleSubmit` once the experience passes. */
  function NextStep(f: Form, signedIn: bool): (r: Outcome)
    ensures r.form.error.Some? ==> r.form.step == f.step && r.sent.None?
    ensures r.sent.Some? ==> f.step == Experience && signedIn && r.form.error.None?
    ensures r.form.step != f.step ==> Index(r.form.step) == Index(f.step) + 1 && r.form.error.None?
  {
    var g := f.(error := None);
    match f.step
    case Intro =>
      if IsBlank(f.intro) then Outcome(g.(error := Some(IntroMissing)), None)
      else Outcome(g.(step := Languages), None)
    case Languages =>
      var c := CheckLanguages(f.picks, NoLanguage);
      if c.error.Some? then Outcome(g.(picks := c.picks, error := c.error), None)
      else Outcome(g.(picks := c.picks, step := Experience), None)
    case Experience =>
      if IsBlank(f.experience) then Outcome(g.(error := Some(ExperienceMissing)), None)
      else if !signedIn then Outcome(g.(error := Some(NoSession)), None)
      else Outcome(g, Some(Sent(f)))
  }

  /** The Back button: clear the error and return to the previous step. It
      is not rendered on the first step. */
  function BackStep(f: Form): Form {
    StepsFacts(f.step);
    var p := Previous(Steps, f.step);
    if p.None? then f else f.(step := p.value, error := None)
  }

  /** One event. Each input belongs to one step; the proficiency `<select>`
      offers "native", "fluent", "intermediate" and "beginner". */
  function Handle(f: Form, e: Event, signedIn: bool): (r: Outcome)
    ensures r.sent.Some? ==> e.Next? && f.step == Experience
    ensures !e.Next? ==> r.sent.None?
  {
    match e
    case EditIntro(t) => Outcome(if f.step == Intro then f.(intro := t) else f, None)
    case ClickLanguage(l) => Outcome(if f.step == Languages then f.(picks := Pick(f.picks, l)) else f, None)
    case ChooseProficiency(i, v) =>
      Outcome(if f.step == Languages && v in SelectLevels then f.(picks := SetProficiency(f.picks, i, v)) else f, None)
    case EditExperience(t) => Outcome(if f.step == Experience then f.(experience := t) else f, None)
    case Next => NextStep(f, signedIn)
    case Back => Outcome(BackStep(f), None)
  }

  /** What every form reached from `Initial` satisfies: the rows are in sync
      with the picks, proficiencies are option values, and every step before
      the current one passed its check. */
  predicate Consistent(f: Form) {
    && InSync(f.picks) && LevelsFrom(f.picks.details, SelectLevels)
    && (Index(f.step) >= 1 ==> !IsBlank(f.intro))
    && (Index(f.step) >= 2 ==> |f.picks.selected| > 0 && AllHaveProficiency(f.picks.details))
  }

  /** The steps are three distinct values, each at its index, and the
      counter shows index + 1 of 3. */
  lemma {:induction false} StepsFacts(s: Step)
    ensures NoDuplicates(Steps) && |Steps| == 3
    ensures s in Steps && Steps[Index(s)] == s
    ensures StepNumber(Steps, s) == Index(s) + 1
  {
    IndexOfDistinct(Steps, Index(s));
  }

  /** The form starts on the first step, counted 1, in a consistent state. */
  lemma {:induction false} InitialFacts()
    ensures Consistent(Initial) && StepNumber(Steps, Initial.step) == 1
  {
    StepsFacts(Initial.step);
  }

  /** Back is not offered on "intro"; elsewhere it clears the error, goes
      exactly one step back and keeps every field. */
  lemma {:induction false} BackFacts(f: Form)
    ensures f.step == Intro ==> BackStep(f) == f
    ensures f.step != Intro ==>
              Index(BackStep(f).step) == Index(f.step) - 1 && BackStep(f) == f.(step := BackStep(f).step, error := None)
  {
    StepsFacts(f.step);
    PreviousFacts(Steps, f.step);
    if f.step != Intro {
      StepsFacts(Previous(Steps, f.step).value);
    }
  }

  /** Next on "intro" passes exactly when the trimmed intro is non-empty;
      Next on "experience" sends the application exactly when the trimmed
      experience is non-empty and there is a session, the text being
      checked first. */
  lemma {:induction false} TextStepsIff(f: Form, signedIn: bool)
    ensures f.step == Intro ==> (NextStep(f, signedIn).form.step == Languages <==> !IsBlank(f.intro))
    ensures f.step == Experience ==>
              (NextStep(f, signedIn).sent == Some(Sent(f)) <==> !IsBlank(f.experience) && signedIn)
              && (IsBlank(f.experience) ==> NextStep(f, signedIn).form.error == Some(ExperienceMissing))
  {
  }

  /** Next on "languages" passes exactly when a language is picked and each
      picked language has a row with a proficiency. */
  lemma {:induction false} LanguagesStepIff(f: Form, signedIn: bool)
    requires f.step == Languages && Consistent(f)
    ensures NextStep(f, signedIn).form.step == Experience <==>
              |f.picks.selected| > 0
              && forall i :: 0 <= i < |f.picks.selected| ==> Lookup(f.picks.details, f.picks.selected[i]).proficiency != ""
  {
    CheckLanguagesFacts(f.picks, NoLanguage, SelectLevels);
  }

  /** Every event keeps the form consistent. */
  lemma {:induction false} HandleKeepsConsistent(f: Form, e: Event, signedIn: bool)
    requires Consistent(f)
    ensures Consistent(Handle(f, e, signedIn).form)
  {
    match e
    case ClickLanguage(l) =>
      if f.step == Languages { PickFacts(f.picks, l, SelectLevels); }
    case ChooseProficiency(i, v) =>
      if f.step == Languages && v in SelectLevels { SetProficiencyFacts(f.picks, i, v, SelectLevels); }
    case Next =>
      if f.step == Languages { CheckLanguagesFacts(f.picks, NoLanguage, SelectLevels); }
    case Back =>
      BackFacts(f);
    case _ =>
  }

  /** Every application this form sends is refused with 400 "Missing
      required fields" for an authenticated caller, and the store is left
      as it was: the body never carries a country. */
  lemma {:induction false} SentAlwaysRejected(f: Form, signedIn: bool, header: Option<string>, provider: map<string, Store.UserId>,
                           s: Store.Store, fault: bool)
    requires NextStep(f, signedIn).sent.Some?
    requires GetAuthenticatedUser(header, provider).Authenticated?
    ensures Apply(header, provider, s, AsApplyBody(Sent(f)), false, fault) == Answer(MissingFields, s)
  {
    ApplicationRequiredFields(Sent(f));
    ApplyRejectsIff(header, provider, s, AsApplyBody(Sent(f)), false, fault);
  }
}

=== FILE: user_onboarding.dfy ===
/** The onboarding page under /user (src/app/user/onboarding/page.tsx). The
    same four steps as the onboarding form, but the name step asks for one
    `userName` that only has to be non-blank, there is no country, the
    proficiency control is a plain `<select>`, and the body sends the
    username, the language rows, the slots and the timezone. Whether a
    session exists is an input, and the route's answer to the request is
    not part of this model. */
module UserOnboardingWizard {
  import opened Common
  import Store
  import opened Slots
  import opened AvailabilityRows
  import opened OnboardingRoute
  import opened Wizard

  /** `OnboardingStep`. */
  datatype Step = Name | Languages | Availability | Timezone

  /** `onboardingSteps`, in order. */
  const Steps: seq<Step> := [Name, Languages, Availability, Timezone]

  /** The position of a step in `Steps`. */
  function Index(s: Step): nat {
    match s
    case Name => 0
    case Languages => 1
    case Availability => 2
    case Timezone => 3
  }

  /** The form's state. */
  datatype Form = Form(step: Step, userName: string, picks: LanguagePicks, slots: seq<TimeSlot>,
                       timezone: string, error: Option<string>)

  /** The form as it first appears. */
  const Initial: Form := Form(Name, "", NoPicks, [], "", None)

  /** What the user can do. */
  datatype Event =
    | EditUserName(text: string)
    | ClickLanguage(language: string)
    | ChooseProficiency(index: int, value: string)
    | ToggleSlot(day: int, hour: int)
    | ChooseTimezone(zone: string)
    | Next
    | Back

  /** The form after an event, and the request body it sent, if any. */
  datatype Outcome = Outcome(form: Form, sent: Option<OnboardingBody>)

  const NameMissing: string := "Please enter your full name"
  const NoLanguage: string := "Please select at least one language to learn."
  const NoSlot: string := "Please select at least one time slot."
  const NoSession: string := "No user found"

  /** The submitted JSON: `userName`, the language rows, the slots and the
      timezone; no first name, last name or country. */
  function Body(f: Form): OnboardingBody {
    OnboardingBody(None, None, Some(f.userName), Some(f.picks.details), Some(f.slots), Some(f.timezone), None)
  }

  /** `handleNext`, and `handleSubmit` on the last step. */
  function NextStep(f: Form, signedIn: bool): (r: Outcome)
    ensures r.form.error.Some? ==> r.form.step == f.step && r.sent.None?
    ensures r.sent.Some? ==> f.step == Timezone && signedIn && r.form.error.None?
    ensures r.form.step != f.step ==> Index(r.form.step) == Index(f.step) + 1 && r.form.error.None?
  {
    var g := f.(error := None);
    match f.step
    case Name =>
      if IsBlank(f.userName) then Outcome(g.(error := Some(NameMissing)), None)
      else Outcome(g.(step := Languages), None)
    case Languages =>
      var c := CheckLanguages(f.picks, NoLanguage);
      if c.error.Some? then Outcome(g.(picks := c.picks, error := c.error), None)
      else Outcome(g.(picks := c.picks, step := Availability), None)
    case Availability =>
      if |f.slots| == 0 then Outcome(g.(error := Some(NoSlot)), None)
      else Outcome(g.(step := Timezone), None)
    case Timezone =>
      if !signedIn then Outcome(g.(error := Some(NoSession)), None)
      else Outcome(g, Some(Body(f)))
  }

  /** The Back button: clear the error and return to the previous step. It
      is not rendered on the first step. */
  function BackStep(f: Form): Form {
    StepsFacts(f.step);
    var p := Previous(Steps, f.step);
    if p.None? then f else f.(step := p.value, error := None)
  }

  /** One event. Each input belongs to one step; the proficiency `<select>`
      offers "native", "fluent", "intermediate" and "beginner". */
  function Handle(f: Form, e: Event, signedIn: bool): (r: Outcome)
    ensures r.sent.Some? ==> e.Next? && f.step == Timezone
    ensures !e.Next? ==> r.sent.None?
  {
    match e
    case EditUserName(t) => Outcome(if f.step == Name then f.(userName := t) else f, None)
    case ClickLanguage(l) => Outcome(if f.step == Languages then f.(picks := Pick(f.picks, l)) else f, None)
    case ChooseProficiency(i, v) =>
      Outcome(if f.step == Languages && v in SelectLevels then f.(picks := SetProficiency(f.picks, i, v)) else f, None)
    case ToggleSlot(d, h) => Outcome(if f.step == Availability then f.(slots := ClickSlot(f.slots, d, h)) else f, None)
    case ChooseTimezone(z) => Outcome(if f.step == Timezone then f.(timezone := z) else f, None)
    case Next => NextStep(f, signedIn)
    case Back => Outcome(BackStep(f), None)
  }

  /** What every form reached from `Initial` satisfies: the rows are in sync
      with the picks, proficiencies are option values, slots come from the
      grid, and every step before the current one passed its check. */
  predicate Consistent(f: Form) {
    && InSync(f.picks) && LevelsFrom(f.picks.details, SelectLevels) && AllGrid(f.slots)
    && (Index(f.step) >= 1 ==> !IsBlank(f.userName))
    && (Index(f.step) >= 2 ==> |f.picks.selected| > 0 && AllHaveProficiency(f.picks.details))
    && (Index(f.step) >= 3 ==> |f.slots| > 0)
  }

  /** The steps are four distinct values, each at its index, and the counter
      shows index + 1 of 4. */
  lemma {:induction false} StepsFacts(s: Step)
    ensures NoDuplicates(Steps) && |Steps| == 4
    ensures s in Steps && Steps[Index(s)] == s
    ensures StepNumber(Steps, s) == Index(s) + 1
  {
    IndexOfDistinct(Steps, Index(s));
  }

  /** The form starts on the first step, counted 1, in a consistent state. */
  lemma {:induction false} InitialFacts()
    ensures Consistent(Initial) && StepNumber(Steps, Initial.step) == 1
  {
    StepsFacts(Initial.step);
  }

  /** Back is not offered on "name"; elsewhere it clears the error, goes
      exactly one step back and keeps every field. */
  lemma {:induction false} BackFacts(f: Form)
    ensures f.step == Name ==> BackStep(f) == f
    ensures f.step != Name ==>
              Index(BackStep(f).step) == Index(f.step) - 1 && BackStep(f) == f.(step := BackStep(f).step, error := None)
  {
    StepsFacts(f.step);
    PreviousFacts(Steps, f.step);
    if f.step != Name {
      StepsFacts(Previous(Steps, f.step).value);
    }
  }

  /** Next on "name" passes exactly when the trimmed username is non-empty. */
  lemma {:induction false} NameStepIff(f: Form, signedIn: bool)
    requires f.step == Name
    ensures NextStep(f, signedIn).form.step == Languages <==> !IsBlank(f.userName)
    ensures NextStep(f, signedIn).form.step == Name ==> NextStep(f, signedIn).form.error == Some(NameMissing)
  {
  }

  /** Next on "languages" passes exactly when a language is picked and each
      picked language has a row with a proficiency. */
  lemma {:induction false} LanguagesStepIff(f: Form, signedIn: bool)
    requires f.step == Languages && Consistent(f)
    ensures NextStep(f, signedIn).form.step == Availability <==>
              |f.picks.selected| > 0
              && forall i :: 0 <= i < |f.picks.selected| ==> Lookup(f.picks.details, f.picks.selected[i]).proficiency != ""
  {
    CheckLanguagesFacts(f.picks, NoLanguage, SelectLevels);
  }

  /** Next on "availability" passes exactly when a slot is selected, and
      Next on "timezone" sends the body exactly when there is a session. */
  lemma {:induction false} LaterStepsIff(f: Form, signedIn: bool)
    ensures f.step == Availability ==> (NextStep(f, signedIn).form.step == Timezone <==> |f.slots| > 0)
    ensures f.step == Timezone ==>
              (NextStep(f, signedIn).sent == Some(Body(f)) <==> signedIn)
              && (!signedIn ==> NextStep(f, signedIn).form.error == Some(NoSession))
  {
  }

  /** Every event keeps the form consistent. */
  lemma {:induction false} HandleKeepsConsistent(f: Form, e: Event, signedIn: bool)
    requires Consistent(f)
    ensures Consistent(Handle(f, e, signedIn).form)
  {
    match e
    case ClickLanguage(l) =>
      if f.step == Languages { PickFacts(f.picks, l, SelectLevels); }
    case ChooseProficiency(i, v) =>
      if f.step == Languages && v in SelectLevels { SetProficiencyFacts(f.picks, i, v, SelectLevels); }
    case ToggleSlot(d, h) =>
      ClickSlotKeepsGrid(f.slots, d, h);
    case Next =>
      if f.step == Languages { CheckLanguagesFacts(f.picks, NoLanguage, SelectLevels); }
    case Back =>
      BackFacts(f);
    case _ =>
  }

  /** A body sent from a consistent form commits for any caller who has a
      user row: the rows hold option values, which the route accepts once
      upper-cased, and the grid slots all convert. The username is stored
      as typed, surrounding spaces included, and the first name, last name
      and country columns keep their values. */
  lemma {:induction false} SentBodyCommits(f: Form, signedIn: bool, s: Store.Store, user: Store.UserId)
    requires Consistent(f) && NextStep(f, signedIn).sent.Some? && user in s.users
    ensures Transaction(s, user, Body(f)).Some?
    ensures var u := Transaction(s, user, Body(f)).value.users[user];
      u.username == Some(f.userName) && u.firstName == s.users[user].firstName
      && u.lastName == s.users[user].lastName && u.country == s.users[user].country
  {
    var details := f.picks.details;
    GridSlotsConvert(user, f.slots, Some(f.timezone));
    forall i | 0 <= i < |details| ensures EntryProficiency(details[i]).Some? {
      OptionsParse(details[i].proficiency);
    }
    TransactionSomeIff(s, user, Body(f));
    TransactionUserFields(s, user, Body(f));
  }
}

=== FILE: validators.dfy ===
/** The validation helpers of src/lib/utils.ts: `isEmail`, which tests the
    pattern `^[^\s@]+@[^\s@]+\.[^\s@]+$`, and `isRequired`. In JavaScript
    patterns `\s` is the same whitespace set that `trim` removes. */
module Validators {
  import opened Common

  /** A character the pattern's `[^\s@]` accepts. */
  predicate Plain(c: char) {
    !IsJsSpace(c) && c != '@'
  }

  /** A run of `[^\s@]` characters (possibly empty). */
  predicate AllPlain(s: string) {
    forall i :: 0 <= i < |s| ==> Plain(s[i])
  }

  /** The pattern itself: a non-empty local part, "@", a non-empty run, ".",
      and a non-empty run, none of the three runs holding whitespace or
      "@". The dot is any one the match may pick. */
  predicate EmailPattern(v: string) {
    exists a, d :: 0 < a && a + 1 < d && d + 1 < |v| && v[a] == '@' && v[d] == '.'
                   && AllPlain(v[..a]) && AllPlain(v[a + 1..d]) && AllPlain(v[d + 1..])
  }

  /** `isEmail`, decided without searching for a split: no whitespace,
      a first "@" after at least one character and no second one, and a
      "." in the domain that is neither its first nor its last character. */
  function IsEmail(v: string): bool {
    var a := IndexOf(v, '@');
    var domain := if a < 0 then "" else v[a + 1..];
    && (forall i :: 0 <= i < |v| ==> !IsJsSpace(v[i]))
    && a > 0 && '@' !in domain
    && |domain| >= 3 && '.' in domain[1..|domain| - 1]
  }

  /** Every character of `v` but the one at `a` is plain. */
  predicate PlainExcept(v: string, a: int) {
    forall i :: 0 <= i < |v| && i != a ==> Plain(v[i])
  }

  /** A slice of plain characters is a plain run. */
  lemma {:induction false} PlainSlice(v: string, lo: int, hi: int, a: int)
    requires 0 <= lo <= hi <= |v| && PlainExcept(v, a) && !(lo <= a < hi)
    ensures AllPlain(v[lo..hi])
  {
    forall i | 0 <= i < hi - lo ensures Plain(v[lo..hi][i]) {
      assert v[lo..hi][i] == v[lo + i];
    }
  }

  /** Each character of a plain run is plain. */
  lemma {:induction false} SlicePlain(v: string, lo: int, hi: int, i: int)
    requires 0 <= lo <= i < hi <= |v| && AllPlain(v[lo..hi])
    ensures Plain(v[i])
  {
    assert v[i] == v[lo..hi][i - lo];
  }

  /** Outside the first "@", an address the direct test passes holds no
      whitespace and no "@". */
  lemma {:induction false} DirectPlainExcept(v: string, a: int)
    requires a == IndexOf(v, '@') && 0 < a
    requires forall i :: 0 <= i < |v| ==> !IsJsSpace(v[i])
    requires '@' !in v[a + 1..]
    ensures PlainExcept(v, a)
  {
    IndexOfFacts(v, '@');
    forall i | 0 <= i < |v| && i != a ensures Plain(v[i]) {
      if i < a {
        assert v[i] == v[..a][i];
      } else {
        assert v[i] == v[a + 1..][i - a - 1];
      }
    }
  }

  /** The direct test finds a "." inside the domain. */
  lemma {:induction false} DirectDot(v: string, a: int) returns (d: int)
    requires 0 <= a < |v| && |v[a + 1..]| >= 3
    requires '.' in v[a + 1..][1..|v[a + 1..]| - 1]
    ensures a + 1 < d && d + 1 < |v| && v[d] == '.'
  {
    var inner := v[a + 1..][1..|v[a + 1..]| - 1];
    var k :| 0 <= k < |inner| && inner[k] == '.';
    d := a + 2 + k;
    assert v[d] == inner[k];
  }

  /** What the direct test passes matches the pattern. */
  lemma {:induction false} IsEmailSound(v: string)
    requires IsEmail(v)
    ensures EmailPattern(v)
  {
    var a := IndexOf(v, '@');
    IndexOfFacts(v, '@');
    DirectPlainExcept(v, a);
    var d := DirectDot(v, a);
    PlainSlice(v, 0, a, a);
    PlainSlice(v, a + 1, d, a);
    PlainSlice(v, d + 1, |v|, a);
    PatternAt(v, a, d);
  }

  /** A split at a and d with three plain runs is a match. */
  lemma {:induction false} PatternAt(v: string, a: int, d: int)
    requires 0 < a && a + 1 < d && d + 1 < |v| && v[a] == '@' && v[d] == '.'
    requires AllPlain(v[..a]) && AllPlain(v[a + 1..d]) && AllPlain(v[d + 1..])
    ensures EmailPattern(v)
  {
  }

  /** The three runs of a match are plain, so only its "@" is not. */
  lemma {:induction false} PatternPlainExcept(v: string, a: int, d: int)
    requires 0 < a && a + 1 < d && d + 1 < |v| && v[d] == '.'
    requires AllPlain(v[..a]) && AllPlain(v[a + 1..d]) && AllPlain(v[d + 1..])
    ensures PlainExcept(v, a)
  {
    forall i | 0 <= i < |v| && i != a ensures Plain(v[i]) {
      if i < a {
        SlicePlain(v, 0, a, i);
      } else if a < i < d {
        SlicePlain(v, a + 1, d, i);
      } else if d < i {
        SlicePlain(v, d + 1, |v|, i);
      }
    }
  }

  /** With only its "@" not plain, `v` has that "@" first and no other. */
  lemma {:induction false} OnlyAt(v: string, a: int)
    requires 0 <= a < |v| && v[a] == '@' && PlainExcept(v, a)
    ensures IndexOf(v, '@') == a && '@' !in v[a + 1..]
    ensures forall i :: 0 <= i < |v| ==> !IsJsSpace(v[i])
  {
    IndexOfFacts(v, '@');
    var domain := v[a + 1..];
    forall j | 0 <= j < |domain| ensures domain[j] != '@' {
      assert domain[j] == v[a + 1 + j];
    }
    assert '@' !in v[..a] by {
      forall j | 0 <= j < a ensures v[..a][j] != '@' {
        assert v[..a][j] == v[j];
      }
    }
  }

  /** What matches the pattern passes the direct test. */
  lemma {:induction false} IsEmailComplete(v: string)
    requires EmailPattern(v)
    ensures IsEmail(v)
  {
    var a, d :| 0 < a && a + 1 < d && d + 1 < |v| && v[a] == '@' && v[d] == '.'
                && AllPlain(v[..a]) && AllPlain(v[a + 1..d]) && AllPlain(v[d + 1..]);
    PatternPlainExcept(v, a, d);
    OnlyAt(v, a);
    DotInDomain(v, a, d);
    DirectTest(v, a);
  }

  /** The direct test's four conditions, for the "@" at a. */
  lemma {:induction false} DirectTest(v: string, a: int)
    requires 0 < a < |v| && IndexOf(v, '@') == a && '@' !in v[a + 1..]
    requires forall i :: 0 <= i < |v| ==> !IsJsSpace(v[i])
    requires |v[a + 1..]| >= 3 && '.' in v[a + 1..][1..|v[a + 1..]| - 1]
    ensures IsEmail(v)
  {
  }

  /** A "." at d lies strictly inside the domain after the "@" at a. */
  lemma {:induction false} DotInDomain(v: string, a: int, d: int)
    requires 0 < a && a + 1 < d && d + 1 < |v| && v[d] == '.'
    ensures |v[a + 1..]| >= 3 && '.' in v[a + 1..][1..|v[a + 1..]| - 1]
  {
    var domain := v[a + 1..];
    assert domain[1..|domain| - 1][d - a - 2] == v[d];
  }

  /** The direct test decides the pattern. */
  lemma {:induction false} IsEmailIffPattern(v: string)
    ensures IsEmail(v) <==> EmailPattern(v)
  {
    if IsEmail(v) {
      IsEmailSound(v);
    }
    if EmailPattern(v) {
      IsEmailComplete(v);
    }
  }

  /** The two examples: "a@b.c" passes and "a@b" does not. */
  lemma {:induction false} EmailExamples()
    ensures IsEmail("a@b.c") && !IsEmail("a@b")
    ensures EmailPattern("a@b.c") && !EmailPattern("a@b")
  {
    ExampleAccepted();
    ExampleRejected();
  }

  /** "a@b.c" passes the direct test, so it matches. */
  lemma {:induction false} ExampleAccepted()
    ensures IsEmail("a@b.c") && EmailPattern("a@b.c")
  {
    var v := "a@b.c";
    IndexOfFacts(v, '@');
    assert v[2..] == "b.c" && v[2..][1..2] == ".";
    DirectTest(v, 1);
    IsEmailSound(v);
  }

  /** "a@b" has a one-character domain, so it fails and does not match. */
  lemma {:induction false} ExampleRejected()
    ensures !IsEmail("a@b") && !EmailPattern("a@b")
  {
    var v := "a@b";
    IndexOfFacts(v, '@');
    assert IndexOf(v, '@') == 1 && |v[2..]| == 1;
    if EmailPattern(v) {
      IsEmailComplete(v);
    }
  }

  /** A JavaScript value as `isRequired` sees it. */
  datatype JsValue = Undefined | Null | Str(s: string) | Num(n: int) | Bool(b: bool)

  /** `isRequired`: present unless undefined, null or the empty string. */
  predicate IsRequired(v: JsValue) {
    v != Undefined && v != Null && v != Str("")
  }

  /** Exactly three values are missing; zero, false and any non-empty
      string count as present. */
  lemma {:induction false} IsRequiredCases(v: JsValue)
    ensures !IsRequired(v) <==> v == Undefined || v == Null || v == Str("")
    ensures v.Num? || v.Bool? ==> IsRequired(v)
    ensures IsRequired(Num(0)) && IsRequired(Bool(false)) && IsRequired(Str(" "))
  {
  }
}

=== FILE: wizard.dfy ===
/** Pieces shared by the six multi-step forms (the two onboarding forms, the
    onboarding page and the three tutor-application forms): moving through a
    fixed list of steps, the language step with its proficiency rows, the
    username rule and the weekly slot grid. Each form is its own step
    machine, in its own module, built from these pieces.

    A form's state is a value; a user action is an event applied to it. A
    control that a step does not render cannot produce an event, and an
    event from such a control leaves the form as it is. */
module Wizard {
  import opened Common
  import opened Selection
  import opened Store
  import opened Slots
  import opened AvailabilityRows
  import opened OnboardingRoute
  import opened ApplyRoute
  import opened Http
  import opened Auth

  // ---------------------------------------------------------------------------
  // Steps
  // ---------------------------------------------------------------------------

  /** The step counter "n / total": `steps.indexOf(current) + 1`. */
  function StepNumber<S(==)>(steps: seq<S>, current: S): int {
    IndexOf(steps, current) + 1
  }

  /** The Back button: `steps[steps.indexOf(current) - 1]`, or `None` on the
      first step, where the button is not rendered. */
  function Previous<S(==)>(steps: seq<S>, current: S): Option<S>
    requires current in steps
  {
    IndexOfFacts(steps, current);
    if current == steps[0] then None else Some(steps[IndexOf(steps, current) - 1])
  }

  /** In a list of distinct steps, the counter of every step lies in
      1..|steps| and names its position; Back is missing exactly on the first
      step and otherwise lands on the step whose counter is one lower. */
  lemma {:induction false} PreviousFacts<S>(steps: seq<S>, current: S)
    requires NoDuplicates(steps) && current in steps
    ensures 1 <= StepNumber(steps, current) <= |steps|
    ensures steps[StepNumber(steps, current) - 1] == current
    ensures Previous(steps, current).None? <==> current == steps[0]
    ensures Previous(steps, current).Some? ==>
              Previous(steps, current).value in steps
              && StepNumber(steps, Previous(steps, current).value) == StepNumber(steps, current) - 1
  {
    IndexOfFacts(steps, current);
    var i := IndexOf(steps, current);
    if i > 0 {
      IndexOfDistinct(steps, i - 1);
    }
  }

  // ---------------------------------------------------------------------------
  // The language step
  // ---------------------------------------------------------------------------

  /** `selectedLanguages` and `languageDetails`: the picked languages and one
      proficiency row per language. */
  datatype LanguagePicks = LanguagePicks(selected: seq<string>, details: seq<LanguageDetail>)

  /** Nothing picked yet. */
  const NoPicks: LanguagePicks := LanguagePicks([], [])

  /** `details.find(d => d.language === language)`. */
  function FindDetail(details: seq<LanguageDetail>, language: string): (r: Option<LanguageDetail>)
    ensures r.Some? ==> r.value.language == language
  {
    if details == [] then None
    else if details[0].language == language then Some(details[0])
    else FindDetail(details[1..], language)
  }

  /** The row kept for a selected language: the existing one, or
      `{ language, proficiency: "" }`. */
  function Lookup(details: seq<LanguageDetail>, language: string): (r: LanguageDetail)
    ensures r.language == language
  {
    FindDetail(details, language).GetOr(LanguageDetail(language, ""))
  }

  /** The resync `selected.map(lang => find(lang) ?? { lang, "" })`, run by
      the picker's `onChange` and again by Next on the language step. */
  function Resync(selected: seq<string>, details: seq<LanguageDetail>): (r: seq<LanguageDetail>)
    ensures |r| == |selected|
  {
    if selected == [] then [] else [Lookup(details, selected[0])] + Resync(selected[1..], details)
  }

  /** The rows follow the selection one to one, and no language is picked
      twice. */
  predicate InSync(p: LanguagePicks) {
    Keys(p.details) == p.selected && NoDuplicates(p.selected)
  }

  /** A click on a language: the picker toggles it and hands the new list to
      `onChange`, which resyncs the rows. */
  function Pick(p: LanguagePicks, language: string): LanguagePicks {
    var selected := Toggle(p.selected, language);
    LanguagePicks(selected, Resync(selected, p.details))
  }

  /** A choice in the proficiency control of row `index`:
      `copy[index] = { ...copy[index], proficiency: value }`. Only rendered
      rows can be chosen from, so any other index changes nothing. */
  function SetProficiency(p: LanguagePicks, index: int, value: string): LanguagePicks {
    if 0 <= index < |p.details| then p.(details := p.details[index := p.details[index].(proficiency := value)])
    else p
  }

  /** No row has the empty (falsy) proficiency. */
  predicate AllHaveProficiency(details: seq<LanguageDetail>) {
    forall i :: 0 <= i < |details| ==> details[i].proficiency != ""
  }

  /** Every proficiency is empty or one of the control's options. */
  predicate LevelsFrom(details: seq<LanguageDetail>, options: seq<string>) {
    forall i :: 0 <= i < |details| ==> details[i].proficiency == "" || details[i].proficiency in options
  }

  /** The message for a row without proficiency. */
  const ProficiencyMissing: string := "Please set proficiency for each selected language."

  /** The language step's Next: its picks afterwards and its error. */
  datatype LanguageCheck = LanguageCheck(picks: LanguagePicks, error: Option<string>)

  /** Next on the language step: an empty selection fails with the form's own
      message and keeps the rows; otherwise the rows are resynced (kept even
      when the check then fails) and every one needs a proficiency. */
  function CheckLanguages(p: LanguagePicks, noneSelected: string): (r: LanguageCheck)
    ensures r.picks.selected == p.selected
    ensures r.error.Some? ==> r.error == Some(noneSelected) || r.error == Some(ProficiencyMissing)
  {
    if |p.selected| == 0 then LanguageCheck(p, Some(noneSelected))
    else
      var updated := Resync(p.selected, p.details);
      if !AllHaveProficiency(updated) then LanguageCheck(p.(details := updated), Some(ProficiencyMissing))
      else LanguageCheck(p.(details := updated), None)
  }

  /** The i-th key is the i-th row's language. */
  lemma {:induction false} KeysAt(details: seq<LanguageDetail>, i: int)
    requires 0 <= i < |details|
    ensures Keys(details)[i] == details[i].language
  {
    if i > 0 {
      KeysAt(details[1..], i - 1);
    }
  }

  /** Row i of the resync is the lookup of the i-th selected language. */
  lemma {:induction false} ResyncAt(selected: seq<string>, details: seq<LanguageDetail>, i: int)
    requires 0 <= i < |selected|
    ensures Resync(selected, details)[i] == Lookup(details, selected[i])
  {
    if i > 0 {
      ResyncAt(selected[1..], details, i - 1);
    }
  }

  /** The search finds the first row for a language. */
  lemma {:induction false} FindDetailFirst(details: seq<LanguageDetail>, language: string, i: int)
    requires 0 <= i < |details| && details[i].language == language
    requires forall j :: 0 <= j < i ==> details[j].language != language
    ensures FindDetail(details, language) == Some(details[i])
  {
    if i > 0 {
      assert details[0].language != language;
      forall j | 0 <= j < i - 1 ensures details[1..][j].language != language {
        assert details[1..][j] == details[j + 1];
      }
      FindDetailFirst(details[1..], language, i - 1);
    }
  }

  /** No row for a language means the search finds nothing. */
  lemma {:induction false} FindDetailNone(details: seq<LanguageDetail>, language: string)
    requires forall j :: 0 <= j < |details| ==> details[j].language != language
    ensures FindDetail(details, language).None?
  {
    if details != [] {
      assert details[0].language != language;
      forall j | 0 <= j < |details| - 1 ensures details[1..][j].language != language {
        assert details[1..][j] == details[j + 1];
      }
      FindDetailNone(details[1..], language);
    }
  }

  /** The resync makes the rows follow the selection in order: row i is for
      the i-th selected language, keeps the first existing row for it, and is
      a new row without proficiency when none existed. Deselected languages
      lose their rows. */
  lemma {:induction false} ResyncFacts(selected: seq<string>, details: seq<LanguageDetail>, i: int, j: int)
    requires 0 <= i < |selected|
    ensures Keys(Resync(selected, details)) == selected
    ensures (forall k :: 0 <= k < |details| ==> details[k].language != selected[i]) ==>
              Resync(selected, details)[i] == LanguageDetail(selected[i], "")
    ensures 0 <= j < |details| && details[j].language == selected[i]
            && (forall k :: 0 <= k < j ==> details[k].language != selected[i]) ==>
              Resync(selected, details)[i] == details[j]
  {
    var r := Resync(selected, details);
    forall k | 0 <= k < |selected| ensures Keys(r)[k] == selected[k] {
      KeysAt(r, k);
      ResyncAt(selected, details, k);
    }
    ResyncAt(selected, details, i);
    if forall k :: 0 <= k < |details| ==> details[k].language != selected[i] {
      FindDetailNone(details, selected[i]);
    }
    if 0 <= j < |details| && details[j].language == selected[i]
       && (forall k :: 0 <= k < j ==> details[k].language != selected[i]) {
      FindDetailFirst(details, selected[i], j);
    }
  }

  /** Rows already in sync are left exactly as they are, so the second
      resync on Next changes nothing that the picker's resync did not. */
  lemma {:induction false} ResyncInSync(p: LanguagePicks)
    requires InSync(p)
    ensures Resync(p.selected, p.details) == p.details
  {
    var r := Resync(p.selected, p.details);
    forall i | 0 <= i < |p.details| ensures r[i] == p.details[i] {
      KeysAt(p.details, i);
      forall k | 0 <= k < i ensures p.details[k].language != p.selected[i] {
        KeysAt(p.details, k);
      }
      ResyncFacts(p.selected, p.details, i, i);
    }
  }

  /** The resync of a duplicate-free selection is in sync with it. */
  lemma {:induction false} ResyncMakesInSync(selected: seq<string>, details: seq<LanguageDetail>)
    requires NoDuplicates(selected)
    ensures InSync(LanguagePicks(selected, Resync(selected, details)))
  {
    if selected != [] {
      ResyncFacts(selected, details, 0, 0);
    }
  }

  /** The resync invents no proficiency: every row it yields is an existing
      row or has none. */
  lemma {:induction false} ResyncKeepsLevels(selected: seq<string>, details: seq<LanguageDetail>, options: seq<string>)
    requires LevelsFrom(details, options)
    ensures LevelsFrom(Resync(selected, details), options)
  {
    var r := Resync(selected, details);
    forall i | 0 <= i < |r| ensures r[i].proficiency == "" || r[i].proficiency in options {
      ResyncAt(selected, details, i);
      LookupIsExisting(details, selected[i]);
    }
  }

  /** A lookup yields an existing row or a row without proficiency. */
  lemma {:induction false} LookupIsExisting(details: seq<LanguageDetail>, language: string)
    ensures Lookup(details, language) in details || Lookup(details, language).proficiency == ""
  {
    if details != [] && details[0].language != language {
      LookupIsExisting(details[1..], language);
    }
  }

  /** A click on a language keeps the picks in sync and the proficiencies
      within the options; the language is picked exactly when it was not. */
  lemma {:induction false} PickFacts(p: LanguagePicks, language: string, options: seq<string>)
    requires InSync(p) && LevelsFrom(p.details, options)
    ensures InSync(Pick(p, language)) && LevelsFrom(Pick(p, language).details, options)
    ensures language in Pick(p, language).selected <==> language !in p.selected
  {
    var selected := Toggle(p.selected, language);
    ToggleKeepsDistinct(p.selected, language);
    ResyncMakesInSync(selected, p.details);
    ResyncKeepsLevels(selected, p.details, options);
  }

  /** A proficiency choice changes only that row's proficiency, so the picks
      stay in sync, and an offered value keeps every level within the
      options. */
  lemma {:induction false} SetProficiencyFacts(p: LanguagePicks, index: int, value: string, options: seq<string>)
    requires InSync(p) && LevelsFrom(p.details, options) && value in options
    ensures InSync(SetProficiency(p, index, value))
    ensures LevelsFrom(SetProficiency(p, index, value).details, options)
    ensures 0 <= index < |p.details| ==> SetProficiency(p, index, value).details[index].proficiency == value
  {
    var q := SetProficiency(p, index, value);
    forall k | 0 <= k < |q.details| ensures Keys(q.details)[k] == Keys(p.details)[k] {
      KeysAt(q.details, k);
      KeysAt(p.details, k);
    }
  }

  /** Next on the language step passes exactly when something is picked and
      every picked language already has a row with a proficiency; after it
      the rows are in sync with the picks, and the levels stay within the
      options. */
  lemma {:induction false} CheckLanguagesFacts(p: LanguagePicks, noneSelected: string, options: seq<string>)
    requires NoDuplicates(p.selected) && LevelsFrom(p.details, options)
    ensures CheckLanguages(p, noneSelected).error.None? <==>
              |p.selected| > 0 && forall i :: 0 <= i < |p.selected| ==> Lookup(p.details, p.selected[i]).proficiency != ""
    ensures CheckLanguages(p, noneSelected).error.None? ==> AllHaveProficiency(CheckLanguages(p, noneSelected).picks.details)
    ensures |p.selected| > 0 ==> InSync(CheckLanguages(p, noneSelected).picks)
    ensures LevelsFrom(CheckLanguages(p, noneSelected).picks.details, options)
  {
    var updated := Resync(p.selected, p.details);
    forall i | 0 <= i < |p.selected| ensures updated[i] == Lookup(p.details, p.selected[i]) {
      ResyncAt(p.selected, p.details, i);
    }
    ResyncMakesInSync(p.selected, p.details);
    ResyncKeepsLevels(p.selected, p.details, options);
  }

  // ---------------------------------------------------------------------------
  // Usernames
  // ---------------------------------------------------------------------------

  /** A character of the class `[A-Za-z0-9_]`. */
  predicate IsWordChar(c: char) {
    ('A' <= c <= 'Z') || ('a' <= c <= 'z') || ('0' <= c <= '9') || c == '_'
  }

  /** `/^[A-Za-z0-9_]+$/.test(s)`: one or more word characters and nothing
      else. */
  predicate IsUsername(s: string) {
    |s| > 0 && forall i :: 0 <= i < |s| ==> IsWordChar(s[i])
  }

  /** A username is one word: it is not blank and splits on spaces into
      itself. */
  lemma {:induction false} UsernameIsOneWord(s: string)
    requires IsUsername(s)
    ensures !IsBlank(s)
    ensures Split(s, ' ') == [s]
  {
    BlankIffAllSpace(s);
    assert IsWordChar(s[0]) && !IsJsSpace(s[0]);
    assert ' ' !in s by {
      forall i | 0 <= i < |s| ensures s[i] != ' ' {
        assert IsWordChar(s[i]);
      }
    }
    SplitNoSep(s, ' ');
  }

  // ---------------------------------------------------------------------------
  // The weekly slot grid
  // ---------------------------------------------------------------------------

  /** A slot the weekly picker can produce: a `DAYS` entry and one of the 24
      hourly `TIME_SLOTS`. */
  predicate IsGridSlot(t: TimeSlot) {
    t.day in Days && exists h :: 0 <= h < SlotCount && t.start == SlotStart(h) && t.end == SlotEnd(h)
  }

  /** Every selected slot comes from the grid. */
  predicate AllGrid(slots: seq<TimeSlot>) {
    forall i :: 0 <= i < |slots| ==> IsGridSlot(slots[i])
  }

  /** A click on hour `hour` of day tab `day`; the grid has no other cells. */
  function ClickSlot(slots: seq<TimeSlot>, day: int, hour: int): seq<TimeSlot> {
    if 0 <= day < |Days| && 0 <= hour < SlotCount then ToggleTimeSlot(slots, Days[day], SlotStart(hour), SlotEnd(hour))
    else slots
  }

  /** Clicks keep the selection on the grid. */
  lemma {:induction false} ClickSlotKeepsGrid(slots: seq<TimeSlot>, day: int, hour: int)
    requires AllGrid(slots)
    ensures AllGrid(ClickSlot(slots, day, hour))
  {
    if 0 <= day < |Days| && 0 <= hour < SlotCount {
      var t := TimeSlot(Days[day], SlotStart(hour), SlotEnd(hour));
      ToggleTimeSlotIsToggle(slots, Days[day], SlotStart(hour), SlotEnd(hour));
      var r := Toggle(slots, t);
      forall i | 0 <= i < |r| ensures IsGridSlot(r[i]) {
        assert r[i] in r;
        if r[i] != t {
          var k :| 0 <= k < |slots| && slots[k] == r[i];
          assert IsGridSlot(slots[k]);
        }
      }
    }
  }

  /** One grid slot converts to a row. */
  lemma {:induction false} GridSlotConverts(user: UserId, t: TimeSlot, timezone: Option<string>)
    requires IsGridSlot(t)
    ensures ConvertSlot(user, t, timezone).Some?
  {
    var h :| 0 <= h < SlotCount && t.start == SlotStart(h) && t.end == SlotEnd(h);
    SlotMinutes(h);
  }

  /** Grid slots always convert: both labels of every hourly slot read as
      numbers, so no submitted grid slot makes a write fail. */
  lemma {:induction false} GridSlotsConvert(user: UserId, slots: seq<TimeSlot>, timezone: Option<string>)
    requires AllGrid(slots)
    ensures ConvertSlots(user, slots, timezone).Some?
  {
    if slots != [] {
      GridSlotConverts(user, slots[0], timezone);
      assert AllGrid(slots[1..]) by {
        forall i | 0 <= i < |slots[1..]| ensures IsGridSlot(slots[1..][i]) {
          assert slots[1..][i] == slots[i + 1];
        }
      }
      GridSlotsConvert(user, slots[1..], timezone);
    }
  }

  // ---------------------------------------------------------------------------
  // Proficiency options
  // ---------------------------------------------------------------------------

  /** `LANGUAGE_PROFICIENCY`, the options of the proficiency dropdown. */
  const ProficiencyLevels: seq<string> := ["NATIVE", "FLUENT", "ADVANCED", "INTERMEDIATE", "BEGINNER"]

  /** The options of the plain proficiency `<select>` (the values of
      `LANGUAGE_DIFFICULTY`). */
  const SelectLevels: seq<string> := ["native", "fluent", "intermediate", "beginner"]

  /** Every option of either control is accepted by the onboarding route once
      upper-cased. */
  lemma {:induction false} OptionsParse(v: string)
    requires v in ProficiencyLevels || v in SelectLevels
    ensures ParseProficiency(ToUpper(v)).Some?
  {
    if v in ProficiencyLevels {
      ToUpperOfUpper(v);
    } else if v == "native" {
      assert ToUpper(v) == "NATIVE";
    } else if v == "fluent" {
      assert ToUpper(v) == "FLUENT";
    } else if v == "intermediate" {
      assert ToUpper(v) == "INTERMEDIATE";
    } else {
      assert ToUpper(v) == "BEGINNER";
    }
  }

  // ---------------------------------------------------------------------------
  // Tutor applications
  // ---------------------------------------------------------------------------

  /** The JSON an application form sends to `POST /api/tutor/apply`: the
      intro, the language rows under `languagesTaught`, the experience, and a
      country when the form has one. */
  datatype Application = Application(intro: string, languagesTaught: seq<LanguageDetail>,
                                     teachingExperience: string, country: Option<string>)

  /** A language row as JSON: `{ language, proficiency }`. */
  function DetailJson(d: LanguageDetail): Json {
    JObject([("language", JString(d.language)), ("proficiency", JString(d.proficiency))])
  }

  /** The body as the apply route reads it: texts, the language rows as an
      array of `{ language, proficiency }` objects in order, and the country
      when the form has one. */
  function AsApplyBody(a: Application): (r: ApplyBody)
    ensures r.languagesTaught.Some? && r.languagesTaught.value.JArray?
    ensures |r.languagesTaught.value.items| == |a.languagesTaught|
    ensures forall i :: 0 <= i < |a.languagesTaught| ==>
              r.languagesTaught.value.items[i]
              == JObject([("language", JString(a.languagesTaught[i].language)),
                          ("proficiency", JString(a.languagesTaught[i].proficiency))])
    ensures r.country.Some? <==> a.country.Some?
    ensures a.country.Some? ==>
              && Storable(r) && ProfileOf(r).intro == a.intro
              && ProfileOf(r).teachingExperience == a.teachingExperience && ProfileOf(r).country == a.country.value
  {
    var rows := seq(|a.languagesTaught|, i requires 0 <= i < |a.languagesTaught| => DetailJson(a.languagesTaught[i]));
    ApplyBody(Some(JString(a.intro)), Some(JArray(rows)), Some(JString(a.teachingExperience)),
              if a.country.Some? then Some(JString(a.country.value)) else None)
  }

  /** An application passes the route's required-field check exactly when
      its intro and experience are non-empty, it has a language row, and it
      carries a non-empty country; a non-blank text is non-empty. */
  lemma {:induction false} ApplicationRequiredFields(a: Application)
    ensures HasRequiredFields(AsApplyBody(a)) <==>
              a.intro != "" && |a.languagesTaught| > 0 && a.teachingExperience != ""
              && a.country.Some? && a.country.value != ""
    ensures !IsBlank(a.intro) ==> a.intro != ""
    ensures !IsBlank(a.teachingExperience) ==> a.teachingExperience != ""
  {
  }

  /** An application that passes the required-field check, sent by a
      signed-in caller with a `User` row, is stored as sent: the profile
      holds the texts and one `{ language, proficiency }` object per
      language row, in order. */
  lemma {:induction false} ApplicationStored(a: Application, header: Option<string>, provider: map<string, UserId>, s: Store,
                          user: UserId, i: int)
    requires GetAuthenticatedUser(header, provider) == Authenticated(user) && user in s.users
    requires HasRequiredFields(AsApplyBody(a))
    requires 0 <= i < |a.languagesTaught|
    ensures var r := Apply(header, provider, s, AsApplyBody(a), false, false);
      && r.reply == Success(true)
      && r.store.tutorProfiles[user].intro == a.intro
      && r.store.tutorProfiles[user].teachingExperience == a.teachingExperience
      && a.country.Some? && r.store.tutorProfiles[user].country == a.country.value
      && |r.store.tutorProfiles[user].languagesTaught| == |a.languagesTaught|
      && r.store.tutorProfiles[user].languagesTaught[i]
         == JObject([("language", JString(a.languagesTaught[i].language)),
                     ("proficiency", JString(a.languagesTaught[i].proficiency))])
  {
    ApplicationRequiredFields(a);
    ApplySucceeds(header, provider, s, AsApplyBody(a), user, user, "", Submitted);
  }
}
